=== FILE: README.md ===
# IoT Sentinel device-discovery engine in Dafny

This project models the backend agent of IoT Sentinel, a smart-home dashboard. The agent
sweeps the local network and takes each host the sweep reports. It fingerprints the host
with a MAC-vendor table and with hostname, port and service heuristics. It then scores the
host's exposure and merges it into an in-memory inventory, which it publishes with derived
network statistics.

The modules follow the repository's files:

| module | file | models |
|---|---|---|
| `Common` | (helpers) | `Option`/`Result`; the JavaScript string operations used by the source: `toLowerCase`, `toUpperCase`, `includes`, `split`/`join`, `\|\|` defaulting; a keyed update loop and its distinct-key facts |
| `MacVendors` | `backend/agent/data/macVendors.js` | the 81-entry OUI table in declaration order, and `lookupVendor` |
| `VendorExamples` | `backend/agent/data/macVendors.js` | worked lookups |
| `Devices` | `backend/agent/modules/deviceIdentifier.js` | the host record the classifier reads |
| `DeviceIdentifier` | `backend/agent/modules/deviceIdentifier.js` | manufacturer, type, model, firmware, capabilities, display name and the classifier's own score |
| `NetworkRange` | `backend/agent/modules/deviceDetector.js` | `calculateNetworkRange` and `binaryToIp` |
| `DeviceDetector` | `backend/agent/modules/deviceDetector.js` | the scan guard and reset, normalisation of sweep results, the detector's own `identifyDevice`, and the primary/watchdog/fallback scan race as an event-driven state machine |
| `IoTAgent` | `backend/agent/index.js` | `processDevices` and the `scanComplete` listener, `scan()`, the security status and score, the inventory, network statistics, the status loop, `start`/`stop`, the scan guard, and the vulnerability assessment |

JavaScript semantics are stated explicitly:
- An object literal with a repeated key keeps the later value.
- Absent fields read as `""` or `[]`, since every reader defaults them with `||`.
- `Map` iterates in insertion order.
- A promise settles once; later `resolve`/`reject` calls are ignored.
- Each event handler runs to completion before the next event.
- A cleared timer never fires.

Clocks, the sweep primitive and regular-expression matches become parameters or events.

### Notable behaviour of the code

- **MAC prefixes.** `lookupVendor` tries the 6-, then 7-, then 8-digit prefix and takes the first hit (`macVendors.js:130-146`). Every table key has 6 digits, so only the 6-digit prefix can ever match.
- **Raspberry Pi with ports 22 and 80.** The classifier types such a device `Network Device`. The agent then sets the status and score from its own assessment (`index.js:316-319`), so the device is published `Secured` with score 90 (`IoTAgent.TwoSafePortsExample`).
- **Fallback timer.** The fallback timer rejects the scan but does not set the `isCompleted` flag that the fallback handlers test (`deviceDetector.js:217-223`). Its `resetScanState` also cancels the fallback sweep (`deviceDetector.js:23-29`). If a cancelled sweep can still report completion, that completion emits `scanComplete` after the scan was already rejected (`DeviceDetector.LateFallbackCompletion`).
- **Fallback guard.** The guard at the top of `performFallbackScan` never refuses, because the watchdog clears `isScanning` before calling it.
- **Detector's typed name.** In the detector's `identifyDevice`, the branch that names a device `"<type> (<octet>)"` is dead. Whenever a type is known, a name has already been chosen.
- **`newDevices`.** It is always 0, because `countNewDevices` runs after the inventory was updated with the same timestamps (`IoTAgent.NewDevicesAlwaysZero`).
- **Network load.** No device the agent stores can earn a type bonus in `calculateNetworkLoad`. The bonus keys are `camera`, `surveillance`, `smarthub`, `gateway`, `smartphone` and `computer`, and none of them is the lower-cased form of a type the classifier produces (`IoTAgent.ProcessedDeviceHasNoBonus`).
- **Vulnerability ports.** Sensitive-port matching in `assessDeviceVulnerabilities` compares against strings (`'21'`, …), so numeric ports never match (`IoTAgent.NumericPortsNeverSensitive`).
- **`start()` begins a scan at once.** `startPeriodicScan` calls `startScan()` without waiting, so when `start()` returns the detector is already scanning (`IoTAgent.Start`). The `scan()` that `start()` schedules one second later then finds that scan running and is refused with "Scan already in progress" (`IoTAgent.DelayedScanRefused`).
- **Every batch is processed twice by `scan()`.** The constructor subscribes `processDevices` to the detector's `scanComplete` (`index.js:39`), and `scan()` calls `processDevices` again on the same devices (`index.js:268`). So a scan started by `scan()` emits two `devicesUpdate` payloads with two timestamps. Scans started by the detector's own interval reach the inventory only through the listener (`IoTAgent.AgentScan`).
- **Second store.** `scan()` also stores the processed devices again after `processDevices` has stored them. That store changes nothing (`IoTAgent.StoringAgainChangesNothing`).
- **Scan duration.** `scanDetails.duration` reads `lastScanDuration`, a field the detector never sets, so it is always undefined. The model's `ScanDetails` has no duration.

## Model

| member | source | states |
|---|---|---|
| MacVendors.KeyTextMatch | backend/agent/data/macVendors.js:4-120 | a table key `"XX:XX:XX"` and the OUI it denotes determine each other |
| MacVendors.FindConcat | backend/agent/data/macVendors.js:2-121 | looking a key up in a table built from two parts gives the later part's entry when it has one: the later duplicate key wins |
| MacVendors.DeclaredByKey | backend/agent/data/macVendors.js:2-121 | indexing the table by a string finds an entry exactly when the string is key-shaped and its OUI is declared |
| MacVendors.DuplicateKeyLg | backend/agent/data/macVendors.js:18-95 | `00:24:E4` is declared for Xiaomi and for LG; the object keeps LG Smart TV |
| MacVendors.DuplicateKeyHikvision | backend/agent/data/macVendors.js:83-112 | `B0:C5:54` is declared for Samsung SmartThings and for Hikvision; the object keeps Hikvision Camera |
| MacVendors.NormalizeMac | backend/agent/data/macVendors.js:127 | normalising keeps only hex digits, upper-cased, and never lengthens the MAC |
| MacVendors.NormalizeMacAppend | backend/agent/data/macVendors.js:127 | normalisation works character by character: it distributes over concatenation |
| MacVendors.NormalizeMacEmpty | backend/agent/data/macVendors.js:127 | the normalised MAC is empty exactly when no character is a hex digit |
| MacVendors.FormatPrefixLength | backend/agent/data/macVendors.js:137-139 | formatting a prefix into colon-separated pairs adds one colon between each pair |
| MacVendors.FormatSix | backend/agent/data/macVendors.js:137-139 | a six-digit prefix formats as `AB:CD:EF` |
| MacVendors.FirstDeclared | backend/agent/data/macVendors.js:142-148 | when some prefix is declared, the result is the vendor of the first declared one; when none is, it is the Unknown vendor |
| MacVendors.LookupVendor | backend/agent/data/macVendors.js:123-149 | an empty MAC gives the Unknown vendor; the lookup fails (the source throws on an empty `match`) exactly when a non-empty MAC has no hex digit |
| MacVendors.LookupUsesFirstSixDigits | backend/agent/data/macVendors.js:130-148 | the vendor is decided by the first six normalised digits alone |
| MacVendors.LookupIgnoresCaseAndSeparators | backend/agent/data/macVendors.js:127-148 | two MACs with the same normalisation get the same answer |
| MacVendors.LookupAnswersFromTable | backend/agent/data/macVendors.js:142-148 | every answer is the Unknown vendor or one of the table's vendors |
| MacVendors.NormalizeSeparatedMac | backend/agent/data/macVendors.js:127 | for `aa:bb:cc:…` the first six normalised digits are the first three pairs upper-cased |
| MacVendors.LookupSeparatedMac | backend/agent/data/macVendors.js:123-149 | a colon- or dash-separated MAC is answered by the entry for its leading `XX:XX:XX` |
| MacVendors.LookupHit | backend/agent/data/macVendors.js:123-149 | a separated MAC whose leading key is declared gets that key's vendor |
| MacVendors.FindB827Eb | backend/agent/data/macVendors.js:75 | `B8:27:EB` is Raspberry Pi, IoT Device |
| MacVendors.AppleOuiLookup | backend/agent/data/macVendors.js:4-148 | a MAC starting `AC:BC:32` is Apple, iOS Device |
| VendorExamples.AppleExample | backend/agent/data/macVendors.js:123-149 | `lookupVendor("AC:BC:32:11:22:33")` is Apple, iOS Device |
| VendorExamples.AppleExampleLowerCase | backend/agent/data/macVendors.js:127-149 | the lower-case, dash-separated spelling gets the same answer |
| DeviceIdentifier.ManufacturerFromHints | backend/agent/modules/deviceIdentifier.js:134-146 | Apple hints take precedence over Android hints, which take precedence over Windows hints; with no hint the answer is Unknown; under an Android hint the hostname keywords samsung, huawei and xiaomi are tried in that order, each answer given exactly when its keyword is the first one present, and Android Device Manufacturer is the answer when none is |
| DeviceIdentifier.GetManufacturer | backend/agent/modules/deviceIdentifier.js:126-147 | no MAC gives Unknown; a known vendor name wins; otherwise the OS and hostname hints decide |
| DeviceIdentifier.ManufacturerIgnoresHints | backend/agent/modules/deviceIdentifier.js:127-132 | once the vendor table knows the MAC, hostname and OS do not matter |
| DeviceIdentifier.ManufacturerHintPrecedence | backend/agent/modules/deviceIdentifier.js:134-146 | the precedence of the Apple, Android and Windows hints |
| DeviceIdentifier.ManufacturerValues | backend/agent/modules/deviceIdentifier.js:126-147 | the manufacturer is a vendor name, a hint result or Unknown |
| DeviceIdentifier.GuessDeviceTypeFromPorts | backend/agent/modules/deviceIdentifier.js:314-331 | 80 and 443 together give Network Device, then 8080 or 554 Security Camera, then 515 or 631 Printer, then 1883 or 8883 Smart Hub, otherwise Network Device; each outcome is given with its exact condition |
| DeviceIdentifier.GuessUsesPortSet | backend/agent/modules/deviceIdentifier.js:314-331 | the guess depends only on which ports are open |
| DeviceIdentifier.GuessExample | backend/agent/modules/deviceIdentifier.js:316-318 | ports 80, 443 and 554 give Network Device: the web rule comes first |
| DeviceIdentifier.DetermineDeviceType | backend/agent/modules/deviceIdentifier.js:264-311 | the type is always one of the eight classifier types, never Unknown Device |
| DeviceIdentifier.NetworkVendorRouter | backend/agent/modules/deviceIdentifier.js:269-276 | a network vendor is a Router exactly when port 80 or 443 is open, else a Network Device |
| DeviceIdentifier.TypeFromPortsOnlyWhenNoRule | backend/agent/modules/deviceIdentifier.js:306-310 | the port guess is used exactly when no manufacturer rule applies |
| DeviceIdentifier.ConsolesAreNintendoOrMicrosoft | backend/agent/modules/deviceIdentifier.js:269-303 | a Gaming Console is made by Nintendo or Microsoft, and never by a network, camera or TV vendor |
| DeviceIdentifier.SonyIsSmartTv | backend/agent/modules/deviceIdentifier.js:295-303 | Sony without an earlier rule is a Smart TV, so the Sony console branch is unreachable |
| DeviceIdentifier.FirstBrand | backend/agent/modules/deviceIdentifier.js:156-161 | the first brand of the model table that matches hostname, OS or manufacturer |
| DeviceIdentifier.FirstModel | backend/agent/modules/deviceIdentifier.js:163-167 | the first of a brand's models whose key occurs in the hostname |
| DeviceIdentifier.ModelFromBrandTable | backend/agent/modules/deviceIdentifier.js:150-170 | when a brand matches, the model comes from the table and the hostname patterns are not consulted |
| DeviceIdentifier.ModelFromPatterns | backend/agent/modules/deviceIdentifier.js:173-185 | without a brand, the model is the upper-cased token the hostname patterns capture (no lower-case letter, same length); with no token it is Unknown Model |
| DeviceIdentifier.FirstVersion | backend/agent/modules/deviceIdentifier.js:190-193 | the first non-empty service version, if any |
| DeviceIdentifier.ExtractFirmwareVersion | backend/agent/modules/deviceIdentifier.js:188-215 | a service version wins; otherwise the pattern token found in the OS, hostname and service text, else Unknown |
| DeviceIdentifier.FirmwareFromServiceFirst | backend/agent/modules/deviceIdentifier.js:190-193 | when some service has a version, the text patterns do not matter |
| DeviceIdentifier.PortCapabilities | backend/agent/modules/deviceIdentifier.js:221-228 | the capabilities contributed by the open ports |
| DeviceIdentifier.ServiceCapabilities | backend/agent/modules/deviceIdentifier.js:230-240 | the capabilities contributed by service names |
| DeviceIdentifier.Dedup | backend/agent/modules/deviceIdentifier.js:219-261 | a `Set` turned into an array: no duplicates, the same members, first occurrences in order |
| DeviceIdentifier.DetermineCapabilities | backend/agent/modules/deviceIdentifier.js:218-261 | the capability list has no duplicates |
| DeviceIdentifier.CapabilitiesMembership | backend/agent/modules/deviceIdentifier.js:218-261 | a capability is listed exactly when a port, a service name or the type contributes it |
| DeviceIdentifier.OnlyRouterAddsTypeDefaults | backend/agent/modules/deviceIdentifier.js:242-259 | of the type defaults, only the Router's can apply: the `camera` and `smartphone` cases match no lower-cased classifier type |
| DeviceIdentifier.FilterHostname | backend/agent/modules/deviceIdentifier.js:342-343 | the filter keeps letters, digits, `_` and whitespace, turning `-` into a space |
| DeviceIdentifier.CleanHostnameCharwise | backend/agent/modules/deviceIdentifier.js:344-346 | splitting on spaces, title-casing each word and joining is a character-wise pass |
| DeviceIdentifier.CleanHostnameShape | backend/agent/modules/deviceIdentifier.js:341-346 | the cleaned hostname is the filtered hostname with case changes only, so it has no `:`, `.` or `-` |
| DeviceIdentifier.CleanHostnameNeverMacOrIp | backend/agent/modules/deviceIdentifier.js:348-354 | the cleaned hostname can never look like a MAC or an IPv4 address, so both guards are dead |
| DeviceIdentifier.DeviceNameChoice | backend/agent/modules/deviceIdentifier.js:334-371 | the display name is the cleaned hostname exactly when the hostname keeps a character; otherwise manufacturer, type and suffix |
| DeviceIdentifier.NameSuffixFromMac | backend/agent/modules/deviceIdentifier.js:361-363 | a suffix taken from the MAC (colons removed, last four characters) has at most four characters and no colon |
| DeviceIdentifier.IdentifierScore | backend/agent/modules/deviceIdentifier.js:374-412 | the classifier's score is exactly 100 less 30 for telnet (23 or 2323), 20 for FTP (21), 10 for a common web port, 5 for an unknown manufacturer and 5 for an unknown firmware version; so it stays between 30 and 100 and is 100 exactly when no issue is found |
| DeviceIdentifier.ScoreIssues | backend/agent/modules/deviceIdentifier.js:376-408 | the issue list holds each of the five issues exactly when its condition holds |
| DeviceIdentifier.ScoreIssuesCost | backend/agent/modules/deviceIdentifier.js:378-408 | the issues found cost 30, 20, 10, 5 and 5 points respectively |
| DeviceIdentifier.IdentifierScoreMonotone | backend/agent/modules/deviceIdentifier.js:374-412 | opening more ports never raises the classifier's score |
| DeviceIdentifier.IdentifyDevice | backend/agent/modules/deviceIdentifier.js:86-123 | a profile is produced exactly when the vendor lookup succeeds, with id = MAC or else IP; otherwise the host is returned unchanged |
| NetworkRange.ParseBitsOf | backend/agent/modules/deviceDetector.js:71-74 | parsing a number's fixed-width binary text gives the number back |
| NetworkRange.BitsOfParse | backend/agent/modules/deviceDetector.js:90-94 | writing a parsed bit string back at its width gives the string back |
| NetworkRange.OctetsOfBinary | backend/agent/modules/deviceDetector.js:73-94 | `binaryToIp` inverts the octet-to-binary conversion |
| NetworkRange.BinaryOfOctets | backend/agent/modules/deviceDetector.js:73-94 | the octet-to-binary conversion inverts `binaryToIp` |
| NetworkRange.AndBits | backend/agent/modules/deviceDetector.js:77-78 | the network bits are the bitwise AND of address and mask bits |
| NetworkRange.NetworkOf | backend/agent/modules/deviceDetector.js:69-88 | the network address has four octets and the prefix is at most 32 |
| NetworkRange.NetworkIsBitwiseAnd | backend/agent/modules/deviceDetector.js:69-88 | every bit of the network octets is the AND of the address and mask bits |
| NetworkRange.NetworkRangeIdempotent | backend/agent/modules/deviceDetector.js:69-88 | applying the mask to the network address again changes nothing |
| NetworkRange.ContiguousMaskPrefix | backend/agent/modules/deviceDetector.js:83-84 | a mask of `n` leading one bits (a `/n` netmask) gives the prefix length `n` for any address |
| NetworkRange.ClassCExample | backend/agent/modules/deviceDetector.js:69-88 | 192.168.1.37 with mask 255.255.255.0 gives 192.168.1.0/24 |
| DeviceDetector.FirstRule | backend/agent/modules/deviceDetector.js:320-341 | the first keyword rule whose keywords occur in the hostname decides the type; with none, Unknown Device |
| DeviceDetector.HostnameTypeByRules | backend/agent/modules/deviceDetector.js:320-341 | the hostname if-chain is the first-match rule table |
| DeviceDetector.KnownVendor | backend/agent/modules/deviceDetector.js:310-318 | the vendor is used only when its type is not Unknown Device |
| DeviceDetector.DetectorIdentify | backend/agent/modules/deviceDetector.js:305-353 | a known vendor's type wins; otherwise the hostname rules decide; the name is the hostname, else `"<vendor> Device"`, else `"Device (<last octet>)"` |
| DeviceDetector.VendorTypeWins | backend/agent/modules/deviceDetector.js:310-322 | with a known vendor, IP and hostname do not affect the type |
| DeviceDetector.EnhanceHost | backend/agent/modules/deviceDetector.js:276-303 | a record is normalised exactly when the vendor lookup does not throw, otherwise it is returned raw; `osNmap` is preferred for the OS, an absent status becomes `unknown`, and type and name are the detector's `identifyDevice` guess |
| DeviceDetector.EnhanceScanResults | backend/agent/modules/deviceDetector.js:276-303 | one output per sweep host, in order |
| DeviceDetector.FallbackRecords | backend/agent/modules/deviceDetector.js:233-242 | the fallback keeps IP, MAC and hostname and blanks ports and OS |
| DeviceDetector.EnhancedArePublishable | backend/agent/modules/deviceDetector.js:276-303 | every normalised record has a MAC the vendor lookup accepts |
| DeviceDetector.ResetScanState | backend/agent/modules/deviceDetector.js:16-31 | reset leaves no scan, no timer and no handle, and keeps the last start time |
| DeviceDetector.ResetIdempotent | backend/agent/modules/deviceDetector.js:16-31 | resetting twice is resetting once |
| DeviceDetector.StopPeriodicScan | backend/agent/modules/deviceDetector.js:377-383 | stopping ends with no scan and no timer |
| DeviceDetector.StartGuard | backend/agent/modules/deviceDetector.js:98-107 | a scan is refused exactly when one is running and began at most 60 s ago; a stale scan is reset first |
| DeviceDetector.GetScanStatus | backend/agent/modules/deviceDetector.js:385-391 | the duration is the time since the last start, present exactly when a start time exists |
| DeviceDetector.Settle | backend/agent/modules/deviceDetector.js:134-186 | the scan promise keeps its first settlement |
| DeviceDetector.StartScan | backend/agent/modules/deviceDetector.js:96-132 | start is refused by the guard, fails without a network range (after emitting `scanStart`), or begins a scan stamped with the start time |
| DeviceDetector.CompletionsAppend | backend/agent/modules/deviceDetector.js:152-171 | counting `scanComplete` emissions is additive |
| DeviceDetector.StepInv | backend/agent/modules/deviceDetector.js:134-265 | each primary, watchdog and fallback event preserves the session invariant |
| DeviceDetector.RunInv | backend/agent/modules/deviceDetector.js:134-265 | every event sequence preserves the session invariant |
| DeviceDetector.ScanRace | backend/agent/modules/deviceDetector.js:134-265 | after any events, the primary result is acted on at most once, the fallback starts at most once and only after the primary was abandoned, at most one `scanComplete` is emitted, the scan is never rejected as already running, and `isScanning` holds exactly while the promise is unsettled |
| DeviceDetector.SettledStable | backend/agent/modules/deviceDetector.js:134-265 | a settled scan stays settled the same way |
| DeviceDetector.LateFallbackCompletion | backend/agent/modules/deviceDetector.js:217-254 | watchdog, fallback timeout, then fallback completion: the scan is rejected for the timeout, yet `scanComplete` with the fallback records is emitted |
| IoTAgent.RiskyOpen | backend/agent/index.js:369-375 | the open ports that are on the risky list, and no others |
| IoTAgent.AssessDeviceSecurity | backend/agent/index.js:364-400 | Secured, Attention or Warning exactly when 0, 1 or at least 2 issue kinds are present |
| IoTAgent.RiskyPortsCountOnce | backend/agent/index.js:369-375 | several risky ports are one issue, not several |
| IoTAgent.SecurityScore | backend/agent/index.js:402-418 | the score is exactly 100 − 5·ports − 15 for Attention or 30 for Warning, floored at 0; it is 100 exactly when no port is open and the status is Secured |
| IoTAgent.ScoreMonotoneInPorts | backend/agent/index.js:402-418 | more open ports never raise the score |
| IoTAgent.ScoreMonotoneInStatus | backend/agent/index.js:402-418 | a worse status never raises the score |
| IoTAgent.Assessed | backend/agent/index.js:316-319 | assessment sets the status and then the score from that status, and changes nothing else |
| IoTAgent.PublishedScoreMonotone | backend/agent/index.js:316-319 | opening one more port never raises the published score |
| IoTAgent.TwoSafePortsExample | backend/agent/index.js:316-319 | ports 22 and 80 on a clean OS give Secured, score 90 |
| IoTAgent.ProcessDevice | backend/agent/index.js:291-325 | the stored device has id = MAC or else IP, has a profile exactly when the lookup succeeds, takes a classifier type when profiled, and is assessed |
| IoTAgent.Put | backend/agent/index.js:333-334 | `Map.set`: updates the key, keeps insertion order for known keys |
| IoTAgent.MergeAll | backend/agent/index.js:331-335 | storing a batch keeps the inventory well formed |
| IoTAgent.Latest | backend/agent/index.js:331-335 | the last device in a batch carrying an id |
| IoTAgent.MergeAllLookup | backend/agent/index.js:331-335 | after storing a batch, an id maps to the batch's last device with that id, else to its old value |
| IoTAgent.Stamp | backend/agent/index.js:331-333 | every device of the batch gets the same `lastSeen` |
| IoTAgent.CountNewDevicesZero | backend/agent/index.js:420-425 | a device already stored with the same `lastSeen` is not counted as new |
| IoTAgent.NewDevicesAlwaysZero | backend/agent/index.js:331-349 | `newDevices`, computed after storing, is always 0 |
| IoTAgent.Values | backend/agent/index.js:532-534 | the devices in insertion order |
| IoTAgent.GetDevice | backend/agent/index.js:536-538 | a device is found exactly when its id is stored |
| IoTAgent.StatusCountsBounded | backend/agent/index.js:427-435 | the status counts together never exceed the number of devices |
| IoTAgent.Health | backend/agent/index.js:443-446 | Good with no vulnerable device, Warning with 1 or 2, Critical with more |
| IoTAgent.Bump | backend/agent/index.js:456 | incrementing a histogram raises exactly one key's count by one, adds one to the total and introduces no key other than the incremented one |
| IoTAgent.BumpKeepsKeysDistinct | backend/agent/index.js:456 | incrementing a key of a histogram with distinct keys leaves the keys distinct (an object has one entry per key) |
| IoTAgent.CategorizeDevices | backend/agent/index.js:452-459 | the histogram has distinct keys, totals the device count, and counts each type exactly |
| IoTAgent.NetworkLoad | backend/agent/index.js:461-493 | the load is the sum of device loads when that is at most 100, and 100 otherwise; at least 5 when any device exists |
| IoTAgent.LoadWithoutBonus | backend/agent/index.js:461-493 | without type bonuses the load is 5 per device plus 2 per open port, capped at 100 |
| IoTAgent.LoadAtLeastBase | backend/agent/index.js:461-493 | every device adds at least its base load of 5 |
| IoTAgent.ClassifierTypesHaveNoBonus | backend/agent/index.js:472-488 | none of the classifier's types earns a type bonus |
| IoTAgent.ProcessedDeviceHasNoBonus | backend/agent/index.js:472-488 | no stored device earns a type bonus |
| IoTAgent.CalculateNetworkStats | backend/agent/index.js:427-450 | the total is the inventory size; active devices are those Secured or Attention, vulnerable ones those Warning; threats equal vulnerable devices; health follows the vulnerable count; the type histogram and the load are those of the stored devices; the last scan is the detector's start time or now |
| IoTAgent.ProcessDevices | backend/agent/index.js:288-362 | each returned device is its record identified and assessed, with id = MAC or else IP and the batch's timestamp; the new inventory is the old one with the returned devices stored in order; the update is a scan update carrying the whole inventory, the network stats of that inventory and the batch size |
| IoTAgent.ProcessDevicesMerge | backend/agent/index.js:331-349 | after processing, each id maps to the batch's last device with it, and `newDevices` is 0 |
| IoTAgent.StoringAgainChangesNothing | backend/agent/index.js:274-276 | storing the processed batch a second time, as `scan()` does, changes nothing |
| IoTAgent.StoreStampedAgain | backend/agent/index.js:274-276 | storing a stamped batch again changes nothing, and each of its devices is stored with the stamp |
| IoTAgent.AgentScanKeepsSecondPass | backend/agent/index.js:261-276 | after `scan()` the inventory is the one its own pass published, and every returned device is stored with that pass's stamp |
| IoTAgent.MergeKeepsKnownOrder | backend/agent/index.js:331-335 | re-storing known ids keeps the inventory order |
| IoTAgent.MergeAllAssessed | backend/agent/index.js:331-335 | storing assessed devices into an assessed inventory keeps it assessed |
| IoTAgent.ProcessDevicesAssessed | backend/agent/index.js:288-362 | after processing, every stored device's status and score agree with its attributes |
| IoTAgent.Recheck | backend/agent/index.js:108-128 | a recheck reassesses and stamps the device, and reports a change exactly when status or score moved |
| IoTAgent.RecheckAll | backend/agent/index.js:107-129 | the recheck keeps exactly the stored ids and reports at most one change per device |
| Common.UpdateEachOverKeys | backend/agent/index.js:107-129 | a loop over every key of a map, each key once, replaces each entry by its step's result and collects a report exactly when some entry's step reports one |
| IoTAgent.StatusLoopBody | backend/agent/index.js:103-138 | a status round keeps the inventory order, emits an update exactly when something changed, and that update is a status update with the whole new inventory |
| IoTAgent.StatusLoopStores | backend/agent/index.js:107-129 | after a status round every stored device is its own reassessment at that time |
| IoTAgent.StatusLoopReports | backend/agent/index.js:103-138 | a status round publishes an update exactly when some device's reassessment reports a change |
| IoTAgent.RecheckQuiet | backend/agent/index.js:113-128 | reassessing a device the agent assessed itself reports no change |
| IoTAgent.StatusLoopQuietWhenAssessed | backend/agent/index.js:103-138 | on an inventory the scan left assessed, a status round emits nothing |
| IoTAgent.Start | backend/agent/index.js:43-80 | starting a running agent does nothing; otherwise the agent runs with an empty inventory and both monitors on, and the detector is already scanning since `now` with no timer or sweep yet; the events are the agent's start and the forwarded `scanStart` |
| IoTAgent.DelayedScanRefused | backend/agent/index.js:67-74 | the `scan()` scheduled one second after start, while the first scan still runs and is under a minute old, is refused as already in progress |
| DeviceDetector.BeginScan | backend/agent/modules/deviceDetector.js:96-113 | the part of `startScan` before its first wait: refused exactly when a scan under a minute old runs, otherwise the detector is scanning since `now` |
| DeviceDetector.BeginScanThenStartScan | backend/agent/modules/deviceDetector.js:96-132 | the whole `startScan` is refused exactly when its prefix is, and otherwise undoes the prefix or arms the watchdog on top of it |
| IoTAgent.Stop | backend/agent/index.js:82-95 | stopping a stopped agent does nothing; otherwise it stops, clears the inventory and resets the detector |
| IoTAgent.StartStopIdempotent | backend/agent/index.js:43-95 | a second start or stop does nothing, and stopping a started agent clears the inventory and stops the scan |
| IoTAgent.ScanGuard | backend/agent/index.js:245-256 | the agent refuses a scan exactly when one is running for at most 60 s |
| IoTAgent.ScanGuardsAgree | backend/agent/index.js:245-256 | the agent's guard agrees with the detector's guard, so the detector never refuses a scan the agent let through |
| IoTAgent.SensitiveOpen | backend/agent/index.js:563-566 | the metadata ports that are on the sensitive list |
| IoTAgent.KnownFindings | backend/agent/index.js:605-616 | one finding per known vulnerability, with High as the default severity |
| IoTAgent.HighIncidents | backend/agent/index.js:618-627 | an incident, carrying the finding's device, type and description, is raised exactly for each High finding |
| IoTAgent.HighIncidentsAppend | backend/agent/index.js:618-627 | the incidents follow the order of the findings |
| IoTAgent.HighIncidentsCount | backend/agent/index.js:619-628 | one incident per High finding |
| IoTAgent.RaisedByKind | backend/agent/index.js:618-627 | when every finding of a type is High, an incident of that type is raised exactly when such a finding exists; when none is High, none is raised |
| IoTAgent.AssessDeviceVulnerabilities | backend/agent/index.js:544-635 | no metadata gives no findings; with metadata each of the four fixed findings is present exactly when its condition holds, the list ends with one finding per known vulnerability, and at most four other findings precede them; the incidents are those of the High findings, so a default-credentials or weak-encryption incident is raised exactly when that finding is present, and open ports or outdated firmware never raise one |
| IoTAgent.FixedFindings | backend/agent/index.js:549-601 | the fixed checks give default credentials, open ports, outdated firmware and weak encryption each exactly when its condition holds, and at most four findings; a fixed finding is High exactly when it is about default credentials or weak encryption, the other two being Medium |
| IoTAgent.FindingsSeverity | backend/agent/index.js:549-616 | among all findings, every finding other than a known vulnerability is High exactly when it is about default credentials or weak encryption |
| IoTAgent.FindingsKinds | backend/agent/index.js:549-616 | adding the known vulnerabilities adds no fixed kind, and they come last |
| IoTAgent.AgentScan | backend/agent/index.js:244-286 | a `scan()` emits two scan updates, from the listener and from its own call, each counting the whole batch and carrying its own timestamp; the devices it returns carry the second stamp |
| IoTAgent.NumericPortsNeverSensitive | backend/agent/index.js:562-577 | numeric metadata ports never produce an Open Ports finding |
| IoTAgent.DefaultCredentialsIncident | backend/agent/index.js:549-559 | default credentials alone give one High finding and one incident |

Some operations are the body of a function without a row of its own. Their meaning is carried by the lemma rows citing the same lines:
- `DeviceIdentifier.GenerateDeviceName` is covered by `DeviceNameChoice`.
- `DeviceIdentifier.DetermineModel` is covered by `ModelFromBrandTable` and `ModelFromPatterns`.
- `DeviceIdentifier.TypeFromManufacturer` is covered by `DetermineDeviceType`, `NetworkVendorRouter` and `TypeFromPortsOnlyWhenNoRule`.
- `NetworkRange.CalculateNetworkRange` is covered by `NetworkOf`, `ContiguousMaskPrefix`, `NetworkRangeIdempotent` and `ClassCExample`.
- `DeviceDetector.Step` is covered by `StepInv`, `RunInv` and `ScanRace`.
- `DeviceDetector.HostnameType` is covered by `HostnameTypeByRules`.
- `IoTAgent.CountNewDevices` is covered by `CountNewDevicesZero` and `NewDevicesAlwaysZero`.
- `IoTAgent.Findings` is covered by `FindingsKinds` and `FindingsSeverity`.

## Left out

- Network I/O: `getLocalNetwork` and `getNetworkInfo` (interface enumeration), and the nmap sweep itself. The network range is an input of `DeviceDetector.StartScan`, and sweep results arrive as events.
- Timers: the intervals of `startPeriodicScan`, the status loop and network monitoring. `start()`'s immediate scan start and the refusal of its one-second-delayed `scan()` are modelled; the later interval rounds are not. Each round of the status loop is modelled. Watchdog and fallback timers are events.
- Random sampling: `monitorNetworkTraffic`, `getDeviceActivity` and `detectAnomalies` use `Math.random`.
- Floating point: `calculateBandwidthUsage`.
- Simulated progress: `performNetworkScan` emits fixed progress events on timers.
- Regular expressions: `determineModel`'s hostname patterns and `extractFirmwareVersion`'s version patterns are function parameters (`modelToken`, `versionToken`). Tables, order and fallbacks are modelled.
- Clocks: `Date.now()` and ISO timestamps are integer parameters. `details.firstSeen` and the incident id and timestamp (which also use `Math.random`) are not modelled.
- Event emission and logging: emitted events are returned as sequences; console output is dropped.
- The web server, socket transport and UI are out of scope.
- Case mapping covers ASCII only. JavaScript's full Unicode `toLowerCase` and `toUpperCase` are not modelled; they also map non-ASCII letters, and `toUpperCase` can lengthen a string (U+FB00 becomes `FF`).
- Malformed addresses: `parseInt` of non-numeric octets and addresses without exactly four parts; addresses are four octets in 0..255.
- One scan session is modelled. Handlers of an earlier, abandoned sweep firing during a later scan are not.
- Construction failures: a throwing `NmapScan` constructor (primary and fallback) is not modelled.
- Unreachable catches: the rejection path of `enhanceScanResults` and the catches in `processDevices`. The model shows the throwing lookup is caught per record.
- Object key order: `categorizeDevices` relies on JavaScript object key order, which lists integer-like keys first. No type the model produces is integer-like, so the histogram keeps insertion order.
- `IoTAgent.NetworkLoad`: returns the capped number; the `'%'` suffix the source appends is not modelled.
- Port values: nmap ports are integers; sweep records carry no services, so `serviceInfo` is empty for scanned devices.
- `IoTAgent.AgentScan`: starts from the detector's resolved records; the guard of `scan()` is `IoTAgent.ScanGuard` and the detector's part is `DeviceDetector.StartScan`. It assumes the listener's `processDevices` completes before the one `scan()` calls; the two interleave at their awaits, and the other order is not modelled. The `scanStart` that `scan()` emits itself, next to the forwarded one, is not modelled.
- `DeviceDetector.LateFallbackCompletion`: assumes a sweep cancelled by `resetScanState` can still report completion. Whether the nmap library's `cancelScan` suppresses that event is not part of this model.
- `IoTAgent.DelayedScanRefused`: speaks of the detector state `start()` leaves. If the first scan finishes or fails within the second, the delayed `scan()` runs; that timing is not modelled.
- `DeviceDetector.StartScan`: a thrown `getLocalNetwork` is modelled as an absent range (`Failed`), not as the caught error value.

=== FILE: common.dfy ===
/** Small building blocks shared by the model: optional values, results,
    and the handful of JavaScript string operations the agent relies on
    (`toLowerCase`, `toUpperCase`, `includes`, `split`, `slice`, `join`). */
module Common {

  datatype Option<+T> = None | Some(value: T) {
    function GetOr(default: T): T {
      match this
      case Some(v) => v
      case None => default
    }
  }

  datatype Result<+R, +E> = Ok(value: R) | Err(error: E)

  /** JavaScript truthiness of a string: only the empty string is falsy. */
  predicate Truthy(s: string) { s != "" }

  /** `a || b` on strings. */
  function OrElse(a: string, b: string): string { if a != "" then a else b }

  // ---------------------------------------------------------------------
  // Case mapping (ASCII letters; every other character is left unchanged)
  // ---------------------------------------------------------------------

  function LowerChar(c: char): char {
    if 'A' <= c <= 'Z' then (c as int + 32) as char else c
  }

  function UpperChar(c: char): char {
    if 'a' <= c <= 'z' then (c as int - 32) as char else c
  }

  function Lower(s: string): (r: string)
    ensures |r| == |s|
    ensures forall i :: 0 <= i < |s| ==> r[i] == LowerChar(s[i])
  {
    seq(|s|, i requires 0 <= i < |s| => LowerChar(s[i]))
  }

  function Upper(s: string): (r: string)
    ensures |r| == |s|
    ensures forall i :: 0 <= i < |s| ==> r[i] == UpperChar(s[i])
  {
    seq(|s|, i requires 0 <= i < |s| => UpperChar(s[i]))
  }

  // ---------------------------------------------------------------------
  // Substrings
  // ---------------------------------------------------------------------

  /** `t` occurs in `s` starting at position `i`. */
  predicate OccursAt(s: string, t: string, i: nat) {
    i + |t| <= |s| && s[i..i + |t|] == t
  }

  /** `t` occurs somewhere in `s`. */
  predicate Contains(s: string, t: string) {
    exists i: nat :: i <= |s| && OccursAt(s, t, i)
  }

  // ---------------------------------------------------------------------
  // Splitting, suffixes and joining
  // ---------------------------------------------------------------------

  /** The pieces of `s` between occurrences of a one-character
      separator: always at least one piece, and the pieces never contain
      the separator. */
  function Split(s: string, sep: char): (r: seq<string>)
    ensures |r| >= 1
    ensures forall k, i :: 0 <= k < |r| && 0 <= i < |r[k]| ==> r[k][i] != sep
  {
    if |s| == 0 then [""]
    else
      var rest := Split(s[1..], sep);
      if s[0] == sep then [""] + rest
      else [[s[0]] + rest[0]] + rest[1..]
  }

  /** Gluing the pieces back with the separator gives the original
      string: `split` loses nothing. */
  lemma {:induction false} SplitJoin(s: string, sep: char)
    ensures Join(Split(s, sep), [sep]) == s
  {
    if |s| > 0 {
      var rest := Split(s[1..], sep);
      SplitJoin(s[1..], sep);
      if s[0] == sep {
        JoinCons("", rest, [sep]);
      } else {
        JoinCons(rest[0], rest[1..], [sep]);
        JoinCons([s[0]] + rest[0], rest[1..], [sep]);
        assert rest == [rest[0]] + rest[1..];
      }
    }
  }

  /** A string without the separator splits into itself alone. */
  lemma {:induction false} SplitWithoutSeparator(s: string, sep: char)
    requires forall i :: 0 <= i < |s| ==> s[i] != sep
    ensures Split(s, sep) == [s]
  {
    if |s| > 0 {
      SplitWithoutSeparator(s[1..], sep);
      assert [s[0]] + s[1..] == s;
    }
  }

  /** The parts with `sep` between consecutive ones. */
  function Join(parts: seq<string>, sep: string): string {
    if |parts| == 0 then ""
    else if |parts| == 1 then parts[0]
    else parts[0] + sep + Join(parts[1..], sep)
  }

  lemma JoinCons(first: string, rest: seq<string>, sep: string)
    ensures Join([first] + rest, sep) == if |rest| == 0 then first else first + sep + Join(rest, sep)
  {
    assert ([first] + rest)[1..] == rest;
  }

  /** The last piece of a split: the text after the last separator. */
  function LastSegment(s: string, sep: char): string {
    var parts := Split(s, sep);
    parts[|parts| - 1]
  }

  /** The last `n` characters, or all of `s` when shorter. */
  function TakeLast(s: string, n: nat): (r: string)
    ensures |r| == if |s| < n then |s| else n
    ensures r == s[|s| - |r|..]
  {
    if |s| <= n then s else s[|s| - n..]
  }

  /** `s` with every occurrence of `c` removed. */
  function Remove(s: string, c: char): (r: string)
    ensures forall i :: 0 <= i < |r| ==> r[i] != c
    ensures |r| <= |s|
  {
    if |s| == 0 then ""
    else (if s[0] == c then "" else [s[0]]) + Remove(s[1..], c)
  }

  // ---------------------------------------------------------------------
  // Decimal rendering of non-negative integers (template literals)
  // ---------------------------------------------------------------------

  function DigitChar(d: nat): char
    requires d < 10
  {
    ['0', '1', '2', '3', '4', '5', '6', '7', '8', '9'][d]
  }

  function NatToString(n: nat): (r: string)
    ensures |r| >= 1
    ensures forall i :: 0 <= i < |r| ==> '0' <= r[i] <= '9'
    decreases n
  {
    if n < 10 then [DigitChar(n)] else NatToString(n / 10) + [DigitChar(n % 10)]
  }

  // ---------------------------------------------------------------------
  // Keyed collections updated in a given order
  // ---------------------------------------------------------------------

  predicate NoDuplicates<T(==)>(s: seq<T>) {
    forall i, j :: 0 <= i < j < |s| ==> s[i] != s[j]
  }

  /** Dropping the head of a repetition-free sequence keeps it free of
      repetitions, and the head no longer occurs. */
  lemma NoDuplicatesTail<T>(s: seq<T>)
    requires |s| > 0 && NoDuplicates(s)
    ensures NoDuplicates(s[1..]) && s[0] !in s[1..]
  {
    forall i, j | 0 <= i < j < |s| - 1 ensures s[1..][i] != s[1..][j] {
      assert s[1..][i] == s[i + 1] && s[1..][j] == s[j + 1];
    }
    forall j | 0 <= j < |s| - 1 ensures s[1..][j] != s[0] {
      assert s[1..][j] == s[j + 1];
    }
  }

  /** Visit the keys `ks` in order, replace each entry by the first half of
      `step` applied to the entry as it stands at that moment, and collect
      the reports (the second half) that are present. */
  function UpdateEach<K, V, C>(step: V -> (V, Option<C>), m: map<K, V>, ks: seq<K>): (r: (map<K, V>, seq<C>))
    requires forall i :: 0 <= i < |ks| ==> ks[i] in m
    ensures r.0.Keys == m.Keys
    ensures |r.1| <= |ks|
    decreases |ks|
  {
    if |ks| == 0 then (m, [])
    else
      var (v, report) := step(m[ks[0]]);
      var rest := UpdateEach(step, m[ks[0] := v], ks[1..]);
      (rest.0, (if report.Some? then [report.value] else []) + rest.1)
  }

  /** Over distinct keys every visited entry ends up as `step` of its
      original value, and unvisited entries are left alone. */
  lemma {:induction false} UpdateEachStores<K, V, C>(step: V -> (V, Option<C>), m: map<K, V>, ks: seq<K>)
    requires forall i :: 0 <= i < |ks| ==> ks[i] in m
    requires NoDuplicates(ks)
    ensures forall i :: 0 <= i < |ks| ==> UpdateEach(step, m, ks).0[ks[i]] == step(m[ks[i]]).0
    ensures forall k :: k in m && k !in ks ==> UpdateEach(step, m, ks).0[k] == m[k]
    decreases |ks|
  {
    if |ks| > 0 {
      var m1 := m[ks[0] := step(m[ks[0]]).0];
      NoDuplicatesTail(ks);
      var tail := ks[1..];
      assert forall i :: 1 <= i < |ks| ==> tail[i - 1] == ks[i];
      UpdateEachStores(step, m1, tail);
      assert UpdateEach(step, m, ks).0 == UpdateEach(step, m1, tail).0;
      forall i | 1 <= i < |ks| ensures m1[ks[i]] == m[ks[i]] {
        assert ks[i] != ks[0];
      }
    }
  }

  /** Over distinct keys a report is collected exactly when `step` reports
      on some visited entry's original value. */
  lemma {:induction false} UpdateEachReports<K, V, C>(step: V -> (V, Option<C>), m: map<K, V>, ks: seq<K>)
    requires forall i :: 0 <= i < |ks| ==> ks[i] in m
    requires NoDuplicates(ks)
    ensures |UpdateEach(step, m, ks).1| > 0 <==> exists i :: 0 <= i < |ks| && step(m[ks[i]]).1.Some?
    decreases |ks|
  {
    if |ks| > 0 {
      var (v, report) := step(m[ks[0]]);
      var m1 := m[ks[0] := v];
      NoDuplicatesTail(ks);
      var tail := ks[1..];
      assert forall i :: 1 <= i < |ks| ==> tail[i - 1] == ks[i];
      UpdateEachReports(step, m1, tail);
      assert UpdateEach(step, m, ks).1 == (if report.Some? then [report.value] else []) + UpdateEach(step, m1, tail).1;
      forall i | 1 <= i < |ks| ensures m1[ks[i]] == m[ks[i]] {
        assert ks[i] != ks[0];
      }
    }
  }

  /** The two facts above for a loop that visits every key of the map. */
  lemma UpdateEachOverKeys<K, V, C>(step: V -> (V, Option<C>), m: map<K, V>, ks: seq<K>)
    requires NoDuplicates(ks)
    requires forall k :: k in m <==> k in ks
    ensures forall k :: k in m ==> UpdateEach(step, m, ks).0[k] == step(m[k]).0
    ensures |UpdateEach(step, m, ks).1| > 0 <==> exists k :: k in m && step(m[k]).1.Some?
  {
    UpdateEachStores(step, m, ks);
    UpdateEachReports(step, m, ks);
    forall k | k in m ensures exists i :: 0 <= i < |ks| && ks[i] == k {
      assert k in ks;
    }
  }
}

=== FILE: device_detector.dfy ===
/** `DeviceDetector`: the scan guard, `resetScanState`, the race between
    the primary sweep's completion, its failure and its 30-second
    watchdog, the fallback sweep with its 15-second timer, and the
    normalisation of the records a sweep reports.

    The sweeps themselves (`node-nmap`) and the timers are outside the
    model: a sweep's outcome and a timer firing arrive as `Event`s, and
    the handlers the source registers are the transitions of `Step`. */
module DeviceDetector {
  import opened Common
  import opened MacVendors
  import opened DeviceIdentifier

  // ---------------------------------------------------------------------
  // Records reported by a sweep, and the records the detector publishes
  // ---------------------------------------------------------------------

  /** A host as the sweep reports it; absent fields are `""` or `[]`. */
  datatype SweepHost = SweepHost(
    ip: string, mac: string, hostname: string, openPorts: seq<int>,
    osNmap: string, os: string, vendor: string, status: string)

  /** What `scanComplete` listeners receive for one host: the record
      `enhanceScanResults` builds, the record the fallback builds, or the
      sweep's own record when identifying it threw. */
  datatype Detected =
    | Enhanced(ip: string, mac: string, hostname: string, openPorts: seq<int>, os: string,
               vendor: string, status: string, kind: string, name: string)
    | Basic(ip: string, mac: string, hostname: string)
    | Raw(host: SweepHost)
  {
    function Ip(): string {
      match this
      case Enhanced(ip, _, _, _, _, _, _, _, _) => ip
      case Basic(ip, _, _) => ip
      case Raw(h) => h.ip
    }

    function Mac(): string {
      match this
      case Enhanced(_, mac, _, _, _, _, _, _, _) => mac
      case Basic(_, mac, _) => mac
      case Raw(h) => h.mac
    }

    function Hostname(): string {
      match this
      case Enhanced(_, _, hostname, _, _, _, _, _, _) => hostname
      case Basic(_, _, hostname) => hostname
      case Raw(h) => h.hostname
    }

    function Ports(): seq<int> {
      match this
      case Enhanced(_, _, _, ports, _, _, _, _, _) => ports
      case Basic(_, _, _) => []
      case Raw(h) => h.openPorts
    }

    /** The `os` field; the fallback record's is `''`. */
    function Os(): string {
      match this
      case Enhanced(_, _, _, _, os, _, _, _, _) => os
      case Basic(_, _, _) => ""
      case Raw(h) => h.os
    }

    /** The `type` field, `""` where the record has none. */
    function Kind(): string {
      match this
      case Enhanced(_, _, _, _, _, _, _, kind, _) => kind
      case Basic(_, _, _) => ""
      case Raw(_) => ""
    }

    function Name(): string {
      match this
      case Enhanced(_, _, _, _, _, _, _, _, name) => name
      case Basic(_, _, _) => ""
      case Raw(_) => ""
    }
  }

  // ---------------------------------------------------------------------
  // identifyDevice (the detector's own, simpler guesser)
  // ---------------------------------------------------------------------

  const UnknownType := "Unknown Device"

  /** One hostname test: any of `keywords` gives `kind`. */
  datatype KeywordRule = KeywordRule(keywords: seq<string>, kind: string)

  /** The hostname tests of `identifyDevice`, in the order they are tried. */
  const HostnameRules := [
    KeywordRule(["iphone", "ipad"], "iOS Device"),
    KeywordRule(["android"], "Android Device"),
    KeywordRule(["macbook", "imac"], "Mac Device"),
    KeywordRule(["pc", "desktop", "laptop"], "Windows PC"),
    KeywordRule(["router", "gateway"], "Router"),
    KeywordRule(["ap", "wifi", "wireless"], "WiFi Device")
  ]

  /** The kind of the first rule one of whose keywords occurs in `lower`,
      or `UnknownType` when none does. */
  function FirstRule(lower: string, rules: seq<KeywordRule>): (r: string)
    ensures forall k :: 0 <= k < |rules| && ContainsAny(lower, rules[k].keywords)
                        && (forall j :: 0 <= j < k ==> !ContainsAny(lower, rules[j].keywords))
                        ==> r == rules[k].kind
    ensures (forall k :: 0 <= k < |rules| ==> !ContainsAny(lower, rules[k].keywords)) ==> r == UnknownType
  {
    if |rules| == 0 then UnknownType
    else if ContainsAny(lower, rules[0].keywords) then rules[0].kind
    else
      var r := FirstRule(lower, rules[1..]);
      assert forall k :: 1 <= k < |rules| ==> rules[k] == rules[1..][k - 1];
      r
  }

  /** The type the hostname keywords give, tried in the source's order
      on the lower-cased hostname. */
  function HostnameType(lower: string): string {
    if Contains(lower, "iphone") || Contains(lower, "ipad") then "iOS Device"
    else if Contains(lower, "android") then "Android Device"
    else if Contains(lower, "macbook") || Contains(lower, "imac") then "Mac Device"
    else if Contains(lower, "pc") || Contains(lower, "desktop") || Contains(lower, "laptop") then "Windows PC"
    else if Contains(lower, "router") || Contains(lower, "gateway") then "Router"
    else if Contains(lower, "ap") || Contains(lower, "wifi") || Contains(lower, "wireless") then "WiFi Device"
    else UnknownType
  }

  lemma ContainsAny1(s: string, a: string)
    ensures ContainsAny(s, [a]) <==> Contains(s, a)
  {
    if Contains(s, a) { assert [a][0] == a; }
  }

  lemma ContainsAny2(s: string, a: string, b: string)
    ensures ContainsAny(s, [a, b]) <==> Contains(s, a) || Contains(s, b)
  {
    if Contains(s, a) { assert [a, b][0] == a; }
    if Contains(s, b) { assert [a, b][1] == b; }
  }

  lemma ContainsAny3(s: string, a: string, b: string, c: string)
    ensures ContainsAny(s, [a, b, c]) <==> Contains(s, a) || Contains(s, b) || Contains(s, c)
  {
    if Contains(s, a) { assert [a, b, c][0] == a; }
    if Contains(s, b) { assert [a, b, c][1] == b; }
    if Contains(s, c) { assert [a, b, c][2] == c; }
  }

  /** One step of the first-match reading: the head rule, else the rest. */
  lemma FirstRuleStep(lower: string, rules: seq<KeywordRule>, k: nat)
    requires k < |rules|
    ensures FirstRule(lower, rules[k..])
         == if ContainsAny(lower, rules[k].keywords) then rules[k].kind else FirstRule(lower, rules[k + 1..])
  {
    assert rules[k..][0] == rules[k];
    assert rules[k..][1..] == rules[k + 1..];
  }

  /** The first-match reading of a six-rule table, spelled out. */
  lemma FirstRuleOfSix(lower: string, rs: seq<KeywordRule>)
    requires |rs| == 6
    ensures FirstRule(lower, rs)
         == if ContainsAny(lower, rs[0].keywords) then rs[0].kind
            else if ContainsAny(lower, rs[1].keywords) then rs[1].kind
            else if ContainsAny(lower, rs[2].keywords) then rs[2].kind
            else if ContainsAny(lower, rs[3].keywords) then rs[3].kind
            else if ContainsAny(lower, rs[4].keywords) then rs[4].kind
            else if ContainsAny(lower, rs[5].keywords) then rs[5].kind
            else UnknownType
  {
    assert rs[0..] == rs;
    FirstRuleStep(lower, rs, 0);
    FirstRuleStep(lower, rs, 1);
    FirstRuleStep(lower, rs, 2);
    FirstRuleStep(lower, rs, 3);
    FirstRuleStep(lower, rs, 4);
    FirstRuleStep(lower, rs, 5);
    assert rs[6..] == [];
  }

  /** The if-chain of `identifyDevice` is the first-match reading of the
      rule table: the earlier rule wins whenever two keywords occur. */
  lemma HostnameTypeByRules(lower: string)
    ensures HostnameType(lower) == FirstRule(lower, HostnameRules)
  {
    FirstRuleOfSix(lower, HostnameRules);
    ContainsAny2(lower, "iphone", "ipad");
    ContainsAny1(lower, "android");
    ContainsAny2(lower, "macbook", "imac");
    ContainsAny3(lower, "pc", "desktop", "laptop");
    ContainsAny2(lower, "router", "gateway");
    ContainsAny3(lower, "ap", "wifi", "wireless");
  }

  /** The vendor the table gives the MAC, when it names a type. */
  function KnownVendor(mac: string): (r: Option<Vendor>)
    requires LookupSafe(mac)
    ensures r.Some? ==> r.value == VendorOf(mac) && r.value.kind != UnknownType
  {
    if mac != "" && VendorOf(mac).kind != UnknownType then Some(VendorOf(mac)) else None
  }

  /** `{ type, name }` as `identifyDevice(device)` computes them. */
  datatype Guess = Guess(kind: string, name: string)

  /** `identifyDevice(device)` for a record whose MAC the lookup accepts. */
  function DetectorIdentify(ip: string, mac: string, hostname: string): (r: Guess)
    requires LookupSafe(mac)
    ensures KnownVendor(mac).Some? ==> r.kind == KnownVendor(mac).value.kind
    ensures KnownVendor(mac).None? ==>
              r.kind == if hostname == "" then UnknownType else HostnameType(Lower(hostname))
    ensures r.name == if hostname != "" then hostname
                      else if KnownVendor(mac).Some? then KnownVendor(mac).value.name + " Device"
                      else "Device (" + LastSegment(ip, '.') + ")"
  {
    var vendor := KnownVendor(mac);
    var kind0 := if vendor.Some? then vendor.value.kind else UnknownType;
    var name0 := if hostname != "" then hostname
                 else if vendor.Some? then vendor.value.name + " Device"
                 else "";
    var lower := Lower(hostname);
    var kind := if lower != "" && kind0 == UnknownType then HostnameType(lower) else kind0;
    var octet := LastSegment(ip, '.');
    var name := if name0 != "" then name0
                else if kind != UnknownType then kind + " (" + octet + ")"
                else "Device (" + octet + ")";
    Guess(kind, name)
  }

  /** The vendor's type beats every hostname keyword: two hosts with the
      same MAC get the same type whenever the table names one. */
  lemma VendorTypeWins(ip1: string, ip2: string, mac: string, hostname1: string, hostname2: string)
    requires LookupSafe(mac) && KnownVendor(mac).Some?
    ensures DetectorIdentify(ip1, mac, hostname1).kind == DetectorIdentify(ip2, mac, hostname2).kind
  {}

  // ---------------------------------------------------------------------
  // enhanceScanResults and the fallback normalisation
  // ---------------------------------------------------------------------

  /** One element of `enhanceScanResults(data)`: defaults for absent
      fields, the type and name `identifyDevice` guesses, and the sweep's
      own record when the guess throws. */
  function EnhanceHost(h: SweepHost): (r: Detected)
    ensures r.Raw? <==> !LookupSafe(h.mac)
    ensures r.Raw? ==> r.host == h
    ensures r.Ip() == h.ip && r.Mac() == h.mac && r.Hostname() == h.hostname && r.Ports() == h.openPorts
    ensures r.Enhanced? ==> r.os == (if h.osNmap != "" then h.osNmap else h.os)
                            && r.vendor == h.vendor
                            && r.status == (if h.status != "" then h.status else "unknown")
                            && r.name != ""
    ensures r.Enhanced? ==> r.kind == DetectorIdentify(h.ip, h.mac, h.hostname).kind
                            && r.name == DetectorIdentify(h.ip, h.mac, h.hostname).name
  {
    if !LookupSafe(h.mac) then Raw(h)
    else
      var g := DetectorIdentify(h.ip, h.mac, h.hostname);
      Enhanced(h.ip, h.mac, h.hostname, h.openPorts, OrElse(h.osNmap, h.os), h.vendor,
               OrElse(h.status, "unknown"), g.kind, g.name)
  }

  function EnhanceScanResults(hosts: seq<SweepHost>): (r: seq<Detected>)
    ensures |r| == |hosts|
    ensures forall i :: 0 <= i < |hosts| ==> r[i] == EnhanceHost(hosts[i])
  {
    seq(|hosts|, i requires 0 <= i < |hosts| => EnhanceHost(hosts[i]))
  }

  /** The fallback keeps only address, MAC and hostname. */
  function FallbackRecords(hosts: seq<SweepHost>): (r: seq<Detected>)
    ensures |r| == |hosts|
    ensures forall i :: 0 <= i < |hosts| ==>
              r[i].Basic? && r[i].Ports() == [] && r[i].Os() == "" && r[i].Kind() == ""
              && r[i].Ip() == hosts[i].ip && r[i].Mac() == hosts[i].mac && r[i].Hostname() == hosts[i].hostname
  {
    seq(|hosts|, i requires 0 <= i < |hosts| => Basic(hosts[i].ip, hosts[i].mac, hosts[i].hostname))
  }

  /** Every record the detector publishes either carries a MAC the lookup
      accepts or is the fallback's or the sweep's own record. */
  predicate Publishable(r: Detected) {
    r.Enhanced? ==> LookupSafe(r.mac)
  }

  lemma EnhancedArePublishable(hosts: seq<SweepHost>)
    ensures forall r :: r in EnhanceScanResults(hosts) ==> Publishable(r)
  {
    forall r | r in EnhanceScanResults(hosts)
      ensures Publishable(r)
    {
      var i :| 0 <= i < |hosts| && EnhanceScanResults(hosts)[i] == r;
      assert r == EnhanceHost(hosts[i]);
    }
  }

  // ---------------------------------------------------------------------
  // Detector state, resetScanState, the start guard, getScanStatus
  // ---------------------------------------------------------------------

  /** The pending `scanTimeout`, if any. */
  datatype Timer = NoTimer | Watchdog | FallbackTimer

  /** The detector's fields; `currentScan` is tracked only as present or
      absent. Times are milliseconds. */
  datatype Detector = Detector(isScanning: bool, lastScanTime: Option<int>, timer: Timer, hasCurrentScan: bool)

  const Idle := Detector(false, None, NoTimer, false)

  /** `resetScanState()`. */
  function ResetScanState(d: Detector): (r: Detector)
    ensures !r.isScanning && r.timer == NoTimer && !r.hasCurrentScan
    ensures r.lastScanTime == d.lastScanTime
  {
    d.(isScanning := false, timer := NoTimer, hasCurrentScan := false)
  }

  /** Resetting twice is resetting once. */
  lemma ResetIdempotent(d: Detector)
    ensures ResetScanState(ResetScanState(d)) == ResetScanState(d)
  {}

  /** `stopPeriodicScan()`: the interval is a timer and not modelled; what
      remains is the reset. */
  function StopPeriodicScan(d: Detector): (r: Detector)
    ensures !r.isScanning && r.timer == NoTimer && !r.hasCurrentScan && r.lastScanTime == d.lastScanTime
  {
    ResetScanState(d)
  }

  /** How long ago the last scan started, as `startScan` measures it: a
      missing start time counts as time 0. */
  function SinceLastStart(d: Detector, now: int): int {
    now - d.lastScanTime.GetOr(0)
  }

  const StaleScanMs := 60000

  datatype ScanError = ScanInProgress | NetworkUnavailable | FallbackTimedOut | FallbackFailed

  /** The guard at the top of `startScan`: refuse while a scan younger
      than a minute runs, reset a stale one. */
  function StartGuard(d: Detector, now: int): (r: Result<Detector, ScanError>)
    ensures r.Err? <==> d.isScanning && SinceLastStart(d, now) <= StaleScanMs
    ensures r.Err? ==> r.error == ScanInProgress
    ensures r.Ok? ==> !r.value.isScanning && r.value.lastScanTime == d.lastScanTime
    ensures r.Ok? && !d.isScanning ==> r.value == d
  {
    if d.isScanning then
      if SinceLastStart(d, now) > StaleScanMs then Ok(ResetScanState(d)) else Err(ScanInProgress)
    else Ok(d)
  }

  /** `getScanStatus()`. */
  datatype ScanStatus = ScanStatus(isScanning: bool, lastScanTime: Option<int>, scanDuration: Option<int>)

  function GetScanStatus(d: Detector, now: int): (r: ScanStatus)
    ensures r.isScanning == d.isScanning && r.lastScanTime == d.lastScanTime
    ensures r.scanDuration.Some? <==> d.lastScanTime.Some?
    ensures r.scanDuration.Some? ==> r.scanDuration.value + d.lastScanTime.value == now
  {
    ScanStatus(d.isScanning, d.lastScanTime,
               if d.lastScanTime.Some? then Some(now - d.lastScanTime.value) else None)
  }

  // ---------------------------------------------------------------------
  // One scan: the primary sweep, its watchdog, and the fallback sweep
  // ---------------------------------------------------------------------

  datatype Outcome = Resolved(records: seq<Detected>) | Rejected(error: ScanError)

  datatype Emission = ScanStart | ScanComplete(records: seq<Detected>)

  /** The closure state of one `startScan` call: the primary handlers'
      `isCompleted` and `isFallbackInProgress`, the fallback's own
      `isCompleted`, how often a primary handler and a fallback start
      took effect, and the promise's settlement (the first one wins). */
  datatype Session = Session(
    isCompleted: bool, isFallbackInProgress: bool, fallbackCompleted: bool,
    primaryActs: nat, fallbackStarts: nat, settled: Option<Outcome>)

  datatype World = World(det: Detector, session: Session, emitted: seq<Emission>)

  /** What can happen while a scan runs: the primary sweep completes or
      fails, the watchdog fires, the fallback sweep completes or fails,
      the fallback timer fires. A timer fires only while it is pending. */
  datatype Event =
    | PrimaryComplete(hosts: seq<SweepHost>)
    | PrimaryError
    | WatchdogFired
    | FallbackComplete(hosts: seq<SweepHost>)
    | FallbackError
    | FallbackTimerFired

  /** The promise keeps its first settlement. */
  function Settle(s: Session, o: Outcome): (r: Session)
    ensures r.settled == if s.settled.None? then Some(o) else s.settled
  {
    if s.settled.None? then s.(settled := Some(o)) else s
  }

  datatype Start = Refused(error: ScanError) | Failed(det: Detector, emitted: seq<Emission>) | Started(world: World)

  /** `startScan()` at time `now`, with the local range `range` (absent
      when the private address cannot be read). */
  function StartScan(d: Detector, now: int, range: Option<string>): (r: Start)
    ensures r.Refused? <==> d.isScanning && SinceLastStart(d, now) <= StaleScanMs
    ensures r.Failed? <==> StartGuard(d, now).Ok? && range.None?
    ensures r.Failed? ==> !r.det.isScanning && r.det.lastScanTime == Some(now) && r.emitted == [ScanStart]
    ensures r.Started? ==> r.world.det.isScanning && r.world.det.lastScanTime == Some(now)
                           && r.world.emitted == [ScanStart] && r.world.session.settled.None?
  {
    match StartGuard(d, now)
    case Err(e) => Refused(e)
    case Ok(d1) =>
      var d2 := d1.(isScanning := true, lastScanTime := Some(now));
      if range.None? then Failed(ResetScanState(d2), [ScanStart])
      else
        Started(World(d2.(timer := Watchdog, hasCurrentScan := true),
                      Session(false, false, false, 0, 0, None), [ScanStart]))
  }

  /** The part of `startScan()` that runs before its first `await`: the
      guard, then the scan is marked as running from `now` and `scanStart`
      is emitted. A caller that does not wait for the promise, as
      `startPeriodicScan` does not, returns to a detector in this state. */
  function BeginScan(d: Detector, now: int): (r: Result<Detector, ScanError>)
    ensures r.Err? <==> d.isScanning && SinceLastStart(d, now) <= StaleScanMs
    ensures r.Ok? ==> r.value.isScanning && r.value.lastScanTime == Some(now)
    ensures r.Ok? && !d.isScanning ==> r.value.timer == d.timer && r.value.hasCurrentScan == d.hasCurrentScan
  {
    match StartGuard(d, now)
    case Err(e) => Err(e)
    case Ok(d1) => Ok(d1.(isScanning := true, lastScanTime := Some(now)))
  }

  /** The whole `startScan()` continues from that prefix: it is refused
      exactly when the prefix is, and otherwise either undoes the prefix
      (no local range) or arms the watchdog on top of it. */
  lemma BeginScanThenStartScan(d: Detector, now: int, range: Option<string>)
    ensures StartScan(d, now, range).Refused? <==> BeginScan(d, now).Err?
    ensures StartScan(d, now, range).Failed? ==>
              StartScan(d, now, range).det == ResetScanState(BeginScan(d, now).value)
    ensures StartScan(d, now, range).Started? ==>
              StartScan(d, now, range).world.det == BeginScan(d, now).value.(timer := Watchdog, hasCurrentScan := true)
  {}

  /** `performFallbackScan(networkRange)` called from a primary handler. */
  function StartFallback(w: World): World {
    if w.det.isScanning then
      w.(session := Settle(w.session, Rejected(ScanInProgress)))
    else
      w.(det := w.det.(isScanning := true, hasCurrentScan := true, timer := FallbackTimer),
         session := w.session.(fallbackStarts := w.session.fallbackStarts + 1))
  }

  /** The handler the source registers for `e`. */
  function Step(w: World, e: Event): World {
    var s := w.session;
    var primaryOpen := !s.isCompleted && !s.isFallbackInProgress;
    var fallbackOpen := s.fallbackStarts > 0 && !s.fallbackCompleted;
    match e
    case PrimaryComplete(hosts) =>
      if !primaryOpen then w
      else
        var records := EnhanceScanResults(hosts);
        World(ResetScanState(w.det.(timer := NoTimer)),
              Settle(s.(isCompleted := true, primaryActs := s.primaryActs + 1), Resolved(records)),
              w.emitted + [ScanComplete(records)])
    case PrimaryError =>
      if !primaryOpen then w
      else
        StartFallback(w.(det := ResetScanState(w.det.(timer := NoTimer)),
                         session := s.(isFallbackInProgress := true, primaryActs := s.primaryActs + 1)))
    case WatchdogFired =>
      if w.det.timer != Watchdog then w
      else if !primaryOpen then w.(det := w.det.(timer := NoTimer))
      else
        StartFallback(w.(det := ResetScanState(w.det),
                         session := s.(isFallbackInProgress := true, primaryActs := s.primaryActs + 1)))
    case FallbackComplete(hosts) =>
      if !fallbackOpen then w
      else
        var records := FallbackRecords(hosts);
        World(ResetScanState(w.det.(timer := NoTimer)),
              Settle(s.(fallbackCompleted := true), Resolved(records)),
              w.emitted + [ScanComplete(records)])
    case FallbackError =>
      if !fallbackOpen then w
      else
        w.(det := ResetScanState(w.det.(timer := NoTimer)),
           session := Settle(s.(fallbackCompleted := true), Rejected(FallbackFailed)))
    case FallbackTimerFired =>
      if w.det.timer != FallbackTimer then w
      else if !fallbackOpen then w.(det := w.det.(timer := NoTimer))
      else
        w.(det := ResetScanState(w.det), session := Settle(s, Rejected(FallbackTimedOut)))
  }

  function Run(w: World, es: seq<Event>): World
    decreases |es|
  {
    if |es| == 0 then w else Run(Step(w, es[0]), es[1..])
  }

  /** The number of `scanComplete` emissions. */
  function Completions(es: seq<Emission>): (n: nat)
    ensures n <= |es|
  {
    if |es| == 0 then 0 else (if es[|es| - 1].ScanComplete? then 1 else 0) + Completions(es[..|es| - 1])
  }

  lemma CompletionsAppend(es: seq<Emission>, e: Emission)
    ensures Completions(es + [e]) == Completions(es) + (if e.ScanComplete? then 1 else 0)
  {
    assert (es + [e])[..|es|] == es;
  }

  /** What holds of a scan in every reachable state. */
  predicate Inv(w: World) {
    var s := w.session;
    var d := w.det;
    !(s.isCompleted && s.isFallbackInProgress)
    && s.primaryActs == (if s.isCompleted || s.isFallbackInProgress then 1 else 0)
    && s.fallbackStarts == (if s.isFallbackInProgress then 1 else 0)
    && (s.fallbackCompleted ==> s.isFallbackInProgress)
    && (d.timer == Watchdog <==> !s.isCompleted && !s.isFallbackInProgress)
    && (d.timer == FallbackTimer <==> s.isFallbackInProgress && !s.fallbackCompleted && s.settled.None?)
    && (s.settled.None? <==> d.timer != NoTimer)
    && d.isScanning == s.settled.None?
    && d.hasCurrentScan == d.isScanning
    && s.settled != Some(Rejected(ScanInProgress))
    && Completions(w.emitted) <= (if s.isCompleted || s.fallbackCompleted then 1 else 0)
  }

  lemma StartedInv(d: Detector, now: int, range: Option<string>)
    requires StartScan(d, now, range).Started?
    ensures Inv(StartScan(d, now, range).world)
  {
    assert Completions([ScanStart]) == 0 by {
      assert [ScanStart][..0] == [];
    }
  }

  lemma StepInv(w: World, e: Event)
    requires Inv(w)
    ensures Inv(Step(w, e))
  {
    match e
    case PrimaryComplete(hosts) =>
      CompletionsAppend(w.emitted, ScanComplete(EnhanceScanResults(hosts)));
    case FallbackComplete(hosts) =>
      CompletionsAppend(w.emitted, ScanComplete(FallbackRecords(hosts)));
    case _ =>
  }

  lemma {:induction false} RunInv(w: World, es: seq<Event>)
    requires Inv(w)
    ensures Inv(Run(w, es))
    decreases |es|
  {
    if |es| > 0 {
      StepInv(w, es[0]);
      RunInv(Step(w, es[0]), es[1..]);
    }
  }

  /** The race of a scan, over any order of events: at most one of the
      primary completion, the primary failure and the watchdog takes
      effect, at most one fallback sweep starts (and only after one of
      them), at most one `scanComplete` is emitted, the fallback's own
      in-progress guard never rejects, and the detector stops scanning
      exactly when the scan's promise has settled. */
  lemma ScanRace(d: Detector, now: int, range: Option<string>, es: seq<Event>)
    requires StartScan(d, now, range).Started?
    ensures var w := Run(StartScan(d, now, range).world, es);
            w.session.primaryActs <= 1
            && w.session.fallbackStarts <= w.session.primaryActs
            && (w.session.fallbackStarts == 1 ==> w.session.isFallbackInProgress && !w.session.isCompleted)
            && Completions(w.emitted) <= 1
            && w.session.settled != Some(Rejected(ScanInProgress))
            && (w.det.isScanning <==> w.session.settled.None?)
  {
    StartedInv(d, now, range);
    RunInv(StartScan(d, now, range).world, es);
  }

  /** Once the promise has settled it keeps its outcome. */
  lemma {:induction false} SettledStable(w: World, es: seq<Event>)
    requires w.session.settled.Some?
    ensures Run(w, es).session.settled == w.session.settled
    decreases |es|
  {
    if |es| > 0 {
      SettledStable(Step(w, es[0]), es[1..]);
    }
  }

  /** The fallback timer does not mark the fallback completed, so a
      fallback sweep that reports after its timer still emits
      `scanComplete` although the scan was already rejected. */
  lemma LateFallbackCompletion(d: Detector, now: int, range: string, hosts: seq<SweepHost>)
    requires StartScan(d, now, Some(range)).Started?
    ensures var w := Run(StartScan(d, now, Some(range)).world,
                         [WatchdogFired, FallbackTimerFired, FallbackComplete(hosts)]);
            w.session.settled == Some(Rejected(FallbackTimedOut))
            && w.emitted == [ScanStart, ScanComplete(FallbackRecords(hosts))]
  {
    var w0 := StartScan(d, now, Some(range)).world;
    var w1 := Step(w0, WatchdogFired);
    assert w1.det.timer == FallbackTimer;
    var w2 := Step(w1, FallbackTimerFired);
    assert w2.session.settled == Some(Rejected(FallbackTimedOut));
    var w3 := Step(w2, FallbackComplete(hosts));
    assert [WatchdogFired, FallbackTimerFired, FallbackComplete(hosts)][1..] == [FallbackTimerFired, FallbackComplete(hosts)];
    assert [FallbackTimerFired, FallbackComplete(hosts)][1..] == [FallbackComplete(hosts)];
    assert Run(w2, [FallbackComplete(hosts)]) == Run(w3, []);
  }
}

=== FILE: device_identifier.dfy ===
/** The heuristic classifier `DeviceIdentifier`: manufacturer, type,
    model, firmware version, capabilities, display name and the
    identifier's own security score of a host record.

    Every classifier step calls `getManufacturer`, which calls
    `lookupVendor`; that throws for a non-empty MAC without hex digits,
    so the steps below require a MAC the lookup can handle. The
    exception is caught only by `identifyDevice`, which `IdentifyDevice`
    models as its `Unchanged` answer. */
module DeviceIdentifier {
  import opened Common
  import opened MacVendors
  import opened Devices

  /** `s` contains at least one of `keys`. */
  predicate ContainsAny(s: string, keys: seq<string>) {
    exists k :: 0 <= k < |keys| && Contains(s, keys[k])
  }

  // ---------------------------------------------------------------------
  // getManufacturer
  // ---------------------------------------------------------------------

  predicate AppleHint(h: Host) {
    Contains(Lower(h.os), "apple") || Contains(Lower(h.hostname), "iphone") || Contains(Lower(h.hostname), "ipad")
  }

  predicate AndroidHint(h: Host) {
    Contains(Lower(h.os), "android") || Contains(Lower(h.hostname), "android")
  }

  predicate WindowsHint(h: Host) {
    Contains(Lower(h.os), "windows")
  }

  /** The brands an Android hint can name. */
  const AndroidMakers: set<string> := {"Samsung", "Huawei", "Xiaomi", "Android Device Manufacturer"}

  /** Manufacturer guessed from hostname and OS when the table does not
      know the MAC. */
  function ManufacturerFromHints(h: Host): (r: string)
    ensures r == "Apple" <==> AppleHint(h)
    ensures r in AndroidMakers <==> !AppleHint(h) && AndroidHint(h)
    ensures r == "Samsung" <==> !AppleHint(h) && AndroidHint(h) && Contains(Lower(h.hostname), "samsung")
    ensures r == "Huawei" <==> !AppleHint(h) && AndroidHint(h) && !Contains(Lower(h.hostname), "samsung")
                                && Contains(Lower(h.hostname), "huawei")
    ensures r == "Xiaomi" <==> !AppleHint(h) && AndroidHint(h) && !Contains(Lower(h.hostname), "samsung")
                                && !Contains(Lower(h.hostname), "huawei") && Contains(Lower(h.hostname), "xiaomi")
    ensures r == "Microsoft" <==> !AppleHint(h) && !AndroidHint(h) && WindowsHint(h)
    ensures r == "Unknown" <==> !AppleHint(h) && !AndroidHint(h) && !WindowsHint(h)
  {
    var hostname := Lower(h.hostname);
    if AppleHint(h) then "Apple"
    else if AndroidHint(h) then
      if Contains(hostname, "samsung") then "Samsung"
      else if Contains(hostname, "huawei") then "Huawei"
      else if Contains(hostname, "xiaomi") then "Xiaomi"
      else "Android Device Manufacturer"
    else if WindowsHint(h) then "Microsoft"
    else "Unknown"
  }

  /** `getManufacturer(device)`. */
  function GetManufacturer(h: Host): (r: string)
    requires LookupSafe(h.mac)
    ensures h.mac == "" ==> r == "Unknown"
    ensures h.mac != "" && VendorOf(h.mac).name != "Unknown" ==> r == VendorOf(h.mac).name
    ensures h.mac != "" && VendorOf(h.mac).name == "Unknown" ==> r == ManufacturerFromHints(h)
  {
    if h.mac == "" then "Unknown"
    else if VendorOf(h.mac).name != "Unknown" then VendorOf(h.mac).name
    else ManufacturerFromHints(h)
  }

  /** Without a MAC nothing else is consulted; with a MAC the table
      knows, hostname and OS are ignored. */
  lemma ManufacturerIgnoresHints(h1: Host, h2: Host)
    requires h1.mac == h2.mac && LookupSafe(h1.mac)
    requires h1.mac == "" || VendorOf(h1.mac).name != "Unknown"
    ensures GetManufacturer(h1) == GetManufacturer(h2)
  {
  }

  /** The hints are consulted in the order Apple, Android, Windows: an
      Apple hint wins over an Android one, and an Android hint over a
      Windows one. */
  lemma ManufacturerHintPrecedence(h: Host)
    requires h.mac != "" && LookupSafe(h.mac) && VendorOf(h.mac).name == "Unknown"
    ensures AppleHint(h) ==> GetManufacturer(h) == "Apple"
    ensures !AppleHint(h) && AndroidHint(h) ==> GetManufacturer(h) in AndroidMakers
    ensures WindowsHint(h) && GetManufacturer(h) != "Microsoft" ==> AppleHint(h) || AndroidHint(h)
  {
  }

  /** The manufacturer is a vendor name of the table or one of the
      fixed answers. */
  lemma ManufacturerValues(h: Host)
    requires LookupSafe(h.mac)
    ensures var r := GetManufacturer(h);
            r in AndroidMakers + {"Unknown", "Apple", "Microsoft"} || (IsTableVendor(VendorOf(h.mac)) && r == VendorOf(h.mac).name)
  {
    if h.mac != "" {
      LookupAnswersFromTable(h.mac);
    }
  }

  // ---------------------------------------------------------------------
  // determineDeviceType and guessDeviceTypeFromPorts
  // ---------------------------------------------------------------------

  const NetworkVendors := ["cisco", "netgear", "d-link", "tp-link", "asus", "linksys"]
  const IotVendors := ["nest", "ring", "philips hue", "samsung smartthings", "xiaomi"]
  const CameraVendors := ["hikvision", "dahua", "axis", "lorex", "reolink"]
  const TvVendors := ["samsung", "lg", "vizio", "sony", "tcl"]
  const ConsoleVendors := ["nintendo", "sony", "microsoft"]

  /** Every type the classifier can answer. */
  const DeviceTypes: set<string> := {"Router", "Network Device", "IoT Device", "Security Camera",
                                      "Smart TV", "Gaming Console", "Printer", "Smart Hub"}

  /** `guessDeviceTypeFromPorts(ports)`: the first matching port rule. */
  function GuessDeviceTypeFromPorts(ports: seq<int>): (r: string)
    ensures r in {"Network Device", "Security Camera", "Printer", "Smart Hub"}
    ensures r == "Security Camera" <==> !(80 in ports && 443 in ports) && (8080 in ports || 554 in ports)
    ensures r == "Printer" <==> !(80 in ports && 443 in ports) && !(8080 in ports || 554 in ports)
                                && (515 in ports || 631 in ports)
    ensures r == "Smart Hub" <==> !(80 in ports && 443 in ports) && !(8080 in ports || 554 in ports)
                                  && !(515 in ports || 631 in ports) && (1883 in ports || 8883 in ports)
  {
    if 80 in ports && 443 in ports then "Network Device"
    else if 8080 in ports || 554 in ports then "Security Camera"
    else if 515 in ports || 631 in ports then "Printer"
    else if 1883 in ports || 8883 in ports then "Smart Hub"
    else "Network Device"
  }

  /** Only which ports are open matters, not their order or repetition. */
  lemma GuessUsesPortSet(p1: seq<int>, p2: seq<int>)
    requires forall p :: p in p1 <==> p in p2
    ensures GuessDeviceTypeFromPorts(p1) == GuessDeviceTypeFromPorts(p2)
  {
  }

  /** Web ports together win over a camera stream port. */
  lemma GuessExample()
    ensures GuessDeviceTypeFromPorts([80, 443, 554]) == "Network Device"
  {
  }

  /** The manufacturer rules, on the lower-cased manufacturer name;
      `"Unknown Device"` when none fires. */
  function TypeFromManufacturer(mfg: string, ports: seq<int>): (r: string)
    ensures r == "Unknown Device" || r in DeviceTypes
  {
    if ContainsAny(mfg, NetworkVendors) then
      if 80 in ports || 443 in ports then "Router" else "Network Device"
    else if ContainsAny(mfg, IotVendors) then "IoT Device"
    else if ContainsAny(mfg, CameraVendors) then "Security Camera"
    else if ContainsAny(mfg, TvVendors) then "Smart TV"
    else if ContainsAny(mfg, ConsoleVendors) then "Gaming Console"
    else "Unknown Device"
  }

  /** `determineDeviceType(device)`. */
  function DetermineDeviceType(h: Host): (r: string)
    requires LookupSafe(h.mac)
    ensures r in DeviceTypes
    ensures r != "Unknown Device"
  {
    var m := GetManufacturer(h);
    var t := if m != "" then TypeFromManufacturer(Lower(m), h.openPorts) else "Unknown Device";
    if t == "Unknown Device" then GuessDeviceTypeFromPorts(h.openPorts) else t
  }

  /** A network-equipment vendor is a Router exactly when a web port is
      open, and a plain Network Device otherwise. */
  lemma NetworkVendorRouter(h: Host)
    requires LookupSafe(h.mac) && ContainsAny(Lower(GetManufacturer(h)), NetworkVendors)
    ensures DetermineDeviceType(h) == "Router" <==> 80 in h.openPorts || 443 in h.openPorts
    ensures DetermineDeviceType(h) in {"Router", "Network Device"}
  {
    var m := GetManufacturer(h);
    MatchNeedsText(Lower(m), NetworkVendors);
    assert |m| > 0;
    assert TypeFromManufacturer(Lower(m), h.openPorts) == if 80 in h.openPorts || 443 in h.openPorts then "Router" else "Network Device";
  }

  /** Text that contains one of several non-empty keywords is not empty. */
  lemma MatchNeedsText(s: string, keys: seq<string>)
    requires forall k :: 0 <= k < |keys| ==> |keys[k]| > 0
    requires ContainsAny(s, keys)
    ensures |s| > 0
  {
    var k :| 0 <= k < |keys| && Contains(s, keys[k]);
    var i: nat :| i <= |s| && OccursAt(s, keys[k], i);
  }

  /** Only the manufacturer rules answer `"Router"`, `"IoT Device"`,
      `"Smart TV"` or `"Gaming Console"`; the port guess never does. */
  lemma TypeFromPortsOnlyWhenNoRule(h: Host)
    requires LookupSafe(h.mac)
    ensures var m := GetManufacturer(h);
            DetermineDeviceType(h) in {"Router", "IoT Device", "Smart TV", "Gaming Console"}
            ==> m != "" && TypeFromManufacturer(Lower(m), h.openPorts) == DetermineDeviceType(h)
  {
  }

  /** The Smart TV rule comes before the console rule, so a `sony`
      manufacturer is never a Gaming Console; consoles are Nintendo or
      Microsoft. */
  lemma ConsolesAreNintendoOrMicrosoft(h: Host)
    requires LookupSafe(h.mac)
    requires DetermineDeviceType(h) == "Gaming Console"
    ensures var mfg := Lower(GetManufacturer(h));
            !Contains(mfg, "sony") && (Contains(mfg, "nintendo") || Contains(mfg, "microsoft"))
  {
    var mfg := Lower(GetManufacturer(h));
    TypeFromPortsOnlyWhenNoRule(h);
    assert !ContainsAny(mfg, TvVendors);
    assert TvVendors[3] == "sony";
    assert ContainsAny(mfg, ConsoleVendors);
    var k :| 0 <= k < |ConsoleVendors| && Contains(mfg, ConsoleVendors[k]);
    assert k != 1;
  }

  /** A manufacturer containing `sony` and none of the earlier keywords
      is a Smart TV. */
  lemma SonyIsSmartTv(h: Host)
    requires LookupSafe(h.mac)
    requires var mfg := Lower(GetManufacturer(h));
             Contains(mfg, "sony") && !ContainsAny(mfg, NetworkVendors)
             && !ContainsAny(mfg, IotVendors) && !ContainsAny(mfg, CameraVendors)
    ensures DetermineDeviceType(h) == "Smart TV"
  {
    var mfg := Lower(GetManufacturer(h));
    assert Contains(mfg, TvVendors[3]);
  }

  // ---------------------------------------------------------------------
  // determineModel
  // ---------------------------------------------------------------------

  /** One entry of `deviceModels`: identifiers and `modelId -> name`. */
  datatype Brand = Brand(name: string, identifiers: seq<string>, models: seq<(string, string)>)

  /** `deviceModels`, in its insertion order. */
  function DeviceModels(): seq<Brand> {
    [ Brand("iPhone", ["iphone", "apple"],
            [("iPhone11,2", "iPhone XS"), ("iPhone12,1", "iPhone 11"), ("iPhone13,1", "iPhone 12 mini"),
             ("iPhone13,2", "iPhone 12"), ("iPhone14,2", "iPhone 13 Pro")]),
      Brand("Samsung", ["samsung", "galaxy"],
            [("SM-G", "Galaxy S Series"), ("SM-N", "Galaxy Note Series"), ("SM-A", "Galaxy A Series")]),
      Brand("Philips Hue", ["philips", "hue"],
            [("BSB", "Hue Bridge"), ("LCT", "Hue Color Bulb"), ("LWB", "Hue White Bulb")]),
      Brand("Ring", ["ring"],
            [("Doorbell", "Video Doorbell"), ("Cam", "Security Camera")]) ]
  }

  /** Some identifier of the brand occurs in the lower-cased hostname, in
      the lower-cased OS, or in the lower-cased (truthy) manufacturer. */
  predicate BrandMatches(b: Brand, hostname: string, os: string, manufacturer: string) {
    exists k :: 0 <= k < |b.identifiers| &&
      (Contains(hostname, b.identifiers[k]) || Contains(os, b.identifiers[k])
       || (manufacturer != "" && Contains(Lower(manufacturer), b.identifiers[k])))
  }

  /** The first brand that matches. */
  function FirstBrand(brands: seq<Brand>, hostname: string, os: string, manufacturer: string): (r: Option<Brand>)
    ensures r.None? <==> forall i :: 0 <= i < |brands| ==> !BrandMatches(brands[i], hostname, os, manufacturer)
    ensures r.Some? ==> exists i :: 0 <= i < |brands| && brands[i] == r.value
                                  && BrandMatches(r.value, hostname, os, manufacturer)
                                  && forall j :: 0 <= j < i ==> !BrandMatches(brands[j], hostname, os, manufacturer)
  {
    if |brands| == 0 then None
    else if BrandMatches(brands[0], hostname, os, manufacturer) then Some(brands[0])
    else
      var r := FirstBrand(brands[1..], hostname, os, manufacturer);
      assert forall i :: 1 <= i < |brands| ==> brands[i] == brands[1..][i - 1];
      r
  }

  /** The name of the first model whose lower-cased id the hostname
      contains. */
  function FirstModel(models: seq<(string, string)>, hostname: string): (r: Option<string>)
    ensures r.None? <==> forall i :: 0 <= i < |models| ==> !Contains(hostname, Lower(models[i].0))
    ensures r.Some? ==> exists i :: 0 <= i < |models| && models[i].1 == r.value
                                  && Contains(hostname, Lower(models[i].0))
                                  && forall j :: 0 <= j < i ==> !Contains(hostname, Lower(models[j].0))
  {
    if |models| == 0 then None
    else if Contains(hostname, Lower(models[0].0)) then Some(models[0].1)
    else
      var r := FirstModel(models[1..], hostname);
      assert forall i :: 1 <= i < |models| ==> models[i] == models[1..][i - 1];
      r
  }

  /** `determineModel(device)`. The three hostname patterns tried after
      the brand table are the parameter `modelToken`: it answers the
      capture of the first pattern that matches the lower-cased
      hostname, if any. */
  function DetermineModel(h: Host, modelToken: string -> Option<string>): (r: string)
    requires LookupSafe(h.mac)
  {
    var hostname := Lower(h.hostname);
    match FirstBrand(DeviceModels(), hostname, Lower(h.os), GetManufacturer(h))
    case Some(b) =>
      (match FirstModel(b.models, hostname)
       case Some(name) => name
       case None => b.name + " Device")
    case None =>
      (match modelToken(hostname)
       case Some(t) => Upper(t)
       case None => "Unknown Model")
  }

  /** The brand table decides before any hostname pattern is tried: with
      a matching brand the answer is one of its model names or
      `"<brand> Device"`, whatever the patterns would say. */
  lemma ModelFromBrandTable(h: Host, tok1: string -> Option<string>, tok2: string -> Option<string>)
    requires LookupSafe(h.mac)
    requires FirstBrand(DeviceModels(), Lower(h.hostname), Lower(h.os), GetManufacturer(h)).Some?
    ensures DetermineModel(h, tok1) == DetermineModel(h, tok2)
    ensures var b := FirstBrand(DeviceModels(), Lower(h.hostname), Lower(h.os), GetManufacturer(h)).value;
            DetermineModel(h, tok1) == b.name + " Device"
            || exists i :: 0 <= i < |b.models| && DetermineModel(h, tok1) == b.models[i].1
  {
  }

  /** Without a matching brand, the answer is the upper-cased pattern
      capture, or `"Unknown Model"` when no pattern matches. */
  lemma ModelFromPatterns(h: Host, modelToken: string -> Option<string>)
    requires LookupSafe(h.mac)
    requires FirstBrand(DeviceModels(), Lower(h.hostname), Lower(h.os), GetManufacturer(h)).None?
    ensures modelToken(Lower(h.hostname)).None? ==> DetermineModel(h, modelToken) == "Unknown Model"
    ensures modelToken(Lower(h.hostname)).Some? ==>
              |DetermineModel(h, modelToken)| == |modelToken(Lower(h.hostname)).value|
              && forall i :: 0 <= i < |DetermineModel(h, modelToken)| ==> !('a' <= DetermineModel(h, modelToken)[i] <= 'z')
    ensures modelToken(Lower(h.hostname)).Some? ==>
              DetermineModel(h, modelToken) == Upper(modelToken(Lower(h.hostname)).value)
  {
  }

  // ---------------------------------------------------------------------
  // extractFirmwareVersion
  // ---------------------------------------------------------------------

  /** The version of the first service with a truthy version. */
  function FirstVersion(services: seq<Service>): (r: Option<string>)
    ensures r.None? <==> forall i :: 0 <= i < |services| ==> services[i].version == ""
    ensures r.Some? ==> r.value != "" && exists i :: 0 <= i < |services| && services[i].version == r.value
                                            && forall j :: 0 <= j < i ==> services[j].version == ""
  {
    if |services| == 0 then None
    else if services[0].version != "" then Some(services[0].version)
    else
      var r := FirstVersion(services[1..]);
      assert forall i :: 1 <= i < |services| ==> services[i] == services[1..][i - 1];
      r
  }

  function ServiceNames(services: seq<Service>): (r: seq<string>)
    ensures |r| == |services|
    ensures forall i :: 0 <= i < |services| ==> r[i] == services[i].name
  {
    seq(|services|, i requires 0 <= i < |services| => services[i].name)
  }

  /** The lower-cased text the version patterns search: OS, hostname and
      the service names, joined with spaces. */
  function VersionSearchText(h: Host): string {
    Lower(Join([h.os, h.hostname] + ServiceNames(h.services), " "))
  }

  /** `extractFirmwareVersion(device)`. The three version patterns are the
      parameter `versionToken`: it answers the capture of the first
      pattern that matches the search text, if any. */
  function ExtractFirmwareVersion(h: Host, versionToken: string -> Option<string>): (r: string)
    ensures (exists i :: 0 <= i < |h.services| && h.services[i].version != "") ==>
              exists i :: 0 <= i < |h.services| && h.services[i].version == r
                          && forall j :: 0 <= j < i ==> h.services[j].version == ""
    ensures (forall i :: 0 <= i < |h.services| ==> h.services[i].version == "") ==>
              r == versionToken(VersionSearchText(h)).GetOr("Unknown")
  {
    match FirstVersion(h.services)
    case Some(v) => v
    case None => versionToken(VersionSearchText(h)).GetOr("Unknown")
  }

  /** A service version, when any service has one, decides alone: the
      patterns are not consulted. */
  lemma FirmwareFromServiceFirst(h: Host, tok1: string -> Option<string>, tok2: string -> Option<string>)
    requires exists i :: 0 <= i < |h.services| && h.services[i].version != ""
    ensures ExtractFirmwareVersion(h, tok1) == ExtractFirmwareVersion(h, tok2) != ""
  {
  }

  // ---------------------------------------------------------------------
  // determineCapabilities
  // ---------------------------------------------------------------------

  /** `portSignatures[port][1]`. */
  function PortCapability(port: int): Option<string> {
    match port
    case 80 => Some("Web Interface")
    case 443 => Some("Secure Web Interface")
    case 554 => Some("Camera Stream")
    case 1883 => Some("IoT Communication")
    case 8883 => Some("Secure IoT Communication")
    case 5353 => Some("Device Discovery")
    case 8080 => Some("Web Interface")
    case 2323 => Some("Device Control")
    case 49152 => Some("Device Discovery")
    case _ => None
  }

  function PortCapabilities(ports: seq<int>): (r: seq<string>)
    ensures forall c :: c in r <==> exists i :: 0 <= i < |ports| && PortCapability(ports[i]) == Some(c)
  {
    if |ports| == 0 then []
    else
      var rest := PortCapabilities(ports[1..]);
      assert forall i :: 1 <= i < |ports| ==> ports[i] == ports[1..][i - 1];
      (if PortCapability(ports[0]).Some? then [PortCapability(ports[0]).value] else []) + rest
  }

  /** What one service name adds, in the order the checks run. */
  function NameCapabilities(name: string): seq<string> {
    if name == "" then []
    else
      (if Contains(name, "rtsp") then ["Video Streaming"] else [])
      + (if Contains(name, "mqtt") then ["IoT Communication"] else [])
      + (if Contains(name, "http") then ["Web Interface"] else [])
      + (if Contains(name, "ssh") then ["Remote Access"] else [])
  }

  function ServiceCapabilities(services: seq<Service>): (r: seq<string>)
    ensures forall c :: c in r <==> exists i :: 0 <= i < |services| && c in NameCapabilities(services[i].name)
  {
    if |services| == 0 then []
    else
      var rest := ServiceCapabilities(services[1..]);
      assert forall i :: 1 <= i < |services| ==> services[i] == services[1..][i - 1];
      NameCapabilities(services[0].name) + rest
  }

  /** The defaults the `switch` on the lower-cased type adds. */
  function TypeCapabilities(kind: string): seq<string> {
    var k := Lower(kind);
    if k == "camera" then ["Video Capture", "Motion Detection"]
    else if k == "smartphone" then ["Mobile Device", "Wi-Fi", "Bluetooth"]
    else if k == "router" then ["Network Management", "DHCP Server", "Firewall"]
    else []
  }

  /** Every capability in the order it is added to the `Set`. */
  function CapabilityCandidates(h: Host): seq<string>
    requires LookupSafe(h.mac)
  {
    PortCapabilities(h.openPorts) + ServiceCapabilities(h.services) + TypeCapabilities(DetermineDeviceType(h))
  }

  /** The index of the first occurrence of `x` in `s`. */
  function FirstIndex(s: seq<string>, x: string): (k: nat)
    requires x in s
    ensures k < |s| && s[k] == x && forall j :: 0 <= j < k ==> s[j] != x
  {
    if s[0] == x then 0 else 1 + FirstIndex(s[1..], x)
  }

  lemma {:induction false} FirstIndexPrefix(s: seq<string>, n: nat, x: string)
    requires n <= |s| && x in s[..n]
    ensures FirstIndex(s[..n], x) == FirstIndex(s, x)
  {
    var k := FirstIndex(s[..n], x);
    var m := FirstIndex(s, x);
    assert s[k] == x;
  }

  /** The distinct elements of `xs` in order of first occurrence, as a
      set built from the list and read back keeps them. */
  function Dedup(xs: seq<string>): (r: seq<string>)
    ensures NoDuplicates(r)
    ensures forall x :: x in r <==> x in xs
    ensures forall i, j :: 0 <= i < j < |r| ==> FirstIndex(xs, r[i]) < FirstIndex(xs, r[j])
  {
    if |xs| == 0 then []
    else
      var init := xs[..|xs| - 1];
      var d := Dedup(init);
      var last := xs[|xs| - 1];
      assert xs == init + [last];
      assert forall x :: x in d ==> x in init && FirstIndex(init, x) == FirstIndex(xs, x) by {
        forall x | x in d
          ensures x in init && FirstIndex(init, x) == FirstIndex(xs, x)
        {
          FirstIndexPrefix(xs, |xs| - 1, x);
        }
      }
      if last in d then d
      else
        assert FirstIndex(xs, last) == |xs| - 1;
        d + [last]
  }

  /** `determineCapabilities(device)`. */
  function DetermineCapabilities(h: Host): (r: seq<string>)
    requires LookupSafe(h.mac)
    ensures NoDuplicates(r)
  {
    Dedup(CapabilityCandidates(h))
  }

  /** A capability is listed exactly when an open port's signature, a
      service name or the type's defaults produce it. */
  lemma CapabilitiesMembership(h: Host, c: string)
    requires LookupSafe(h.mac)
    ensures c in DetermineCapabilities(h) <==>
              (exists i :: 0 <= i < |h.openPorts| && PortCapability(h.openPorts[i]) == Some(c))
              || (exists i :: 0 <= i < |h.services| && c in NameCapabilities(h.services[i].name))
              || c in TypeCapabilities(DetermineDeviceType(h))
  {
  }

  /** Among the types the classifier produces only `Router` adds
      defaults: its lower-cased form is never `camera` or `smartphone`. */
  lemma OnlyRouterAddsTypeDefaults(h: Host)
    requires LookupSafe(h.mac)
    ensures TypeCapabilities(DetermineDeviceType(h)) ==
              if DetermineDeviceType(h) == "Router" then ["Network Management", "DHCP Server", "Firewall"] else []
  {
    var t := DetermineDeviceType(h);
    var k := Lower(t);
    if t == "Router" {
      assert k == "router";
    } else if t == "IoT Device" {
      assert k[0] == 'i';
    } else {
      assert |k| == |t| && |t| != 6 && |t| != 10;
    }
  }

  // ---------------------------------------------------------------------
  // generateDeviceName
  // ---------------------------------------------------------------------

  predicate IsAsciiLetter(c: char) { 'a' <= c <= 'z' || 'A' <= c <= 'Z' }

  predicate IsAsciiDigit(c: char) { '0' <= c <= '9' }

  /** `\s` of JavaScript regular expressions. */
  predicate IsJsWhitespace(c: char) {
    || c == '\t' || c == '\n' || c == '\U{000B}' || c == '\U{000C}' || c == '\r' || c == ' '
    || c == '\U{00A0}' || c == '\U{1680}' || ('\U{2000}' <= c <= '\U{200A}')
    || c == '\U{2028}' || c == '\U{2029}' || c == '\U{202F}' || c == '\U{205F}'
    || c == '\U{3000}' || c == '\U{FEFF}'
  }

  /** The characters `[a-zA-Z0-9-_\s]` keeps. */
  predicate KeepsHostChar(c: char) {
    IsAsciiLetter(c) || IsAsciiDigit(c) || c == '-' || c == '_' || IsJsWhitespace(c)
  }

  /** Drop every character the hostname filter does not keep, then turn
      each hyphen into a space. */
  function FilterHostname(s: string): (r: string)
    ensures forall i :: 0 <= i < |r| ==> KeepsHostChar(r[i]) && r[i] != '-'
    ensures r == "" <==> forall i :: 0 <= i < |s| ==> !KeepsHostChar(s[i])
  {
    if |s| == 0 then ""
    else
      var rest := FilterHostname(s[1..]);
      assert forall i :: 1 <= i < |s| ==> s[i] == s[1..][i - 1];
      (if !KeepsHostChar(s[0]) then "" else if s[0] == '-' then " " else [s[0]]) + rest
  }

  /** A word with its first character upper-cased and the rest
      lower-cased. */
  function TitleWord(w: string): string {
    if w == "" then "" else [UpperChar(w[0])] + Lower(w[1..])
  }

  function MapTitle(ws: seq<string>): (r: seq<string>)
    ensures |r| == |ws|
    ensures forall i :: 0 <= i < |ws| ==> r[i] == TitleWord(ws[i])
  {
    seq(|ws|, i requires 0 <= i < |ws| => TitleWord(ws[i]))
  }

  /** The hostname clean-up: filter, dashes to spaces, then
      split at spaces, title-case every word and join them with spaces. */
  function CleanHostname(s: string): string {
    Join(MapTitle(Split(FilterHostname(s), ' ')), " ")
  }

  /** Title-casing character by character: a character is upper-cased
      when it starts the text or follows a space, lower-cased otherwise. */
  function TitleFrom(s: string, atStart: bool): (r: string)
    ensures |r| == |s|
  {
    if |s| == 0 then ""
    else [if atStart then UpperChar(s[0]) else LowerChar(s[0])] + TitleFrom(s[1..], s[0] == ' ')
  }

  lemma JoinPrependChar(c: char, a: string, rest: seq<string>, sep: string)
    ensures Join([[c] + a] + rest, sep) == [c] + Join([a] + rest, sep)
  {
    JoinCons([c] + a, rest, sep);
    JoinCons(a, rest, sep);
  }

  /** Splitting at spaces, title-casing every word and joining again is
      the same as title-casing character by character. */
  lemma {:induction false} CleanHostnameCharwise(s: string)
    ensures Join(MapTitle(Split(s, ' ')), " ") == TitleFrom(s, true)
    ensures Join([Lower(Split(s, ' ')[0])] + MapTitle(Split(s, ' ')[1..]), " ") == TitleFrom(s, false)
  {
    if |s| == 0 {
      assert Split(s, ' ') == [""];
    } else {
      CleanHostnameCharwise(s[1..]);
      if s[0] == ' ' {
        CharwiseAfterSpace(s);
      } else {
        CharwiseInWord(s);
      }
    }
  }

  /** The step of `CleanHostnameCharwise` for a leading space. */
  lemma CharwiseAfterSpace(s: string)
    requires |s| > 0 && s[0] == ' '
    requires Join(MapTitle(Split(s[1..], ' ')), " ") == TitleFrom(s[1..], true)
    ensures Join(MapTitle(Split(s, ' ')), " ") == TitleFrom(s, true)
    ensures Join([Lower(Split(s, ' ')[0])] + MapTitle(Split(s, ' ')[1..]), " ") == TitleFrom(s, false)
  {
    var rest := Split(s[1..], ' ');
    var parts := Split(s, ' ');
    assert parts == [""] + rest;
    assert parts[0] == "" && parts[1..] == rest;
    SpaceStep(rest, TitleFrom(s[1..], true));
    assert TitleFrom(s, true) == [' '] + TitleFrom(s[1..], true);
    assert TitleFrom(s, false) == [' '] + TitleFrom(s[1..], true);
  }

  /** An empty first word before the rest: joining puts one space in
      front of the rest, whether the empty word is title- or lower-cased. */
  lemma SpaceStep(rest: seq<string>, t: string)
    requires |rest| >= 1
    requires Join(MapTitle(rest), " ") == t
    ensures Join(MapTitle([""] + rest), " ") == [' '] + t
    ensures Join([Lower("")] + MapTitle(rest), " ") == [' '] + t
  {
    assert MapTitle([""] + rest) == [""] + MapTitle(rest);
    assert Lower("") == "";
    JoinCons("", MapTitle(rest), " ");
  }

  /** The step of `CleanHostnameCharwise` for a leading word character. */
  lemma CharwiseInWord(s: string)
    requires |s| > 0 && s[0] != ' '
    requires Join([Lower(Split(s[1..], ' ')[0])] + MapTitle(Split(s[1..], ' ')[1..]), " ") == TitleFrom(s[1..], false)
    ensures Join(MapTitle(Split(s, ' ')), " ") == TitleFrom(s, true)
    ensures Join([Lower(Split(s, ' ')[0])] + MapTitle(Split(s, ' ')[1..]), " ") == TitleFrom(s, false)
  {
    var rest := Split(s[1..], ' ');
    var parts := Split(s, ' ');
    assert parts == [[s[0]] + rest[0]] + rest[1..];
    assert parts[0] == [s[0]] + rest[0];
    assert parts[1..] == rest[1..];
    WordStep(s[0], rest[0], rest[1..], TitleFrom(s[1..], false));
    assert TitleFrom(s, true) == [UpperChar(s[0])] + TitleFrom(s[1..], false);
    assert TitleFrom(s, false) == [LowerChar(s[0])] + TitleFrom(s[1..], false);
  }

  /** Putting a word character in front of the first word: title-casing
      upper-cases it, lower-casing lower-cases it, the rest is unchanged. */
  lemma WordStep(c: char, r0: string, tail: seq<string>, t: string)
    requires Join([Lower(r0)] + MapTitle(tail), " ") == t
    ensures Join(MapTitle([[c] + r0] + tail), " ") == [UpperChar(c)] + t
    ensures Join([Lower([c] + r0)] + MapTitle(tail), " ") == [LowerChar(c)] + t
  {
    TitleWordStep(c, r0, tail);
    JoinPrependChar(UpperChar(c), Lower(r0), MapTitle(tail), " ");
    LowerStep(c, r0);
    JoinPrependChar(LowerChar(c), Lower(r0), MapTitle(tail), " ");
  }

  lemma TitleWordStep(c: char, r0: string, tail: seq<string>)
    ensures MapTitle([[c] + r0] + tail) == [[UpperChar(c)] + Lower(r0)] + MapTitle(tail)
  {
    var w := [c] + r0;
    assert w[1..] == r0;
    assert TitleWord(w) == [UpperChar(c)] + Lower(r0);
  }

  lemma LowerStep(c: char, r0: string)
    ensures Lower([c] + r0) == [LowerChar(c)] + Lower(r0)
  {
  }

  /** Title-casing changes only the case of ASCII letters. */
  lemma {:induction false} TitleFromPreserves(s: string, atStart: bool)
    ensures forall i :: 0 <= i < |s| ==> LowerChar(TitleFrom(s, atStart)[i]) == LowerChar(s[i])
  {
    if |s| > 0 {
      TitleFromPreserves(s[1..], s[0] == ' ');
      forall i | 1 <= i < |s|
        ensures LowerChar(TitleFrom(s, atStart)[i]) == LowerChar(s[i])
      {
        assert TitleFrom(s, atStart)[i] == TitleFrom(s[1..], s[0] == ' ')[i - 1];
      }
    }
  }

  /** The cleaned hostname keeps the filtered characters up to case: it
      has the filtered text's length and agrees with it once lower-cased,
      so it contains only letters, digits, `_` and whitespace. */
  lemma CleanHostnameShape(s: string)
    ensures |CleanHostname(s)| == |FilterHostname(s)|
    ensures forall i :: 0 <= i < |CleanHostname(s)| ==> LowerChar(CleanHostname(s)[i]) == LowerChar(FilterHostname(s)[i])
    ensures forall i :: 0 <= i < |CleanHostname(s)| ==>
              var c := CleanHostname(s)[i]; c != ':' && c != '.' && c != '-'
    ensures CleanHostname(s) == "" <==> forall i :: 0 <= i < |s| ==> !KeepsHostChar(s[i])
  {
    var f := FilterHostname(s);
    var c := CleanHostname(s);
    assert c == TitleFrom(f, true) by {
      CleanHostnameCharwise(f);
    }
    TitleFromPreserves(f, true);
    forall i | 0 <= i < |c|
      ensures c[i] != ':' && c[i] != '.' && c[i] != '-'
    {
      assert LowerChar(c[i]) == LowerChar(f[i]);
      assert KeepsHostChar(f[i]) && f[i] != '-';
    }
  }

  predicate IsHexLetterOrDigit(c: char) {
    '0' <= c <= '9' || 'a' <= c <= 'f' || 'A' <= c <= 'F'
  }

  /** Six pairs of hexadecimal digits, each pair after the first preceded
      by a colon or a hyphen. */
  predicate LooksLikeMac(s: string) {
    && |s| == 17
    && (forall i :: 0 <= i < 17 && i % 3 != 2 ==> IsHexLetterOrDigit(s[i]))
    && (forall i :: 0 <= i < 17 && i % 3 == 2 ==> s[i] == ':' || s[i] == '-')
  }

  predicate AllDigits(s: string) {
    forall i :: 0 <= i < |s| ==> IsAsciiDigit(s[i])
  }

  /** Four dot-separated groups of one to three decimal digits; the value
      of a group is not checked. */
  predicate LooksLikeIp(s: string) {
    var parts := Split(s, '.');
    |parts| == 4 && forall k :: 0 <= k < 4 ==> 1 <= |parts[k]| <= 3 && AllDigits(parts[k])
  }

  /** The IP and MAC guards of `generateDeviceName` can never fire: the
      clean-up has already removed every `:` and `.` and turned every `-`
      into a space. */
  lemma CleanHostnameNeverMacOrIp(s: string)
    ensures !LooksLikeMac(CleanHostname(s))
    ensures !LooksLikeIp(CleanHostname(s))
  {
    var c := CleanHostname(s);
    CleanHostnameShape(s);
    if |c| == 17 {
      assert 2 % 3 == 2;
      assert c[2] != ':' && c[2] != '-';
    }
    SplitWithoutSeparator(c, '.');
  }

  /** The short id of the fallback name: the last four characters of
      the MAC without colons, else the last dot-separated part of the
      IP. */
  function NameSuffix(h: Host): string {
    if h.mac != "" then TakeLast(Remove(h.mac, ':'), 4) else LastSegment(h.ip, '.')
  }

  /** `generateDeviceName(device)`. */
  function GenerateDeviceName(h: Host): (r: string)
    requires LookupSafe(h.mac)
  {
    var manufacturer := GetManufacturer(h);
    var kind := DetermineDeviceType(h);
    var clean := if h.hostname != "" then CleanHostname(h.hostname) else "";
    var clean := if LooksLikeMac(clean) then "" else clean;
    var clean := if LooksLikeIp(clean) then "" else clean;
    if clean != "" then clean
    else
      var id := NameSuffix(h);
      if manufacturer != "Unknown" then manufacturer + " " + kind + " (" + id + ")"
      else kind + " (" + id + ")"
  }

  /** A hostname with at least one character the clean-up keeps names the
      device; otherwise the name is built from manufacturer, type and
      the MAC or IP suffix. */
  lemma DeviceNameChoice(h: Host)
    requires LookupSafe(h.mac)
    ensures (exists i :: 0 <= i < |h.hostname| && KeepsHostChar(h.hostname[i]))
              ==> GenerateDeviceName(h) == CleanHostname(h.hostname)
    ensures (forall i :: 0 <= i < |h.hostname| ==> !KeepsHostChar(h.hostname[i]))
              ==> GenerateDeviceName(h)
                  == (if GetManufacturer(h) != "Unknown" then GetManufacturer(h) + " " else "")
                     + DetermineDeviceType(h) + " (" + NameSuffix(h) + ")"
  {
    var clean := if h.hostname != "" then CleanHostname(h.hostname) else "";
    CleanHostnameNeverMacOrIp(h.hostname);
    CleanHostnameShape(h.hostname);
    assert !LooksLikeMac(clean) && !LooksLikeIp(clean) by {
      if h.hostname == "" {
        assert |clean| != 17;
        assert Split(clean, '.') == [""];
      }
    }
    if forall i :: 0 <= i < |h.hostname| ==> !KeepsHostChar(h.hostname[i]) {
      assert clean == "";
      var m, id := GetManufacturer(h), NameSuffix(h);
      assert "" + DetermineDeviceType(h) == DetermineDeviceType(h);
    } else {
      assert clean == CleanHostname(h.hostname) != "";
    }
  }

  /** The MAC suffix is at most four characters and has no colon. */
  lemma NameSuffixFromMac(h: Host)
    requires h.mac != ""
    ensures |NameSuffix(h)| <= 4
    ensures forall i :: 0 <= i < |NameSuffix(h)| ==> NameSuffix(h)[i] != ':'
  {
    var m := Remove(h.mac, ':');
    var r := TakeLast(m, 4);
    forall i | 0 <= i < |r|
      ensures r[i] != ':'
    {
      assert r[i] == m[|m| - |r| + i];
    }
  }

  // ---------------------------------------------------------------------
  // calculateSecurityScore (identifier)
  // ---------------------------------------------------------------------

  const CommonWebPorts := [80, 443, 8080, 8443]

  predicate HasAnyPort(ports: seq<int>, wanted: seq<int>) {
    exists i :: 0 <= i < |ports| && ports[i] in wanted
  }

  /** The findings the identifier's score collects, each with the points
      it costs. */
  datatype ScoreIssue = TelnetOpen | FtpOpen | WebPortsExposed | UnknownManufacturer | UnknownFirmware
  {
    function Deduction(): nat {
      match this
      case TelnetOpen => 30
      case FtpOpen => 20
      case WebPortsExposed => 10
      case UnknownManufacturer => 5
      case UnknownFirmware => 5
    }
  }

  function SumDeductions(issues: seq<ScoreIssue>): nat {
    if |issues| == 0 then 0 else issues[0].Deduction() + SumDeductions(issues[1..])
  }

  lemma {:induction false} SumDeductionsAppend(a: seq<ScoreIssue>, b: seq<ScoreIssue>)
    ensures SumDeductions(a + b) == SumDeductions(a) + SumDeductions(b)
    decreases |a|
  {
    if |a| == 0 {
      assert a + b == b;
    } else {
      assert (a + b)[1..] == a[1..] + b;
      SumDeductionsAppend(a[1..], b);
    }
  }

  /** The issue `i` when it was found, nothing otherwise. */
  function IssueIf(present: bool, i: ScoreIssue): (r: seq<ScoreIssue>)
    ensures SumDeductions(r) == if present then i.Deduction() else 0
  {
    if present then [i] else []
  }

  predicate TelnetPortOpen(h: Host) { 23 in h.openPorts || 2323 in h.openPorts }

  predicate UnknownText(s: string) { s == "" || s == "Unknown" }

  /** The `securityIssues` list the identifier's score builds, in the
      order the checks run: telnet (23 or 2323), FTP (21), a common web
      port, an absent or `'Unknown'` manufacturer, an absent or
      `'Unknown'` firmware version. */
  function ScoreIssues(h: Host): (r: seq<ScoreIssue>)
    ensures TelnetOpen in r <==> TelnetPortOpen(h)
    ensures FtpOpen in r <==> 21 in h.openPorts
    ensures WebPortsExposed in r <==> HasAnyPort(h.openPorts, CommonWebPorts)
    ensures UnknownManufacturer in r <==> UnknownText(h.manufacturer)
    ensures UnknownFirmware in r <==> UnknownText(h.firmwareVersion)
    ensures |r| <= 5
  {
    (if TelnetPortOpen(h) then [TelnetOpen] else []) + (if 21 in h.openPorts then [FtpOpen] else [])
    + (if HasAnyPort(h.openPorts, CommonWebPorts) then [WebPortsExposed] else [])
    + (if UnknownText(h.manufacturer) then [UnknownManufacturer] else [])
    + (if UnknownText(h.firmwareVersion) then [UnknownFirmware] else [])
  }

  /** The points the issues cost: 30 for telnet, 20 for FTP, 10 for a web
      port, 5 each for an unknown manufacturer or firmware version. */
  lemma ScoreIssuesCost(h: Host)
    ensures SumDeductions(ScoreIssues(h)) ==
              (if TelnetPortOpen(h) then 30 else 0) + (if 21 in h.openPorts then 20 else 0)
              + (if HasAnyPort(h.openPorts, CommonWebPorts) then 10 else 0)
              + (if UnknownText(h.manufacturer) then 5 else 0) + (if UnknownText(h.firmwareVersion) then 5 else 0)
  {
    var a := IssueIf(TelnetPortOpen(h), TelnetOpen);
    var b := IssueIf(21 in h.openPorts, FtpOpen);
    var c := IssueIf(HasAnyPort(h.openPorts, CommonWebPorts), WebPortsExposed);
    var d := IssueIf(UnknownText(h.manufacturer), UnknownManufacturer);
    var e := IssueIf(UnknownText(h.firmwareVersion), UnknownFirmware);
    assert ScoreIssues(h) == a + b + c + d + e;
    SumDeductionsAppend(a, b);
    SumDeductionsAppend(a + b, c);
    SumDeductionsAppend(a + b + c, d);
    SumDeductionsAppend(a + b + c + d, e);
  }

  /** The identifier's score: 100 minus the points of every issue found.
      At most 70 points can go, so the floor at 0 never takes effect. */
  function IdentifierScore(h: Host): (r: int)
    ensures r == 100 - (if TelnetPortOpen(h) then 30 else 0) - (if 21 in h.openPorts then 20 else 0)
                 - (if HasAnyPort(h.openPorts, CommonWebPorts) then 10 else 0)
                 - (if UnknownText(h.manufacturer) then 5 else 0) - (if UnknownText(h.firmwareVersion) then 5 else 0)
    ensures 30 <= r <= 100
    ensures r == 100 <==> |ScoreIssues(h)| == 0
  {
    ScoreIssuesCost(h);
    var score := 100 - SumDeductions(ScoreIssues(h));
    if score < 0 then 0 else score
  }

  /** Opening more ports never raises the identifier's score. */
  lemma IdentifierScoreMonotone(h: Host, more: seq<int>)
    requires forall p :: p in h.openPorts ==> p in more
    ensures IdentifierScore(h.(openPorts := more)) <= IdentifierScore(h)
  {
    if HasAnyPort(h.openPorts, CommonWebPorts) {
      var i :| 0 <= i < |h.openPorts| && h.openPorts[i] in CommonWebPorts;
      assert h.openPorts[i] in h.openPorts;
      var j :| 0 <= j < |more| && more[j] == h.openPorts[i];
      assert HasAnyPort(more, CommonWebPorts);
    }
  }

  // ---------------------------------------------------------------------
  // identifyDevice
  // ---------------------------------------------------------------------

  /** `enrichedDevice.details`; `firstSeen` is not modelled. */
  datatype Details = Details(
    mac: string, ipAddress: string, hostname: string, openPorts: seq<int>, os: string,
    services: seq<Service>, lastSeen: int, manufacturer: string, model: string,
    firmwareVersion: string, capabilities: seq<string>)

  /** The fields `identifyDevice` adds to the host record. */
  datatype Profile = Profile(
    id: string, name: string, kind: string, manufacturer: string, model: string,
    firmwareVersion: string, lastSeen: int, securityScore: int, details: Details)

  /** `identifyDevice` either enriches the record or, when a step throws,
      hands the record back unchanged. */
  datatype Identified = Enriched(host: Host, profile: Profile) | Unchanged(host: Host)

  /** `identifyDevice(device)` at time `now`. */
  function IdentifyDevice(h: Host, now: int, modelToken: string -> Option<string>,
                          versionToken: string -> Option<string>): (r: Identified)
    ensures r.host == h
    ensures r.Unchanged? <==> !LookupSafe(h.mac)
    ensures r.Enriched? ==> r.profile.id == OrElse(h.mac, h.ip)
                            && r.profile.details.mac == OrElse(h.mac, "Unknown")
                            && r.profile.details.hostname == OrElse(h.hostname, "Unknown")
                            && r.profile.details.os == OrElse(h.os, "Unknown")
                            && r.profile.kind in DeviceTypes
                            && 30 <= r.profile.securityScore <= 100
                            && r.profile.details.manufacturer == r.profile.manufacturer
                            && r.profile.details.model == r.profile.model
                            && r.profile.details.firmwareVersion == r.profile.firmwareVersion
  {
    if !LookupSafe(h.mac) then Unchanged(h)
    else
      var manufacturer := GetManufacturer(h);
      var model := DetermineModel(h, modelToken);
      var firmware := ExtractFirmwareVersion(h, versionToken);
      Enriched(h, Profile(
        OrElse(h.mac, h.ip), GenerateDeviceName(h), DetermineDeviceType(h), manufacturer, model,
        firmware, now, IdentifierScore(h),
        Details(OrElse(h.mac, "Unknown"), h.ip, OrElse(h.hostname, "Unknown"), h.openPorts,
                OrElse(h.os, "Unknown"), h.services, now, manufacturer, model, firmware,
                DetermineCapabilities(h))))
  }
}

=== FILE: device_records.dfy ===
/** The host record the discovery engine passes between its stages.
    JavaScript fields that may be missing are modelled by their falsy
    stand-in: `""` for a string and `[]` for a list. Every reader of
    these fields goes through `||` or a truthiness test, so a missing
    field and its stand-in behave the same. */
module Devices {

  /** One entry of `services`: `{ port, name, version }`. */
  datatype Service = Service(port: int, name: string, version: string)

  /** A device as the identifier sees it. `manufacturer` and
      `firmwareVersion` are whatever the caller already put on the
      record; the sweep results never carry them. */
  datatype Host = Host(
    ip: string,
    mac: string,
    hostname: string,
    openPorts: seq<int>,
    os: string,
    services: seq<Service>,
    manufacturer: string,
    firmwareVersion: string)
}

=== FILE: iot_agent.dfy ===
/** `IoTAgent`: the coordinator that runs the detector, passes every
    discovered record through the identifier, publishes its own security
    status and score for each device, keeps the inventory keyed by device
    id, rechecks it periodically and summarises it as network statistics
    and vulnerability findings. */
module IoTAgent {
  import opened Common
  import opened MacVendors
  import opened Devices
  import opened DeviceIdentifier
  import DeviceDetector

  // ---------------------------------------------------------------------
  // The device record the agent publishes
  // ---------------------------------------------------------------------

  /** A device in the inventory. `kind` is the `type` field (`""` when
      the record has none), `serviceNames` the names in `serviceInfo`,
      `profile` what the identifier added when it succeeded. Times are
      milliseconds. */
  datatype Device = Device(
    id: string, name: string, kind: string, ip: string, mac: string, hostname: string,
    openPorts: seq<int>, os: string, serviceNames: seq<string>,
    status: string, securityScore: int, lastSeen: int, lastChecked: Option<int>,
    profile: Option<Profile>)

  // ---------------------------------------------------------------------
  // assessDeviceSecurity
  // ---------------------------------------------------------------------

  const RiskyPorts := [21, 23, 25, 53, 137, 139, 445, 1433, 3306, 3389]

  /** The open ports that are on the risky list, in their original order. */
  function RiskyOpen(ports: seq<int>): (r: seq<int>)
    ensures forall p :: p in r <==> p in ports && p in RiskyPorts
    ensures |r| <= |ports|
  {
    if |ports| == 0 then []
    else (if ports[0] in RiskyPorts then [ports[0]] else []) + RiskyOpen(ports[1..])
  }

  predicate HasRiskyPort(ports: seq<int>) {
    exists i :: 0 <= i < |ports| && ports[i] in RiskyPorts
  }

  predicate OutdatedOs(os: string) {
    Contains(Lower(os), "windows xp")
  }

  predicate HasTelnetService(names: seq<string>) {
    exists i :: 0 <= i < |names| && Contains(Lower(names[i]), "telnet")
  }

  /** A port number as a template literal renders it. */
  function PortText(p: int): string {
    if p < 0 then "-" + NatToString(-p) else NatToString(p)
  }

  /** The risky-port entry of `securityIssues`, present when a risky port
      is open. */
  function RiskyPortIssue(ports: seq<int>): (r: seq<string>)
    ensures |r| == if HasRiskyPort(ports) then 1 else 0
  {
    var risky := RiskyOpen(ports);
    RiskyOpenNonEmpty(ports);
    if |risky| > 0
    then ["Open risky ports: " + Join(seq(|risky|, i requires 0 <= i < |risky| => PortText(risky[i])), ", ")]
    else []
  }

  /** The outdated-system entry, present for Windows XP. */
  function OsIssue(os: string): (r: seq<string>)
    ensures |r| == if OutdatedOs(os) then 1 else 0
  {
    if os != "" && OutdatedOs(os) then ["Outdated operating system"] else []
  }

  /** The default-credentials entry, present when a service is telnet. */
  function TelnetIssue(serviceNames: seq<string>): (r: seq<string>)
    ensures |r| == if HasTelnetService(serviceNames) then 1 else 0
  {
    if HasTelnetService(serviceNames) then ["Services with potential default credentials detected"] else []
  }

  /** The `securityIssues` list: at most one entry per kind of issue. */
  function SecurityIssues(ports: seq<int>, os: string, serviceNames: seq<string>): seq<string> {
    RiskyPortIssue(ports) + OsIssue(os) + TelnetIssue(serviceNames)
  }

  /** The number of kinds of issue a device shows. */
  function IssueKinds(d: Device): nat {
    (if HasRiskyPort(d.openPorts) then 1 else 0)
    + (if OutdatedOs(d.os) then 1 else 0)
    + (if HasTelnetService(d.serviceNames) then 1 else 0)
  }

  /** `assessDeviceSecurity(device)`: no issue is Secured, one is
      Attention, two or more are Warning. */
  function AssessDeviceSecurity(d: Device): (r: string)
    ensures r == "Secured" <==> IssueKinds(d) == 0
    ensures r == "Attention" <==> IssueKinds(d) == 1
    ensures r == "Warning" <==> IssueKinds(d) >= 2
  {
    var issues := SecurityIssues(d.openPorts, d.os, d.serviceNames);
    IssuesPerKind(d.openPorts, d.os, d.serviceNames);
    if |issues| == 0 then "Secured" else if |issues| == 1 then "Attention" else "Warning"
  }

  /** The issue list has one entry per kind of issue present. */
  lemma IssuesPerKind(ports: seq<int>, os: string, serviceNames: seq<string>)
    ensures |SecurityIssues(ports, os, serviceNames)|
            == (if HasRiskyPort(ports) then 1 else 0) + (if OutdatedOs(os) then 1 else 0)
               + (if HasTelnetService(serviceNames) then 1 else 0)
  {
  }

  lemma RiskyOpenNonEmpty(ports: seq<int>)
    ensures |RiskyOpen(ports)| > 0 <==> HasRiskyPort(ports)
  {
    if HasRiskyPort(ports) {
      var i :| 0 <= i < |ports| && ports[i] in RiskyPorts;
      assert ports[i] in RiskyOpen(ports);
    }
    if |RiskyOpen(ports)| > 0 {
      assert RiskyOpen(ports)[0] in ports;
    }
  }

  /** Several risky ports are still one issue. */
  lemma RiskyPortsCountOnce(d: Device)
    requires !OutdatedOs(d.os) && !HasTelnetService(d.serviceNames)
    requires 21 in d.openPorts && 23 in d.openPorts
    ensures AssessDeviceSecurity(d) == "Attention"
  {
    var i :| 0 <= i < |d.openPorts| && d.openPorts[i] == 21;
    assert d.openPorts[i] in RiskyPorts;
  }

  // ---------------------------------------------------------------------
  // calculateSecurityScore (the score the agent publishes)
  // ---------------------------------------------------------------------

  /** How bad a status is for the score: Warning 2, Attention 1, any
      other status 0. */
  function Severity(status: string): nat {
    if status == "Warning" then 2 else if status == "Attention" then 1 else 0
  }

  /** `calculateSecurityScore(device)`: 100, less 5 per open port, less
      30 for Warning or 15 for Attention, kept within 0..100. */
  function SecurityScore(ports: seq<int>, status: string): (r: int)
    ensures 0 <= r <= 100
    ensures r == 100 <==> |ports| == 0 && Severity(status) == 0
    ensures r > 0 ==> r == 100 - 5 * |ports| - 15 * Severity(status)
    ensures var raw := 100 - 5 * |ports| - 15 * Severity(status);
            r == if raw < 0 then 0 else raw
  {
    var score := 100 - (if |ports| > 0 then 5 * |ports| else 0)
                 - (if status == "Warning" then 30 else if status == "Attention" then 15 else 0);
    if score < 0 then 0 else if score > 100 then 100 else score
  }

  /** More open ports never raise the score. */
  lemma ScoreMonotoneInPorts(p1: seq<int>, p2: seq<int>, status: string)
    requires |p1| <= |p2|
    ensures SecurityScore(p2, status) <= SecurityScore(p1, status)
  {}

  /** A worse status never raises the score. */
  lemma ScoreMonotoneInStatus(ports: seq<int>, s1: string, s2: string)
    requires Severity(s1) <= Severity(s2)
    ensures SecurityScore(ports, s2) <= SecurityScore(ports, s1)
  {}

  /** `processDevices` and the status loop overwrite both fields: the
      status first, then the score computed from it. */
  function Assessed(d: Device): (r: Device)
    ensures r == d.(status := r.status, securityScore := r.securityScore)
    ensures r.status == AssessDeviceSecurity(d)
    ensures r.securityScore == SecurityScore(d.openPorts, r.status)
  {
    var status := AssessDeviceSecurity(d);
    d.(status := status, securityScore := SecurityScore(d.openPorts, status))
  }

  /** The device carries the status and score the agent would publish. */
  predicate IsAssessed(d: Device) {
    d.status == AssessDeviceSecurity(d) && d.securityScore == SecurityScore(d.openPorts, d.status)
  }

  lemma AssessedIsAssessed(d: Device)
    ensures IsAssessed(Assessed(d))
  {
    assert AssessDeviceSecurity(Assessed(d)) == AssessDeviceSecurity(d) by {
      assert IssueKinds(Assessed(d)) == IssueKinds(d);
    }
  }

  /** Opening one more port never raises the published score: the port
      count grows and the status can only get worse. */
  lemma PublishedScoreMonotone(d: Device, p: int)
    ensures Assessed(d.(openPorts := d.openPorts + [p])).securityScore <= Assessed(d).securityScore
  {
    var d2 := d.(openPorts := d.openPorts + [p]);
    if HasRiskyPort(d.openPorts) {
      var i :| 0 <= i < |d.openPorts| && d.openPorts[i] in RiskyPorts;
      assert d2.openPorts[i] in RiskyPorts;
    }
    assert IssueKinds(d) <= IssueKinds(d2);
    ScoreMonotoneInStatus(d2.openPorts, Assessed(d).status, Assessed(d2).status);
    ScoreMonotoneInPorts(d.openPorts, d2.openPorts, Assessed(d).status);
  }

  /** A host with ports 22 and 80 only and nothing else suspicious is
      published as Secured with score 90. */
  lemma TwoSafePortsExample(d: Device)
    requires d.openPorts == [22, 80] && !OutdatedOs(d.os) && !HasTelnetService(d.serviceNames)
    ensures Assessed(d).status == "Secured" && Assessed(d).securityScore == 90
  {
    assert !HasRiskyPort(d.openPorts) by {
      forall i | 0 <= i < |d.openPorts| ensures d.openPorts[i] !in RiskyPorts {}
    }
  }

  // ---------------------------------------------------------------------
  // processDevices: one record
  // ---------------------------------------------------------------------

  /** The record handed to the identifier, a shallow copy of the sweep's. The sweep's
      records carry no services, manufacturer or firmware version. */
  function HostOf(r: DeviceDetector.Detected): Host {
    Host(r.Ip(), r.Mac(), r.Hostname(), r.Ports(), r.Os(), [], "", "")
  }

  /** One element of `processDevices(devices)` before the timestamp:
      identify, default the id to `mac || ip`, then assess and score. */
  function ProcessDevice(r: DeviceDetector.Detected, now: int,
                         modelToken: string -> Option<string>,
                         versionToken: string -> Option<string>): (d: Device)
    ensures d.id == OrElse(r.Mac(), r.Ip())
    ensures d.ip == r.Ip() && d.mac == r.Mac() && d.openPorts == r.Ports() && d.os == r.Os()
    ensures d.profile.Some? <==> LookupSafe(r.Mac())
    ensures d.profile.Some? ==> d.kind in DeviceTypes && d.kind == d.profile.value.kind
    ensures d.profile.None? ==> d.kind == r.Kind()
    ensures IsAssessed(d)
  {
    var h := HostOf(r);
    var base := match IdentifyDevice(h, now, modelToken, versionToken)
      case Enriched(_, p) =>
        Device(p.id, p.name, p.kind, h.ip, h.mac, h.hostname, h.openPorts, h.os, [], "", p.securityScore,
               p.lastSeen, None, Some(p))
      case Unchanged(_) =>
        Device("", r.Name(), r.Kind(), h.ip, h.mac, h.hostname, h.openPorts, h.os, [], "", 0, 0, None, None);
    var withId := if base.id != "" then base else base.(id := OrElse(base.mac, base.ip));
    AssessedIsAssessed(withId);
    Assessed(withId)
  }

  // ---------------------------------------------------------------------
  // The inventory (`this.devices`, a Map in insertion order)
  // ---------------------------------------------------------------------

  datatype Inventory = Inventory(order: seq<string>, byId: map<string, Device>)

  const EmptyInventory := Inventory([], map[])

  ghost predicate Valid(inv: Inventory) {
    NoDuplicates(inv.order) && forall id :: id in inv.byId <==> id in inv.order
  }

  /** Storing a device under its id: a known id keeps its place. */
  function Put(inv: Inventory, d: Device): (r: Inventory)
    ensures r.byId == inv.byId[d.id := d]
    ensures Valid(inv) ==> Valid(r)
    ensures d.id in inv.byId ==> r.order == inv.order
  {
    if d.id in inv.byId then Inventory(inv.order, inv.byId[d.id := d])
    else Inventory(inv.order + [d.id], inv.byId[d.id := d])
  }

  /** Storing a batch one device after the other. */
  function MergeAll(inv: Inventory, ds: seq<Device>): (r: Inventory)
    ensures Valid(inv) ==> Valid(r)
    decreases |ds|
  {
    if |ds| == 0 then inv else MergeAll(Put(inv, ds[0]), ds[1..])
  }

  /** The last device of the batch with the given id. */
  function Latest(ds: seq<Device>, id: string): (r: Option<Device>)
    ensures r.Some? ==> r.value in ds && r.value.id == id
    ensures r.None? <==> forall i :: 0 <= i < |ds| ==> ds[i].id != id
  {
    if |ds| == 0 then None
    else
      var rest := Latest(ds[1..], id);
      if rest.Some? then rest else if ds[0].id == id then Some(ds[0]) else None
  }

  /** After the merge an id maps to the batch's last device with that id,
      and every other entry is what it was. */
  lemma {:induction false} MergeAllLookup(inv: Inventory, ds: seq<Device>, id: string)
    ensures id in MergeAll(inv, ds).byId <==> id in inv.byId || Latest(ds, id).Some?
    ensures Latest(ds, id).Some? ==> MergeAll(inv, ds).byId[id] == Latest(ds, id).value
    ensures Latest(ds, id).None? && id in inv.byId ==> MergeAll(inv, ds).byId[id] == inv.byId[id]
    decreases |ds|
  {
    if |ds| > 0 {
      MergeAllLookup(Put(inv, ds[0]), ds[1..], id);
    }
  }

  /** Every device of the batch is stamped with the same `lastSeen`. */
  function Stamp(ds: seq<Device>, t: int): (r: seq<Device>)
    ensures |r| == |ds|
    ensures forall i :: 0 <= i < |ds| ==> r[i] == ds[i].(lastSeen := t)
  {
    seq(|ds|, i requires 0 <= i < |ds| => ds[i].(lastSeen := t))
  }

  /** `countNewDevices(devices)`: devices whose id is unknown or whose
      stored `lastSeen` differs. */
  function CountNewDevices(inv: Inventory, ds: seq<Device>): (n: nat)
    ensures n <= |ds|
  {
    if |ds| == 0 then 0
    else
      (if ds[0].id !in inv.byId || inv.byId[ds[0].id].lastSeen != ds[0].lastSeen then 1 else 0)
      + CountNewDevices(inv, ds[1..])
  }

  lemma {:induction false} CountNewDevicesZero(inv: Inventory, ds: seq<Device>)
    requires forall i :: 0 <= i < |ds| ==> ds[i].id in inv.byId && inv.byId[ds[i].id].lastSeen == ds[i].lastSeen
    ensures CountNewDevices(inv, ds) == 0
    decreases |ds|
  {
    if |ds| > 0 {
      CountNewDevicesZero(inv, ds[1..]);
    }
  }

  /** The count runs after the batch was stored with one shared
      timestamp, so it is always zero. */
  lemma NewDevicesAlwaysZero(inv: Inventory, ds: seq<Device>, t: int)
    ensures CountNewDevices(MergeAll(inv, Stamp(ds, t)), Stamp(ds, t)) == 0
  {
    var s := Stamp(ds, t);
    var m := MergeAll(inv, s);
    forall i | 0 <= i < |s|
      ensures s[i].id in m.byId && m.byId[s[i].id].lastSeen == s[i].lastSeen
    {
      MergeAllLookup(inv, s, s[i].id);
      assert Latest(s, s[i].id).Some?;
      var d := Latest(s, s[i].id).value;
      var j :| 0 <= j < |s| && s[j] == d;
    }
    CountNewDevicesZero(m, s);
  }

  /** The stored devices in insertion order. */
  function Values(inv: Inventory): (r: seq<Device>)
    requires Valid(inv)
    ensures |r| == |inv.order|
    ensures forall i :: 0 <= i < |r| ==> r[i] == inv.byId[inv.order[i]]
  {
    seq(|inv.order|, i requires 0 <= i < |inv.order| => inv.byId[inv.order[i]])
  }

  /** `getDevice(id)`. */
  function GetDevice(inv: Inventory, id: string): (r: Option<Device>)
    ensures r.Some? <==> id in inv.byId
    ensures r.Some? ==> r.value == inv.byId[id]
  {
    if id in inv.byId then Some(inv.byId[id]) else None
  }

  // ---------------------------------------------------------------------
  // calculateNetworkStats, categorizeDevices, calculateNetworkLoad
  // ---------------------------------------------------------------------

  function CountStatus(ds: seq<Device>, status: string): (n: nat)
    ensures n <= |ds|
  {
    if |ds| == 0 then 0 else (if ds[0].status == status then 1 else 0) + CountStatus(ds[1..], status)
  }

  lemma {:induction false} StatusCountsBounded(ds: seq<Device>)
    ensures CountStatus(ds, "Secured") + CountStatus(ds, "Attention") + CountStatus(ds, "Warning") <= |ds|
    decreases |ds|
  {
    if |ds| > 0 {
      StatusCountsBounded(ds[1..]);
    }
  }

  /** `networkHealth` from the number of Warning devices. */
  function Health(vulnerable: nat): (r: string)
    ensures r == "Good" <==> vulnerable == 0
    ensures r == "Warning" <==> 1 <= vulnerable <= 2
    ensures r == "Critical" <==> vulnerable > 2
  {
    if vulnerable > 0 then (if vulnerable > 2 then "Critical" else "Warning") else "Good"
  }

  /** A type histogram: type and count, in order of first appearance. */
  type Histogram = seq<(string, nat)>

  predicate DistinctKeys(h: Histogram) {
    forall i, j :: 0 <= i < j < |h| ==> h[i].0 != h[j].0
  }

  function Total(h: Histogram): nat {
    if |h| == 0 then 0 else h[0].1 + Total(h[1..])
  }

  function CountOf(h: Histogram, k: string): nat {
    if |h| == 0 then 0 else (if h[0].0 == k then h[0].1 else 0) + CountOf(h[1..], k)
  }

  /** The keys of a histogram, in order. */
  function Keys(h: Histogram): (r: seq<string>)
    ensures |r| == |h|
    ensures forall i :: 0 <= i < |h| ==> r[i] == h[i].0
  {
    seq(|h|, i requires 0 <= i < |h| => h[i].0)
  }

  /** Count one more device of type `k`: a key already present gains one,
      a new key is added with count one. */
  function Bump(h: Histogram, k: string): (r: Histogram)
    ensures Total(r) == Total(h) + 1
    ensures forall x :: CountOf(r, x) == CountOf(h, x) + (if x == k then 1 else 0)
    ensures forall i :: 0 <= i < |r| ==> r[i].0 == k || r[i].0 in Keys(h)
  {
    if |h| == 0 then [(k, 1)]
    else if h[0].0 == k then
      assert ([(k, h[0].1 + 1)] + h[1..])[1..] == h[1..];
      [(k, h[0].1 + 1)] + h[1..]
    else
      var rest := Bump(h[1..], k);
      assert Keys(h[1..]) == Keys(h)[1..];
      assert ([h[0]] + rest)[1..] == rest;
      [h[0]] + rest
  }

  /** Incrementing never creates a second entry for a key. */
  lemma {:induction false} BumpKeepsKeysDistinct(h: Histogram, k: string)
    requires DistinctKeys(h)
    ensures DistinctKeys(Bump(h, k))
  {
    if |h| > 0 && h[0].0 != k {
      BumpKeepsKeysDistinct(h[1..], k);
      var rest := Bump(h[1..], k);
      assert Bump(h, k) == [h[0]] + rest;
      forall i | 0 <= i < |rest|
        ensures rest[i].0 != h[0].0
      {
        if rest[i].0 != k {
          var j :| 0 <= j < |h[1..]| && Keys(h[1..])[j] == rest[i].0;
          assert h[j + 1].0 == rest[i].0;
        }
      }
    } else if |h| > 0 {
      assert Bump(h, k)[1..] == h[1..];
    }
  }

  /** The histogram key of a device: its type, or `'Unknown'`. */
  function TypeKey(d: Device): string { OrElse(d.kind, "Unknown") }

  function CountType(ds: seq<Device>, k: string): (n: nat)
    ensures n <= |ds|
  {
    if |ds| == 0 then 0 else CountType(ds[..|ds| - 1], k) + (if TypeKey(ds[|ds| - 1]) == k then 1 else 0)
  }

  /** `categorizeDevices(devices)`: one entry per type, counts adding up
      to the number of devices. */
  function CategorizeDevices(ds: seq<Device>): (r: Histogram)
    ensures DistinctKeys(r)
    ensures Total(r) == |ds|
    ensures forall k :: CountOf(r, k) == CountType(ds, k)
  {
    if |ds| == 0 then []
    else
      var h := CategorizeDevices(ds[..|ds| - 1]);
      BumpKeepsKeysDistinct(h, TypeKey(ds[|ds| - 1]));
      Bump(h, TypeKey(ds[|ds| - 1]))
  }

  /** The extra load `calculateNetworkLoad` charges for some types. */
  function TypeBonus(kind: string): nat {
    var k := Lower(kind);
    if k == "camera" || k == "surveillance" then 15
    else if k == "smarthub" || k == "gateway" then 10
    else if k == "smartphone" || k == "computer" then 8
    else 0
  }

  function DeviceLoad(d: Device): nat {
    5 + 2 * |d.openPorts| + TypeBonus(d.kind)
  }

  function SumLoad(ds: seq<Device>): nat {
    if |ds| == 0 then 0 else DeviceLoad(ds[0]) + SumLoad(ds[1..])
  }

  /** `calculateNetworkLoad(devices)`, as a number (the source appends
      `'%'`). */
  function NetworkLoad(ds: seq<Device>): (r: nat)
    ensures r <= 100
    ensures SumLoad(ds) <= 100 ==> r == SumLoad(ds)
    ensures SumLoad(ds) > 100 ==> r == 100
    ensures |ds| > 0 ==> r >= 5
  {
    if SumLoad(ds) > 100 then 100 else SumLoad(ds)
  }

  /** The open ports of all devices together. */
  function PortTotal(ds: seq<Device>): nat {
    if |ds| == 0 then 0 else |ds[0].openPorts| + PortTotal(ds[1..])
  }

  /** Without type bonuses the load is five per device plus two per open
      port, so it grows with the inventory until the cap. */
  lemma {:induction false} LoadWithoutBonus(ds: seq<Device>)
    requires forall i :: 0 <= i < |ds| ==> TypeBonus(ds[i].kind) == 0
    ensures SumLoad(ds) == 5 * |ds| + 2 * PortTotal(ds)
    ensures NetworkLoad(ds) == if 5 * |ds| + 2 * PortTotal(ds) > 100 then 100 else 5 * |ds| + 2 * PortTotal(ds)
    decreases |ds|
  {
    if |ds| > 0 {
      LoadWithoutBonus(ds[1..]);
    }
  }

  /** Every device adds at least its base load of five. */
  lemma {:induction false} LoadAtLeastBase(ds: seq<Device>)
    ensures SumLoad(ds) >= 5 * |ds|
    ensures NetworkLoad(ds) >= if 5 * |ds| > 100 then 100 else 5 * |ds|
    decreases |ds|
  {
    if |ds| > 0 {
      LoadAtLeastBase(ds[1..]);
    }
  }

  /** None of the identifier's types earns a bonus. */
  lemma ClassifierTypesHaveNoBonus(t: string)
    requires t in DeviceTypes
    ensures TypeBonus(t) == 0
  {
    var k := Lower(t);
    assert |k| == |t|;
    if t == "Router" {
      assert k[0] == 'r';
    } else if t == "IoT Device" {
      assert k[0] == 'i';
    } else if t == "Smart TV" {
      assert k[5] == ' ';
    } else if t == "Printer" {
      assert k[0] == 'p';
    }
  }

  /** Neither the detector's hostname types nor its vendor types reach
      the inventory unchanged when the identifier succeeds; when it fails
      the record comes from the fallback or is the sweep's own, and has no
      type. So no stored device earns a type bonus. */
  lemma ProcessedDeviceHasNoBonus(r: DeviceDetector.Detected, now: int,
                                  modelToken: string -> Option<string>,
                                  versionToken: string -> Option<string>)
    requires DeviceDetector.Publishable(r)
    ensures TypeBonus(ProcessDevice(r, now, modelToken, versionToken).kind) == 0
  {
    NoBonusForStoredKind(r, ProcessDevice(r, now, modelToken, versionToken));
  }

  /** The facts about a processed record's type that rule out a bonus. */
  lemma NoBonusForStoredKind(r: DeviceDetector.Detected, d: Device)
    requires DeviceDetector.Publishable(r)
    requires d.profile.Some? <==> LookupSafe(r.Mac())
    requires d.profile.Some? ==> d.kind in DeviceTypes
    requires d.profile.None? ==> d.kind == r.Kind()
    ensures TypeBonus(d.kind) == 0
  {
    if d.profile.Some? {
      ClassifierTypesHaveNoBonus(d.kind);
    } else {
      assert d.kind == "";
    }
  }

  datatype NetworkStats = NetworkStats(
    totalDevices: nat, activeDevices: nat, vulnerableDevices: nat, activeThreats: nat,
    deviceTypes: Histogram, networkHealth: string, networkLoad: nat, lastScan: int)

  /** `calculateNetworkStats()` over the inventory; `lastScan` is the
      detector's last start, or `now`. */
  function CalculateNetworkStats(inv: Inventory, lastScanTime: Option<int>, now: int): (r: NetworkStats)
    requires Valid(inv)
    ensures r.totalDevices == |inv.order|
    ensures r.activeDevices == CountStatus(Values(inv), "Secured") + CountStatus(Values(inv), "Attention")
    ensures r.vulnerableDevices == CountStatus(Values(inv), "Warning")
    ensures r.activeDevices + r.vulnerableDevices <= r.totalDevices
    ensures r.activeThreats == r.vulnerableDevices
    ensures r.networkHealth == Health(r.vulnerableDevices)
    ensures r.deviceTypes == CategorizeDevices(Values(inv))
    ensures Total(r.deviceTypes) == r.totalDevices
    ensures r.networkLoad == NetworkLoad(Values(inv))
    ensures r.lastScan == lastScanTime.GetOr(now)
  {
    var ds := Values(inv);
    StatusCountsBounded(ds);
    var vulnerable := CountStatus(ds, "Warning");
    NetworkStats(|ds|, CountStatus(ds, "Secured") + CountStatus(ds, "Attention"), vulnerable, vulnerable,
                 CategorizeDevices(ds), Health(vulnerable), NetworkLoad(ds), lastScanTime.GetOr(now))
  }

  // ---------------------------------------------------------------------
  // processDevices: the whole batch
  // ---------------------------------------------------------------------

  datatype ScanDetails = ScanDetails(timestamp: int, deviceCount: nat, newDevices: nat)

  /** A `devicesUpdate` payload: the batch update carries `scanDetails`,
      the status loop's update carries only the devices and statistics. */
  datatype DevicesUpdate =
    | ScanUpdate(devices: seq<Device>, stats: NetworkStats, details: ScanDetails)
    | StatusUpdate(devices: seq<Device>, stats: NetworkStats)

  datatype Processed = Processed(inventory: Inventory, devices: seq<Device>, update: DevicesUpdate)

  /** Identify and assess every record of the batch, in order. */
  function IdentifyAll(records: seq<DeviceDetector.Detected>, now: int,
                       modelToken: string -> Option<string>,
                       versionToken: string -> Option<string>): (r: seq<Device>)
    ensures |r| == |records|
    ensures forall i :: 0 <= i < |records| ==> r[i] == ProcessDevice(records[i], now, modelToken, versionToken)
  {
    seq(|records|, i requires 0 <= i < |records| => ProcessDevice(records[i], now, modelToken, versionToken))
  }

  /** Stamping a batch of assessed devices keeps them assessed: the
      assessment does not read `lastSeen`. */
  lemma StampKeepsAssessed(ds: seq<Device>, t: int)
    requires forall i :: 0 <= i < |ds| ==> IsAssessed(ds[i])
    ensures forall i :: 0 <= i < |ds| ==> IsAssessed(Stamp(ds, t)[i])
  {
    var s := Stamp(ds, t);
    forall i | 0 <= i < |ds|
      ensures IsAssessed(s[i])
    {
      assert IsAssessed(ds[i]);
      assert IssueKinds(s[i]) == IssueKinds(ds[i]);
    }
  }

  /** `processDevices(records)`: identify and assess at `now`, stamp the
      batch with `timestamp`, store it, and describe the result. */
  function ProcessDevices(inv: Inventory, records: seq<DeviceDetector.Detected>, now: int, timestamp: int,
                          lastScanTime: Option<int>,
                          modelToken: string -> Option<string>,
                          versionToken: string -> Option<string>): (r: Processed)
    requires Valid(inv)
    ensures Valid(r.inventory)
    ensures |r.devices| == |records|
    ensures forall i :: 0 <= i < |records| ==>
              r.devices[i].lastSeen == timestamp && r.devices[i].id == OrElse(records[i].Mac(), records[i].Ip())
    ensures r.update.devices == Values(r.inventory)
    ensures r.update.ScanUpdate? && r.update.details.deviceCount == |records|
    ensures forall i :: 0 <= i < |records| ==>
              r.devices[i] == ProcessDevice(records[i], now, modelToken, versionToken).(lastSeen := timestamp)
    ensures r.inventory == MergeAll(inv, r.devices)
    ensures r.update.stats == CalculateNetworkStats(r.inventory, lastScanTime, now)
  {
    var identified := IdentifyAll(records, now, modelToken, versionToken);
    var stamped := Stamp(identified, timestamp);
    var merged := MergeAll(inv, stamped);
    Processed(merged, stamped,
              ScanUpdate(Values(merged), CalculateNetworkStats(merged, lastScanTime, now),
                            ScanDetails(timestamp, |stamped|, CountNewDevices(merged, stamped))))
  }

  /** The merge: every id of the batch now maps to the batch's last
      device with it, every other entry is untouched, and the update
      never reports a new device. */
  lemma ProcessDevicesMerge(inv: Inventory, records: seq<DeviceDetector.Detected>, now: int, timestamp: int,
                            lastScanTime: Option<int>,
                            modelToken: string -> Option<string>,
                            versionToken: string -> Option<string>, id: string)
    requires Valid(inv)
    ensures var p := ProcessDevices(inv, records, now, timestamp, lastScanTime, modelToken, versionToken);
            (id in p.inventory.byId <==> id in inv.byId || Latest(p.devices, id).Some?)
            && (Latest(p.devices, id).Some? ==> p.inventory.byId[id] == Latest(p.devices, id).value)
            && (Latest(p.devices, id).None? && id in inv.byId ==> p.inventory.byId[id] == inv.byId[id])
            && p.update.ScanUpdate? && p.update.details.newDevices == 0
  {
    var identified := IdentifyAll(records, now, modelToken, versionToken);
    MergeAllLookup(inv, Stamp(identified, timestamp), id);
    NewDevicesAlwaysZero(inv, identified, timestamp);
  }

  /** `scan()` stores the devices `processDevices` returned a second
      time; that changes nothing. */
  lemma {:induction false} StoringAgainChangesNothing(inv: Inventory, ds: seq<Device>)
    requires Valid(inv)
    ensures MergeAll(MergeAll(inv, ds), ds) == MergeAll(inv, ds)
  {
    var m := MergeAll(inv, ds);
    var m2 := MergeAll(m, ds);
    forall id | true
      ensures (id in m2.byId <==> id in m.byId) && (id in m.byId ==> m2.byId[id] == m.byId[id])
    {
      MergeAllLookup(inv, ds, id);
      MergeAllLookup(m, ds, id);
    }
    assert m2.byId == m.byId;
    forall i | 0 <= i < |ds|
      ensures ds[i].id in m.byId
    {
      MergeAllLookup(inv, ds, ds[i].id);
    }
    MergeKeepsKnownOrder(m, ds);
  }

  lemma {:induction false} MergeKeepsKnownOrder(inv: Inventory, ds: seq<Device>)
    requires forall i :: 0 <= i < |ds| ==> ds[i].id in inv.byId
    ensures MergeAll(inv, ds).order == inv.order
    decreases |ds|
  {
    if |ds| > 0 {
      MergeKeepsKnownOrder(Put(inv, ds[0]), ds[1..]);
    }
  }

  /** Every device `processDevices` stores already carries the status and
      score the agent would publish. */
  predicate AllAssessed(inv: Inventory) {
    forall id :: id in inv.byId ==> IsAssessed(inv.byId[id])
  }

  lemma {:induction false} MergeAllAssessed(inv: Inventory, ds: seq<Device>)
    requires AllAssessed(inv)
    requires forall i :: 0 <= i < |ds| ==> IsAssessed(ds[i])
    ensures AllAssessed(MergeAll(inv, ds))
    decreases |ds|
  {
    if |ds| > 0 {
      MergeAllAssessed(Put(inv, ds[0]), ds[1..]);
    }
  }

  /** Every device `processDevices` stores carries the status and score
      the agent publishes for it. */
  lemma ProcessDevicesAssessed(inv: Inventory, records: seq<DeviceDetector.Detected>, now: int, timestamp: int,
                               lastScanTime: Option<int>,
                               modelToken: string -> Option<string>,
                               versionToken: string -> Option<string>)
    requires Valid(inv) && AllAssessed(inv)
    ensures AllAssessed(ProcessDevices(inv, records, now, timestamp, lastScanTime, modelToken, versionToken).inventory)
  {
    var identified := IdentifyAll(records, now, modelToken, versionToken);
    var stamped := Stamp(identified, timestamp);
    assert forall i :: 0 <= i < |identified| ==> IsAssessed(identified[i]);
    StampKeepsAssessed(identified, timestamp);
    MergeAllAssessed(inv, stamped);
  }

  // ---------------------------------------------------------------------
  // scan(): the batch reaches processDevices twice
  // ---------------------------------------------------------------------

  /** What one `scan()` leaves behind: the inventory, the devices it
      returns, and the `devicesUpdate` payloads emitted on the way. */
  datatype ScanRound = ScanRound(inventory: Inventory, returned: seq<Device>, updates: seq<DevicesUpdate>)

  /** `scan()` once the detector's promise resolved with `records`. The
      constructor subscribed `processDevices` to the detector's
      `scanComplete`, which the detector emits just before resolving, so
      the batch is processed first by that listener (at `listenerNow`,
      stamped `listenerStamp`) and then again by `scan()` itself (at
      `scanNow`, stamped `scanStamp`), whose result is stored once more.
      A periodic scan, started by the detector's own interval, reaches the
      inventory through the listener alone. */
  function AgentScan(inv: Inventory, records: seq<DeviceDetector.Detected>,
                     listenerNow: int, listenerStamp: int, scanNow: int, scanStamp: int,
                     lastScanTime: Option<int>,
                     modelToken: string -> Option<string>,
                     versionToken: string -> Option<string>): (r: ScanRound)
    requires Valid(inv)
    ensures Valid(r.inventory)
    ensures |r.updates| == 2 && r.updates[0].ScanUpdate? && r.updates[1].ScanUpdate?
    ensures r.updates[0].details.deviceCount == |records| && r.updates[1].details.deviceCount == |records|
    ensures r.updates[0].details.timestamp == listenerStamp && r.updates[1].details.timestamp == scanStamp
    ensures |r.returned| == |records|
    ensures forall i :: 0 <= i < |records| ==> r.returned[i].lastSeen == scanStamp
  {
    var first := ProcessDevices(inv, records, listenerNow, listenerStamp, lastScanTime, modelToken, versionToken);
    var second := ProcessDevices(first.inventory, records, scanNow, scanStamp, lastScanTime, modelToken, versionToken);
    ScanRound(MergeAll(second.inventory, second.devices), second.devices, [first.update, second.update])
  }

  /** After `scan()` the inventory is the one the second pass published,
      and every device `scan()` returns is stored with the second pass's
      stamp: the listener's earlier stamp does not survive. */
  lemma AgentScanKeepsSecondPass(inv: Inventory, records: seq<DeviceDetector.Detected>,
                                 listenerNow: int, listenerStamp: int, scanNow: int, scanStamp: int,
                                 lastScanTime: Option<int>,
                                 modelToken: string -> Option<string>,
                                 versionToken: string -> Option<string>)
    requires Valid(inv)
    ensures var r := AgentScan(inv, records, listenerNow, listenerStamp, scanNow, scanStamp,
                               lastScanTime, modelToken, versionToken);
            r.updates[1].devices == Values(r.inventory)
            && forall i :: 0 <= i < |r.returned| ==>
                 r.returned[i].id in r.inventory.byId && r.inventory.byId[r.returned[i].id].lastSeen == scanStamp
  {
    var first := ProcessDevices(inv, records, listenerNow, listenerStamp, lastScanTime, modelToken, versionToken);
    var ds := Stamp(IdentifyAll(records, scanNow, modelToken, versionToken), scanStamp);
    StoreStampedAgain(first.inventory, ds, scanStamp);
  }

  /** Storing a stamped batch a second time changes nothing, and each of
      its devices is stored with the stamp. */
  lemma StoreStampedAgain(inv: Inventory, ds: seq<Device>, stamp: int)
    requires Valid(inv)
    requires forall i :: 0 <= i < |ds| ==> ds[i].lastSeen == stamp
    ensures MergeAll(MergeAll(inv, ds), ds) == MergeAll(inv, ds)
    ensures forall i :: 0 <= i < |ds| ==>
              ds[i].id in MergeAll(inv, ds).byId && MergeAll(inv, ds).byId[ds[i].id].lastSeen == stamp
  {
    StoringAgainChangesNothing(inv, ds);
    forall i | 0 <= i < |ds|
      ensures ds[i].id in MergeAll(inv, ds).byId && MergeAll(inv, ds).byId[ds[i].id].lastSeen == stamp
    {
      MergeAllLookup(inv, ds, ds[i].id);
    }
  }

  // ---------------------------------------------------------------------
  // The status loop body
  // ---------------------------------------------------------------------

  datatype StatusChange = StatusChange(
    deviceId: string, previousStatus: string, newStatus: string, previousScore: int, newScore: int)

  /** Reassess one device at `now`; a change is reported when the status
      or the score moved. */
  function Recheck(d: Device, now: int): (r: (Device, Option<StatusChange>))
    ensures r.0 == Assessed(d).(lastChecked := Some(now))
    ensures r.1.Some? <==> d.status != r.0.status || d.securityScore != r.0.securityScore
  {
    var d2 := Assessed(d).(lastChecked := Some(now));
    (d2, if d.status != d2.status || d.securityScore != d2.securityScore
         then Some(StatusChange(d.id, d.status, d2.status, d.securityScore, d2.securityScore))
         else None)
  }

  /** The loop over the inventory in its order: each device is replaced
      by its reassessment and the reported changes are collected. */
  function RecheckAll(byId: map<string, Device>, ids: seq<string>, now: int): (r: (map<string, Device>, seq<StatusChange>))
    requires forall i :: 0 <= i < |ids| ==> ids[i] in byId
    ensures r.0.Keys == byId.Keys
    ensures |r.1| <= |ids|
  {
    UpdateEach(RecheckStep(now), byId, ids)
  }

  function RecheckStep(now: int): Device -> (Device, Option<StatusChange>) {
    (d: Device) => Recheck(d, now)
  }

  datatype StatusRound = StatusRound(inventory: Inventory, changes: seq<StatusChange>, update: Option<DevicesUpdate>)

  /** The body of the status-check interval: reassess every device and,
      when anything changed, publish the whole inventory with fresh
      statistics. */
  function StatusLoopBody(inv: Inventory, lastScanTime: Option<int>, now: int): (r: StatusRound)
    requires Valid(inv)
    ensures Valid(r.inventory) && r.inventory.order == inv.order
    ensures r.update.Some? <==> |r.changes| > 0
    ensures r.update.Some? ==> r.update.value.StatusUpdate? && r.update.value.devices == Values(r.inventory)
  {
    var (byId, changes) := RecheckAll(inv.byId, inv.order, now);
    var inv2 := Inventory(inv.order, byId);
    StatusRound(inv2, changes,
                if |changes| > 0
                then Some(StatusUpdate(Values(inv2), CalculateNetworkStats(inv2, lastScanTime, now)))
                else None)
  }

  /** One status round replaces every stored device by its reassessment. */
  lemma StatusLoopStores(inv: Inventory, lastScanTime: Option<int>, now: int)
    requires Valid(inv)
    ensures forall id :: id in inv.byId ==>
              id in StatusLoopBody(inv, lastScanTime, now).inventory.byId &&
              StatusLoopBody(inv, lastScanTime, now).inventory.byId[id] == Recheck(inv.byId[id], now).0
  {
    UpdateEachOverKeys(RecheckStep(now), inv.byId, inv.order);
  }

  /** A status round publishes an update exactly when some device's
      reassessment reports a change. */
  lemma StatusLoopReports(inv: Inventory, lastScanTime: Option<int>, now: int)
    requires Valid(inv)
    ensures StatusLoopBody(inv, lastScanTime, now).update.Some? <==>
              exists id :: id in inv.byId && Recheck(inv.byId[id], now).1.Some?
  {
    UpdateEachOverKeys(RecheckStep(now), inv.byId, inv.order);
  }

  /** Reassessing a device the agent assessed itself changes nothing
      visible and reports nothing. */
  lemma RecheckQuiet(d: Device, now: int)
    requires IsAssessed(d)
    ensures Recheck(d, now).1.None?
  {
    AssessedIsAssessed(d);
    assert IssueKinds(Assessed(d)) == IssueKinds(d);
  }

  /** On an inventory the agent assessed itself the loop body reports no
      change and publishes no update. */
  lemma StatusLoopQuietWhenAssessed(inv: Inventory, lastScanTime: Option<int>, now: int)
    requires Valid(inv) && AllAssessed(inv)
    ensures StatusLoopBody(inv, lastScanTime, now).changes == []
    ensures StatusLoopBody(inv, lastScanTime, now).update.None?
  {
    StatusLoopReports(inv, lastScanTime, now);
    forall id | id in inv.byId ensures Recheck(inv.byId[id], now).1.None? {
      RecheckQuiet(inv.byId[id], now);
    }
  }

  // ---------------------------------------------------------------------
  // start, stop and the scan guard
  // ---------------------------------------------------------------------

  datatype Agent = Agent(
    isRunning: bool, detector: DeviceDetector.Detector, inventory: Inventory,
    statusMonitoring: bool, networkMonitoring: bool)

  /** The agent's own lifecycle events, and the detector's `scanStart`,
      which the agent forwards. */
  datatype AgentEvent = AgentStarted | AgentStopped | ScanStarted | StartError(error: DeviceDetector.ScanError)

  /** `start()` at time `now`: nothing while running; otherwise reset the
      detector, clear the inventory, mark the agent running and start the
      monitors. `startPeriodicScan` stops the interval (a reset) and then
      calls `startScan()` without waiting, so the first scan has already
      begun when `start()` returns. */
  function Start(a: Agent, now: int): (r: (Agent, seq<AgentEvent>))
    ensures a.isRunning ==> r == (a, [])
    ensures !a.isRunning ==> r.0.isRunning && r.0.inventory == EmptyInventory
                             && r.0.statusMonitoring && r.0.networkMonitoring
    ensures !a.isRunning ==> r.0.detector.isScanning && r.0.detector.lastScanTime == Some(now)
                             && r.0.detector.timer == DeviceDetector.NoTimer && !r.0.detector.hasCurrentScan
                             && r.1 == [AgentStarted, ScanStarted]
  {
    if a.isRunning then (a, [])
    else
      var d := DeviceDetector.StopPeriodicScan(DeviceDetector.ResetScanState(a.detector));
      match DeviceDetector.BeginScan(d, now)
      case Ok(d2) => (Agent(true, d2, EmptyInventory, true, true), [AgentStarted, ScanStarted])
      case Err(e) => (Agent(true, d, EmptyInventory, true, true), [AgentStarted, StartError(e)])
  }

  /** The scan `start()` schedules one second later finds the detector
      still busy with the scan `startPeriodicScan` began, as long as that
      scan has neither finished nor failed and is younger than a minute:
      `scan()` refuses it. */
  lemma DelayedScanRefused(a: Agent, now: int, t: int)
    requires !a.isRunning
    requires now <= t <= now + DeviceDetector.StaleScanMs
    ensures ScanGuard(Start(a, now).0.detector, t) == Err(DeviceDetector.ScanInProgress)
  {}

  /** `stop()`: nothing while stopped; otherwise reset the detector, stop
      monitoring and clear the inventory. */
  function Stop(a: Agent): (r: (Agent, seq<AgentEvent>))
    ensures !a.isRunning ==> r == (a, [])
    ensures a.isRunning ==> !r.0.isRunning && r.0.inventory == EmptyInventory && !r.0.detector.isScanning
                            && !r.0.statusMonitoring && !r.0.networkMonitoring && r.1 == [AgentStopped]
  {
    if !a.isRunning then (a, [])
    else
      (Agent(false, DeviceDetector.StopPeriodicScan(DeviceDetector.ResetScanState(a.detector)),
             EmptyInventory, false, false),
       [AgentStopped])
  }

  /** Starting a running agent, or stopping a stopped one, does nothing:
      a second `start` or `stop` emits no event and changes no state. */
  lemma StartStopIdempotent(a: Agent, now: int, later: int)
    ensures Start(Start(a, now).0, later) == (Start(a, now).0, [])
    ensures Stop(Stop(a).0) == (Stop(a).0, [])
    ensures Stop(Start(a, now).0).0.inventory == EmptyInventory && !Stop(Start(a, now).0).0.detector.isScanning
  {}

  /** The guard at the top of `scan()`: the duration comes from
      `getScanStatus()`, `0` when no scan ever started. */
  function ScanGuard(d: DeviceDetector.Detector, now: int): (r: Result<DeviceDetector.Detector, DeviceDetector.ScanError>)
    ensures r.Ok? ==> !r.value.isScanning
    ensures r.Err? <==> d.isScanning && DeviceDetector.GetScanStatus(d, now).scanDuration.GetOr(0) <= DeviceDetector.StaleScanMs
  {
    var duration := DeviceDetector.GetScanStatus(d, now).scanDuration.GetOr(0);
    if d.isScanning then
      if duration > DeviceDetector.StaleScanMs then Ok(DeviceDetector.ResetScanState(d))
      else Err(DeviceDetector.ScanInProgress)
    else Ok(d)
  }

  /** A scanning detector always has a start time (`startScan` sets both
      together), and then the agent's guard and the detector's agree; a
      scan the agent lets through is never refused by the detector. */
  lemma ScanGuardsAgree(d: DeviceDetector.Detector, now: int, range: Option<string>)
    requires d.isScanning ==> d.lastScanTime.Some?
    ensures ScanGuard(d, now) == DeviceDetector.StartGuard(d, now)
    ensures ScanGuard(d, now).Ok? ==> !DeviceDetector.StartScan(ScanGuard(d, now).value, now, range).Refused?
  {}

  // ---------------------------------------------------------------------
  // assessDeviceVulnerabilities
  // ---------------------------------------------------------------------

  /** A port as stored in device metadata: a number or a string. */
  datatype PortValue = NumPort(n: int) | StrPort(s: string)

  datatype KnownVulnerability = KnownVulnerability(id: string, severity: string, description: string,
                                                   recommendation: string)

  /** `device.metadata`; absent fields are `false`, `""` or `[]`. */
  datatype Metadata = Metadata(
    defaultCredentials: bool, openPorts: seq<PortValue>, firmwareVersion: string, latestFirmware: string,
    encryption: string, knownVulnerabilities: seq<KnownVulnerability>)

  /** The `type` of a finding: one of five fixed texts. */
  datatype FindingKind = DefaultCredentials | OpenPorts | OutdatedFirmware | WeakEncryption | Known
  {
    function Text(): string {
      match this
      case DefaultCredentials => "Default Credentials"
      case OpenPorts => "Open Ports"
      case OutdatedFirmware => "Outdated Firmware"
      case WeakEncryption => "Weak Encryption"
      case Known => "Known Vulnerability"
    }
  }

  datatype Vulnerability = Vulnerability(id: string, device: string, kind: FindingKind, severity: string,
                                         description: string, recommendation: string)

  /** A `securityIncident` without its random id and its timestamp. */
  datatype Incident = Incident(device: string, kind: FindingKind, description: string)

  const SensitivePorts := ["21", "22", "23", "25", "80", "443", "8080", "8443"]

  /** The metadata ports the sensitive-port filter keeps: only string
      ports can equal the list's strings. */
  function SensitiveOpen(ports: seq<PortValue>): (r: seq<string>)
    ensures forall s :: s in r <==> StrPort(s) in ports && s in SensitivePorts
    ensures |r| <= |ports|
  {
    if |ports| == 0 then []
    else
      (match ports[0] case StrPort(s) => if s in SensitivePorts then [s] else [] case NumPort(_) => [])
      + SensitiveOpen(ports[1..])
  }

  function KnownFindings(deviceId: string, name: string, vs: seq<KnownVulnerability>): (r: seq<Vulnerability>)
    ensures |r| == |vs|
    ensures forall i :: 0 <= i < |vs| ==>
              r[i].kind == Known && r[i].severity == OrElse(vs[i].severity, "High")
              && r[i].description == vs[i].description
  {
    seq(|vs|, i requires 0 <= i < |vs| =>
          Vulnerability(deviceId + "-vuln-" + vs[i].id, name, Known, OrElse(vs[i].severity, "High"),
                        vs[i].description, OrElse(vs[i].recommendation, "Apply security patches")))
  }

  /** The kinds of a list of findings, in order. */
  function Kinds(vs: seq<Vulnerability>): (r: seq<FindingKind>)
    ensures |r| == |vs|
    ensures forall i :: 0 <= i < |vs| ==> r[i] == vs[i].kind
  {
    seq(|vs|, i requires 0 <= i < |vs| => vs[i].kind)
  }

  /** The metadata conditions of the four fixed findings. */
  predicate ExposesSensitivePort(m: Metadata) {
    |m.openPorts| > 0 && |SensitiveOpen(m.openPorts)| > 0
  }

  predicate FirmwareBehind(m: Metadata) {
    m.firmwareVersion != "" && m.latestFirmware != "" && m.firmwareVersion != m.latestFirmware
  }

  predicate EncryptionWeak(m: Metadata) {
    m.encryption == "none" || m.encryption == "weak"
  }

  /** One finding when `present`, none otherwise. */
  function When(present: bool, v: Vulnerability): (r: seq<Vulnerability>)
    ensures present ==> Kinds(r) == [v.kind]
    ensures !present ==> Kinds(r) == []
    ensures forall x :: x in r ==> x == v
  {
    if present then [v] else []
  }

  /** The default-credentials finding. */
  function CredentialsFinding(deviceId: string, name: string): (v: Vulnerability)
    ensures v.kind == DefaultCredentials && v.severity == "High"
  {
    Vulnerability(deviceId + "-default-creds", name, DefaultCredentials, "High",
                  "Device is using default manufacturer credentials",
                  "Change default credentials to strong, unique ones")
  }

  /** The open-ports finding, listing the sensitive ports. */
  function PortsFinding(deviceId: string, name: string, m: Metadata): (v: Vulnerability)
    ensures v.kind == OpenPorts && v.severity == "Medium"
  {
    Vulnerability(deviceId + "-open-ports", name, OpenPorts, "Medium",
                  "Sensitive ports exposed: " + Join(SensitiveOpen(m.openPorts), ", "),
                  "Close unnecessary ports and restrict access to required ones")
  }

  /** The outdated-firmware finding, naming both versions. */
  function FirmwareFinding(deviceId: string, name: string, m: Metadata): (v: Vulnerability)
    ensures v.kind == OutdatedFirmware && v.severity == "Medium"
  {
    Vulnerability(deviceId + "-firmware", name, OutdatedFirmware, "Medium",
                  "Current version: " + m.firmwareVersion + ", Latest: " + m.latestFirmware,
                  "Update device firmware to the latest version")
  }

  /** The weak-encryption finding. */
  function EncryptionFinding(deviceId: string, name: string): (v: Vulnerability)
    ensures v.kind == WeakEncryption && v.severity == "High"
  {
    Vulnerability(deviceId + "-encryption", name, WeakEncryption, "High",
                  "Device is using weak or no encryption",
                  "Enable strong encryption (WPA3 for WiFi devices)")
  }

  /** The four fixed checks, in the source's order: each finding appears
      exactly when its condition holds, none is a known vulnerability,
      and exactly the default-credentials and weak-encryption findings
      are High, the other two being Medium. */
  function FixedFindings(deviceId: string, name: string, m: Metadata): (r: seq<Vulnerability>)
    ensures |r| <= 4
    ensures Known !in Kinds(r)
    ensures DefaultCredentials in Kinds(r) <==> m.defaultCredentials
    ensures OpenPorts in Kinds(r) <==> ExposesSensitivePort(m)
    ensures OutdatedFirmware in Kinds(r) <==> FirmwareBehind(m)
    ensures WeakEncryption in Kinds(r) <==> EncryptionWeak(m)
    ensures forall v :: v in r ==> HighByKind(v)
    ensures forall v :: v in r ==> MediumByKind(v)
  {
    var a := When(m.defaultCredentials, CredentialsFinding(deviceId, name));
    var b := When(ExposesSensitivePort(m), PortsFinding(deviceId, name, m));
    var c := When(FirmwareBehind(m), FirmwareFinding(deviceId, name, m));
    var e := When(EncryptionWeak(m), EncryptionFinding(deviceId, name));
    KindsAppend(a, b);
    KindsAppend(a + b, c);
    KindsAppend(a + b + c, e);
    SeverityByKindAppend(a, b);
    SeverityByKindAppend(a + b, c);
    SeverityByKindAppend(a + b + c, e);
    a + b + c + e
  }

  /** A finding is High exactly when it is about default credentials or
      weak encryption. */
  predicate HighByKind(v: Vulnerability) {
    v.severity == "High" <==> v.kind == DefaultCredentials || v.kind == WeakEncryption
  }

  /** The open-ports and outdated-firmware findings are Medium. */
  predicate MediumByKind(v: Vulnerability) {
    v.kind == OpenPorts || v.kind == OutdatedFirmware ==> v.severity == "Medium"
  }

  lemma SeverityByKindAppend(x: seq<Vulnerability>, y: seq<Vulnerability>)
    requires forall v :: v in x ==> HighByKind(v) && MediumByKind(v)
    requires forall v :: v in y ==> HighByKind(v) && MediumByKind(v)
    ensures forall v :: v in x + y ==> HighByKind(v) && MediumByKind(v)
  {
  }

  lemma KindsAppend(x: seq<Vulnerability>, y: seq<Vulnerability>)
    ensures Kinds(x + y) == Kinds(x) + Kinds(y)
  {
  }

  /** The findings for a device's metadata, in the source's order: the
      fixed checks, then one finding per known vulnerability. */
  function Findings(deviceId: string, name: string, m: Metadata): seq<Vulnerability> {
    FixedFindings(deviceId, name, m) + KnownFindings(deviceId, name, m.knownVulnerabilities)
  }

  /** The `securityIncident` emitted for a finding. */
  function IncidentOf(v: Vulnerability): Incident {
    Incident(v.device, v.kind, v.description)
  }

  /** The incidents raised for the high-severity findings, in order: an
      incident is raised exactly for each High finding. */
  function HighIncidents(vs: seq<Vulnerability>): (r: seq<Incident>)
    ensures |r| <= |vs|
    ensures forall inc :: inc in r <==> exists v :: v in vs && v.severity == "High" && inc == IncidentOf(v)
  {
    if |vs| == 0 then []
    else
      var rest := HighIncidents(vs[1..]);
      assert forall v :: v in vs[1..] ==> v in vs;
      assert forall v :: v in vs ==> v == vs[0] || v in vs[1..];
      (if vs[0].severity == "High" then [IncidentOf(vs[0])] else []) + rest
  }

  /** The incidents keep the findings' order: they distribute over
      concatenation. */
  lemma {:induction false} HighIncidentsAppend(a: seq<Vulnerability>, b: seq<Vulnerability>)
    ensures HighIncidents(a + b) == HighIncidents(a) + HighIncidents(b)
    decreases |a|
  {
    if |a| == 0 {
      assert a + b == b;
    } else {
      var head := if a[0].severity == "High" then [IncidentOf(a[0])] else [];
      assert (a + b)[0] == a[0];
      assert (a + b)[1..] == a[1..] + b;
      assert HighIncidents(a + b) == head + HighIncidents(a[1..] + b);
      HighIncidentsAppend(a[1..], b);
      assert HighIncidents(a) == head + HighIncidents(a[1..]);
    }
  }

  /** Some incident is of kind `k`. */
  predicate Raised(incs: seq<Incident>, k: FindingKind) {
    exists i :: 0 <= i < |incs| && incs[i].kind == k
  }

  /** When every finding of kind `k` is High, an incident of kind `k` is
      raised exactly when such a finding exists; when none is High, none
      is raised. */
  lemma RaisedByKind(vs: seq<Vulnerability>, k: FindingKind)
    ensures (forall v :: v in vs && v.kind == k ==> v.severity == "High") ==>
              (Raised(HighIncidents(vs), k) <==> k in Kinds(vs))
    ensures (forall v :: v in vs && v.kind == k ==> v.severity != "High") ==> !Raised(HighIncidents(vs), k)
  {
    var incs := HighIncidents(vs);
    if Raised(incs, k) {
      var i :| 0 <= i < |incs| && incs[i].kind == k;
      assert incs[i] in incs;
      var v :| v in vs && v.severity == "High" && incs[i] == IncidentOf(v);
      var j :| 0 <= j < |vs| && vs[j] == v;
      assert Kinds(vs)[j] == k;
    }
    if (forall v :: v in vs && v.kind == k ==> v.severity == "High") && k in Kinds(vs) {
      var j :| 0 <= j < |vs| && Kinds(vs)[j] == k;
      assert vs[j] in vs;
      assert IncidentOf(vs[j]) in incs;
      var i :| 0 <= i < |incs| && incs[i] == IncidentOf(vs[j]);
    }
  }

  function CountHigh(vs: seq<Vulnerability>): nat {
    if |vs| == 0 then 0 else (if vs[0].severity == "High" then 1 else 0) + CountHigh(vs[1..])
  }

  lemma {:induction false} HighIncidentsCount(vs: seq<Vulnerability>)
    ensures |HighIncidents(vs)| == CountHigh(vs)
    decreases |vs|
  {
    if |vs| > 0 {
      HighIncidentsCount(vs[1..]);
    }
  }

  datatype Assessment = Assessment(vulnerabilities: seq<Vulnerability>, incidents: seq<Incident>)

  /** The id findings are named after: `id || mac || ip`. */
  function FindingId(d: Device): string {
    OrElse(OrElse(d.id, d.mac), d.ip)
  }

  /** `assessDeviceVulnerabilities(device)`: the findings and the
      incidents emitted for them. Without metadata nothing is found; with
      it each fixed finding appears exactly when its condition holds, and
      the list ends with one finding per known vulnerability. */
  function AssessDeviceVulnerabilities(d: Device, metadata: Option<Metadata>): (r: Assessment)
    ensures metadata.None? ==> r == Assessment([], [])
    ensures |r.incidents| == CountHigh(r.vulnerabilities)
    ensures metadata.Some? ==>
              var m := metadata.value;
              var known := m.knownVulnerabilities;
              (DefaultCredentials in Kinds(r.vulnerabilities) <==> m.defaultCredentials)
              && (OpenPorts in Kinds(r.vulnerabilities) <==> ExposesSensitivePort(m))
              && (OutdatedFirmware in Kinds(r.vulnerabilities) <==> FirmwareBehind(m))
              && (WeakEncryption in Kinds(r.vulnerabilities) <==> EncryptionWeak(m))
              && |known| <= |r.vulnerabilities| <= |known| + 4
              && r.vulnerabilities[|r.vulnerabilities| - |known|..] == KnownFindings(FindingId(d), d.name, known)
    ensures r.incidents == HighIncidents(r.vulnerabilities)
    ensures metadata.Some? ==>
              var m := metadata.value;
              (Raised(r.incidents, DefaultCredentials) <==> m.defaultCredentials)
              && (Raised(r.incidents, WeakEncryption) <==> EncryptionWeak(m))
              && !Raised(r.incidents, OpenPorts)
              && !Raised(r.incidents, OutdatedFirmware)
  {
    match metadata
    case None => Assessment([], [])
    case Some(m) =>
      var vs := Findings(FindingId(d), d.name, m);
      FindingsKinds(FindingId(d), d.name, m);
      HighIncidentsCount(vs);
      FindingsSeverity(FindingId(d), d.name, m);
      RaisedByKind(vs, DefaultCredentials);
      RaisedByKind(vs, WeakEncryption);
      RaisedByKind(vs, OpenPorts);
      RaisedByKind(vs, OutdatedFirmware);
      Assessment(vs, HighIncidents(vs))
  }

  /** A fixed kind occurs in the findings exactly when the fixed checks
      produce it: the known vulnerabilities add only their own kind. */
  lemma FindingsKinds(deviceId: string, name: string, m: Metadata)
    ensures var fixed := FixedFindings(deviceId, name, m);
            var vs := Findings(deviceId, name, m);
            (forall k :: k != Known ==> (k in Kinds(vs) <==> k in Kinds(fixed)))
            && vs[|fixed|..] == KnownFindings(deviceId, name, m.knownVulnerabilities)
  {
    var fixed := FixedFindings(deviceId, name, m);
    var known := KnownFindings(deviceId, name, m.knownVulnerabilities);
    KindsAppend(fixed, known);
    assert forall k :: k in Kinds(known) ==> k == Known;
    assert (fixed + known)[|fixed|..] == known;
  }

  /** Among the findings, exactly the default-credential and the
      weak-encryption ones are High; the known vulnerabilities carry their
      own severity. */
  lemma FindingsSeverity(deviceId: string, name: string, m: Metadata)
    ensures forall v :: v in Findings(deviceId, name, m) && v.kind != Known ==>
              (v.severity == "High" <==> v.kind == DefaultCredentials || v.kind == WeakEncryption)
  {
    var fixed := FixedFindings(deviceId, name, m);
    var known := KnownFindings(deviceId, name, m.knownVulnerabilities);
    assert forall x :: x in known ==> x.kind == Known;
  }

  lemma {:induction false} NumbersNeverSensitive(ports: seq<PortValue>)
    requires forall i :: 0 <= i < |ports| ==> ports[i].NumPort?
    ensures SensitiveOpen(ports) == []
    decreases |ports|
  {
    if |ports| > 0 {
      NumbersNeverSensitive(ports[1..]);
    }
  }

  /** Ports stored as numbers never make an `Open Ports` finding: the
      source compares them with strings. */
  lemma NumericPortsNeverSensitive(d: Device, m: Metadata)
    requires forall i :: 0 <= i < |m.openPorts| ==> m.openPorts[i].NumPort?
    ensures forall v :: v in AssessDeviceVulnerabilities(d, Some(m)).vulnerabilities ==> v.kind != OpenPorts
  {
    NumbersNeverSensitive(m.openPorts);
    assert !ExposesSensitivePort(m);
    var vs := AssessDeviceVulnerabilities(d, Some(m)).vulnerabilities;
    assert OpenPorts !in Kinds(vs);
    KindAbsent(vs, OpenPorts);
  }

  /** A kind missing from the kinds is missing from every finding. */
  lemma KindAbsent(vs: seq<Vulnerability>, k: FindingKind)
    requires k !in Kinds(vs)
    ensures forall v :: v in vs ==> v.kind != k
  {
    forall v | v in vs ensures v.kind != k {
      var i :| 0 <= i < |vs| && vs[i] == v;
      assert Kinds(vs)[i] == v.kind;
    }
  }

  /** A default-credential device with no metadata otherwise raises
      exactly one incident. */
  lemma DefaultCredentialsIncident(d: Device)
    ensures var m := Metadata(true, [], "", "", "", []);
            |AssessDeviceVulnerabilities(d, Some(m)).incidents| == 1
  {
    var m := Metadata(true, [], "", "", "", []);
    var vs := Findings(FindingId(d), d.name, m);
    assert !ExposesSensitivePort(m) && !FirmwareBehind(m) && !EncryptionWeak(m);
    assert |vs| == 1 && vs[0].severity == "High";
    assert CountHigh(vs) == 1 by {
      assert vs[1..] == [];
    }
  }
}

=== FILE: mac_vendors.dfy ===
/** The MAC-vendor table (`macVendors`) and its lookup (`lookupVendor`).

    The table is an object literal; two of its keys are written twice, and
    in an object literal the later definition of a key replaces the
    earlier one. The model keeps every definition in source order and
    resolves a key to its LAST definition. */
module MacVendors {
  import opened Common

  type Octet = v: int | 0 <= v < 256

  /** A table key: the first three octets of a MAC address, written
      `XX:XX:XX` in upper-case hexadecimal. */
  datatype Oui = Oui(a: Octet, b: Octet, c: Octet)

  /** `{ name, type }` of a table entry. */
  datatype Vendor = Vendor(name: string, kind: string)

  datatype Entry = Entry(oui: Oui, vendor: Vendor)

  /** What the lookup answers when nothing matches. */
  const UnknownVendor := Vendor("Unknown", "Unknown Device")

  /** The lookup throws for a non-empty MAC without hex digits: splitting
      the empty digit string into pairs finds no match, and joining that
      missing result is a TypeError. */
  datatype LookupError = MatchReturnedNull

  // ---------------------------------------------------------------------
  // The table, one function per commented group of the object literal
  // ---------------------------------------------------------------------

  /** Apple's Mac and iOS prefixes. */
  function AppleDevices(): seq<Entry> {
    [
      Entry(Oui(0x00, 0x17, 0xAB), Vendor("Apple", "Mac Device")),
      Entry(Oui(0x28, 0x6A, 0xBA), Vendor("Apple", "Mac Device")),
      Entry(Oui(0x00, 0x1C, 0xB3), Vendor("Apple", "iOS Device")),
      Entry(Oui(0xAC, 0xBC, 0x32), Vendor("Apple", "iOS Device")),
      Entry(Oui(0xF0, 0x18, 0x98), Vendor("Apple", "iOS Device")),
      Entry(Oui(0x34, 0xC0, 0x59), Vendor("Apple", "iOS Device"))
    ]
  }

  /** Samsung phones. */
  function SamsungMobiles(): seq<Entry> {
    [
      Entry(Oui(0x00, 0x26, 0x37), Vendor("Samsung", "Android Device")),
      Entry(Oui(0x94, 0x35, 0x0A), Vendor("Samsung", "Android Device")),
      Entry(Oui(0x8C, 0x71, 0xF8), Vendor("Samsung", "Android Device")),
      Entry(Oui(0xB4, 0x3A, 0x28), Vendor("Samsung", "Android Device"))
    ]
  }

  /** Xiaomi and POCO phones. */
  function XiaomiAndPoco(): seq<Entry> {
    [
      Entry(Oui(0x00, 0x24, 0xE4), Vendor("Xiaomi", "Android Device")),
      Entry(Oui(0xF8, 0xA4, 0x5F), Vendor("Xiaomi", "Android Device")),
      Entry(Oui(0x58, 0x44, 0x98), Vendor("Xiaomi", "Android Device")),
      Entry(Oui(0x64, 0xCC, 0x2E), Vendor("POCO", "Android Device")),
      Entry(Oui(0x40, 0x31, 0x3C), Vendor("POCO", "Android Device"))
    ]
  }

  /** OPPO and Realme phones. */
  function OppoAndRealme(): seq<Entry> {
    [
      Entry(Oui(0xA4, 0x3D, 0x78), Vendor("OPPO", "Android Device")),
      Entry(Oui(0xE8, 0xBB, 0xA8), Vendor("OPPO", "Android Device")),
      Entry(Oui(0x94, 0xD2, 0x99), Vendor("Realme", "Android Device")),
      Entry(Oui(0x48, 0xD5, 0x39), Vendor("Realme", "Android Device"))
    ]
  }

  /** OnePlus and Vivo phones. */
  function OnePlusAndVivo(): seq<Entry> {
    [
      Entry(Oui(0xAC, 0x5F, 0xEA), Vendor("OnePlus", "Android Device")),
      Entry(Oui(0x94, 0x65, 0x2D), Vendor("OnePlus", "Android Device")),
      Entry(Oui(0xFC, 0x1A, 0x11), Vendor("Vivo", "Android Device")),
      Entry(Oui(0x70, 0x47, 0xE9), Vendor("Vivo", "Android Device"))
    ]
  }

  /** Phones of other brands. */
  function OtherMobiles(): seq<Entry> {
    [
      Entry(Oui(0x00, 0x23, 0x75), Vendor("Motorola", "Android Device")),
      Entry(Oui(0x30, 0x82, 0x90), Vendor("Huawei", "Android Device")),
      Entry(Oui(0x70, 0x72, 0x3C), Vendor("Huawei", "Android Device")),
      Entry(Oui(0x00, 0x37, 0x6D), Vendor("LG", "Android Device"))
    ]
  }

  /** Dell computers. */
  function DellComputers(): seq<Entry> {
    [
      Entry(Oui(0x00, 0x14, 0x22), Vendor("Dell", "Windows PC")),
      Entry(Oui(0x00, 0x26, 0xB9), Vendor("Dell", "Windows PC")),
      Entry(Oui(0xF8, 0xDB, 0x88), Vendor("Dell", "Windows PC")),
      Entry(Oui(0x18, 0xA9, 0x9B), Vendor("Dell", "Windows PC"))
    ]
  }

  /** HP computers. */
  function HpComputers(): seq<Entry> {
    [
      Entry(Oui(0x00, 0x21, 0x5A), Vendor("HP", "Windows PC")),
      Entry(Oui(0x00, 0x23, 0x7D), Vendor("HP", "Windows PC")),
      Entry(Oui(0x94, 0x57, 0xA5), Vendor("HP", "Windows PC")),
      Entry(Oui(0x80, 0xC1, 0x6E), Vendor("HP", "Windows PC"))
    ]
  }

  /** Lenovo computers. */
  function LenovoComputers(): seq<Entry> {
    [
      Entry(Oui(0x00, 0x59, 0x07), Vendor("Lenovo", "Windows PC")),
      Entry(Oui(0xE8, 0x2A, 0x44), Vendor("Lenovo", "Windows PC")),
      Entry(Oui(0x48, 0x2D, 0x01), Vendor("Lenovo", "Windows PC"))
    ]
  }

  /** ASUS computers. */
  function AsusComputers(): seq<Entry> {
    [
      Entry(Oui(0x00, 0x1B, 0xFC), Vendor("ASUS", "Windows PC")),
      Entry(Oui(0x04, 0x92, 0x26), Vendor("ASUS", "Windows PC")),
      Entry(Oui(0x30, 0x85, 0xA9), Vendor("ASUS", "Windows PC"))
    ]
  }

  /** Acer computers. */
  function AcerComputers(): seq<Entry> {
    [
      Entry(Oui(0x00, 0x1C, 0x26), Vendor("Acer", "Windows PC")),
      Entry(Oui(0x84, 0x34, 0x97), Vendor("Acer", "Windows PC")),
      Entry(Oui(0xE0, 0x69, 0x95), Vendor("Acer", "Windows PC"))
    ]
  }

  /** Microsoft computers. */
  function MicrosoftComputers(): seq<Entry> {
    [
      Entry(Oui(0x00, 0x15, 0x5D), Vendor("Microsoft", "Windows PC")),
      Entry(Oui(0x28, 0x18, 0x78), Vendor("Microsoft", "Windows PC")),
      Entry(Oui(0xC8, 0xF7, 0x33), Vendor("Microsoft", "Windows PC"))
    ]
  }

  /** Raspberry Pi, Nest and Google devices, grouped under Google. */
  function GoogleAndPi(): seq<Entry> {
    [
      Entry(Oui(0xB8, 0x27, 0xEB), Vendor("Raspberry Pi", "IoT Device")),
      Entry(Oui(0xDC, 0xA6, 0x32), Vendor("Raspberry Pi", "IoT Device")),
      Entry(Oui(0x18, 0xB4, 0x30), Vendor("Nest", "IoT Device")),
      Entry(Oui(0xF4, 0xF5, 0xD8), Vendor("Google Home", "IoT Device")),
      Entry(Oui(0x00, 0x1A, 0x11), Vendor("Google Chromecast", "IoT Device"))
    ]
  }

  /** Philips smart-home devices. */
  function PhilipsSmartHome(): seq<Entry> {
    [
      Entry(Oui(0x00, 0x17, 0x88), Vendor("Philips Hue", "IoT Device")),
      Entry(Oui(0xB0, 0xC5, 0x54), Vendor("Samsung SmartThings", "IoT Device"))
    ]
  }

  /** Amazon smart-home devices. */
  function AmazonSmartHome(): seq<Entry> {
    [
      Entry(Oui(0x74, 0xC2, 0x46), Vendor("Amazon", "IoT Device")),
      Entry(Oui(0xFC, 0x65, 0xDE), Vendor("Amazon Alexa", "IoT Device")),
      Entry(Oui(0x0C, 0x47, 0xC9), Vendor("Amazon Echo", "IoT Device")),
      Entry(Oui(0x68, 0x54, 0xFD), Vendor("Amazon Fire", "IoT Device"))
    ]
  }

  /** Smart appliances. */
  function SmartAppliances(): seq<Entry> {
    [
      Entry(Oui(0x00, 0x0E, 0x8F), Vendor("Xiaomi Smart Home", "IoT Device")),
      Entry(Oui(0x60, 0xA4, 0x23), Vendor("Samsung Smart TV", "IoT Device")),
      Entry(Oui(0x00, 0x12, 0xFB), Vendor("Samsung Smart Appliance", "IoT Device")),
      Entry(Oui(0x00, 0x24, 0xE4), Vendor("LG Smart TV", "IoT Device"))
    ]
  }

  /** Routers and other network equipment. */
  function Routers(): seq<Entry> {
    [
      Entry(Oui(0x00, 0x50, 0xBA), Vendor("D-Link Router", "Router")),
      Entry(Oui(0x28, 0x10, 0x7B), Vendor("D-Link Router", "Router")),
      Entry(Oui(0x00, 0x25, 0x86), Vendor("TP-Link Router", "Router")),
      Entry(Oui(0x00, 0x1D, 0x7E), Vendor("Cisco-Linksys Router", "Router")),
      Entry(Oui(0x00, 0x18, 0xF8), Vendor("Cisco-Linksys Router", "Router")),
      Entry(Oui(0xE8, 0x48, 0xB8), Vendor("Ubiquiti", "WiFi Device")),
      Entry(Oui(0xDC, 0x9F, 0xDB), Vendor("Ubiquiti", "WiFi Device")),
      Entry(Oui(0x00, 0x14, 0x6C), Vendor("Netgear Router", "Router")),
      Entry(Oui(0xC0, 0x3F, 0x0E), Vendor("Netgear Router", "Router"))
    ]
  }

  /** Security and surveillance cameras. */
  function SecurityCameras(): seq<Entry> {
    [
      Entry(Oui(0x00, 0x80, 0xF0), Vendor("Panasonic Camera", "Security Camera")),
      Entry(Oui(0xC0, 0x56, 0x27), Vendor("Belkin Camera", "Security Camera")),
      Entry(Oui(0x00, 0x0C, 0x43), Vendor("Ralink Camera", "Security Camera")),
      Entry(Oui(0xB0, 0xC5, 0x54), Vendor("Hikvision Camera", "Security Camera")),
      Entry(Oui(0x28, 0x57, 0xBE), Vendor("Dahua Camera", "Security Camera")),
      Entry(Oui(0x00, 0x18, 0xAE), Vendor("Xiaomi Camera", "Security Camera"))
    ]
  }

  /** Gaming consoles. */
  function GamingConsoles(): seq<Entry> {
    [
      Entry(Oui(0x7C, 0xBB, 0x8A), Vendor("Nintendo Switch", "Gaming Console")),
      Entry(Oui(0x00, 0x50, 0xF2), Vendor("Microsoft Xbox", "Gaming Console")),
      Entry(Oui(0x00, 0xD9, 0xD1), Vendor("Sony PlayStation", "Gaming Console")),
      Entry(Oui(0x00, 0x04, 0x1F), Vendor("Sony PlayStation", "Gaming Console"))
    ]
  }

  /** The mobile-device groups of the other brands. */
  function MobileDevices(): seq<Entry> {
    SamsungMobiles() + XiaomiAndPoco() + OppoAndRealme() + OnePlusAndVivo() + OtherMobiles()
  }

  /** The computer-manufacturer groups. */
  function ComputerMakers(): seq<Entry> {
    DellComputers() + HpComputers() + LenovoComputers() + AsusComputers() + AcerComputers() + MicrosoftComputers()
  }

  /** The IoT and smart-home groups. */
  function SmartHome(): seq<Entry> {
    GoogleAndPi() + PhilipsSmartHome() + AmazonSmartHome() + SmartAppliances()
  }

  /** Routers, security cameras and gaming consoles. */
  function NetworkAndMedia(): seq<Entry> {
    Routers() + SecurityCameras() + GamingConsoles()
  }

  /** Every property definition of the object literal, in source order. */
  function Entries(): seq<Entry> {
    AppleDevices() + MobileDevices() + ComputerMakers() + SmartHome() + NetworkAndMedia()
  }

  // ---------------------------------------------------------------------
  // Key text
  // ---------------------------------------------------------------------

  predicate IsHexChar(c: char) {
    '0' <= c <= '9' || 'A' <= c <= 'F'
  }

  function HexDigit(v: int): (c: char)
    requires 0 <= v < 16
    ensures IsHexChar(c)
  {
    if v < 10 then ('0' as int + v) as char else ('A' as int + v - 10) as char
  }

  function HexValue(c: char): (v: int)
    requires IsHexChar(c)
    ensures 0 <= v < 16
    ensures HexDigit(v) == c
  {
    if c <= '9' then c as int - '0' as int else c as int - 'A' as int + 10
  }

  function Hex2(v: Octet): string {
    [HexDigit(v / 16), HexDigit(v % 16)]
  }

  /** The property name under which an entry is declared. */
  function KeyText(o: Oui): string {
    Hex2(o.a) + ":" + Hex2(o.b) + ":" + Hex2(o.c)
  }

  /** Text of the form `XX:XX:XX` with upper-case hex digits. */
  predicate IsKeyShaped(p: string) {
    && |p| == 8 && p[2] == ':' && p[5] == ':'
    && IsHexChar(p[0]) && IsHexChar(p[1]) && IsHexChar(p[3])
    && IsHexChar(p[4]) && IsHexChar(p[6]) && IsHexChar(p[7])
  }

  function ParseKey(p: string): Oui
    requires IsKeyShaped(p)
  {
    Oui(HexValue(p[0]) * 16 + HexValue(p[1]),
        HexValue(p[3]) * 16 + HexValue(p[4]),
        HexValue(p[6]) * 16 + HexValue(p[7]))
  }

  lemma HexDigitValue(v: int)
    requires 0 <= v < 16
    ensures HexValue(HexDigit(v)) == v
  {
  }

  lemma DivMod16(x: int, y: int)
    requires 0 <= x < 16 && 0 <= y < 16
    ensures (x * 16 + y) / 16 == x && (x * 16 + y) % 16 == y
  {
  }

  /** The two digits of `Hex2(v)` read back as `v`. */
  lemma Hex2Parse(v: Octet)
    ensures HexValue(Hex2(v)[0]) * 16 + HexValue(Hex2(v)[1]) == v
  {
    HexDigitValue(v / 16);
    HexDigitValue(v % 16);
  }

  /** Two digits read as `v` are the digits `Hex2(v)` writes. */
  lemma Hex2Unique(x: char, y: char, v: Octet)
    requires IsHexChar(x) && IsHexChar(y)
    requires HexValue(x) * 16 + HexValue(y) == v
    ensures Hex2(v) == [x, y]
  {
    DivMod16(HexValue(x), HexValue(y));
  }

  /** A property name equals an entry's key text exactly when it has the
      `XX:XX:XX` shape and parses to that entry's octets. */
  lemma KeyTextMatch(o: Oui, p: string)
    ensures KeyText(o) == p <==> IsKeyShaped(p) && ParseKey(p) == o
  {
    var k := KeyText(o);
    Hex2Parse(o.a);
    Hex2Parse(o.b);
    Hex2Parse(o.c);
    assert k[0..2] == Hex2(o.a) && k[3..5] == Hex2(o.b) && k[6..8] == Hex2(o.c);
    assert IsKeyShaped(k) && ParseKey(k) == o;
    if IsKeyShaped(p) && ParseKey(p) == o {
      Hex2Unique(p[0], p[1], o.a);
      Hex2Unique(p[3], p[4], o.b);
      Hex2Unique(p[6], p[7], o.c);
      assert k == p;
    }
  }

  // ---------------------------------------------------------------------
  // Property lookup: the last definition of a key wins
  // ---------------------------------------------------------------------

  /** The vendor of the last of `es[..n]` declared with octets `o`. */
  function FindFrom(es: seq<Entry>, o: Oui, n: nat): (r: Option<Vendor>)
    requires n <= |es|
    ensures r.None? <==> forall i :: 0 <= i < n ==> es[i].oui != o
    ensures r.Some? ==> exists i :: 0 <= i < n && es[i] == Entry(o, r.value)
                                  && forall j :: i < j < n ==> es[j].oui != o
  {
    if n == 0 then None
    else if es[n - 1].oui == o then Some(es[n - 1].vendor)
    else FindFrom(es, o, n - 1)
  }

  function Find(es: seq<Entry>, o: Oui): Option<Vendor> {
    FindFrom(es, o, |es|)
  }

  lemma {:induction false} FindFromPrefix(a: seq<Entry>, b: seq<Entry>, o: Oui, n: nat)
    requires n <= |a|
    ensures FindFrom(a + b, o, n) == FindFrom(a, o, n)
  {
    if n > 0 {
      assert (a + b)[n - 1] == a[n - 1];
      FindFromPrefix(a, b, o, n - 1);
    }
  }

  lemma {:induction false} FindFromConcat(a: seq<Entry>, b: seq<Entry>, o: Oui, m: nat)
    requires m <= |b|
    ensures FindFrom(a + b, o, |a| + m)
         == if FindFrom(b, o, m).Some? then FindFrom(b, o, m) else FindFrom(a, o, |a|)
  {
    if m == 0 {
      FindFromPrefix(a, b, o, |a|);
    } else {
      assert (a + b)[|a| + m - 1] == b[m - 1];
      FindFromConcat(a, b, o, m - 1);
    }
  }

  /** The answer of a later block of definitions if it has one, else
      the answer of the earlier block. */
  function Later(later: Option<Vendor>, earlier: Option<Vendor>): Option<Vendor> {
    if later.Some? then later else earlier
  }

  /** Definitions appended later take precedence over earlier ones. */
  lemma FindConcat(a: seq<Entry>, b: seq<Entry>, o: Oui)
    ensures Find(a + b, o) == Later(Find(b, o), Find(a, o))
  {
    FindFromConcat(a, b, o, |b|);
  }

  lemma FindMobileDevices(o: Oui)
    ensures Find(MobileDevices(), o)
         == Later(Find(OtherMobiles(), o), Later(Find(OnePlusAndVivo(), o), Later(Find(OppoAndRealme(), o),
            Later(Find(XiaomiAndPoco(), o), Find(SamsungMobiles(), o)))))
  {
    var g1, g2, g3 := SamsungMobiles(), XiaomiAndPoco(), OppoAndRealme();
    var g4, g5 := OnePlusAndVivo(), OtherMobiles();
    FindConcat(g1 + g2 + g3 + g4, g5, o);
    FindConcat(g1 + g2 + g3, g4, o);
    FindConcat(g1 + g2, g3, o);
    FindConcat(g1, g2, o);
  }

  lemma FindComputerMakers(o: Oui)
    ensures Find(ComputerMakers(), o)
         == Later(Find(MicrosoftComputers(), o), Later(Find(AcerComputers(), o), Later(Find(AsusComputers(), o),
            Later(Find(LenovoComputers(), o), Later(Find(HpComputers(), o), Find(DellComputers(), o))))))
  {
    var g1, g2, g3 := DellComputers(), HpComputers(), LenovoComputers();
    var g4, g5, g6 := AsusComputers(), AcerComputers(), MicrosoftComputers();
    FindConcat(g1 + g2 + g3 + g4 + g5, g6, o);
    FindConcat(g1 + g2 + g3 + g4, g5, o);
    FindConcat(g1 + g2 + g3, g4, o);
    FindConcat(g1 + g2, g3, o);
    FindConcat(g1, g2, o);
  }

  lemma FindSmartHome(o: Oui)
    ensures Find(SmartHome(), o)
         == Later(Find(SmartAppliances(), o), Later(Find(AmazonSmartHome(), o),
            Later(Find(PhilipsSmartHome(), o), Find(GoogleAndPi(), o))))
  {
    var g1, g2, g3, g4 := GoogleAndPi(), PhilipsSmartHome(), AmazonSmartHome(), SmartAppliances();
    FindConcat(g1 + g2 + g3, g4, o);
    FindConcat(g1 + g2, g3, o);
    FindConcat(g1, g2, o);
  }

  lemma FindNetworkAndMedia(o: Oui)
    ensures Find(NetworkAndMedia(), o)
         == Later(Find(GamingConsoles(), o), Later(Find(SecurityCameras(), o), Find(Routers(), o)))
  {
    FindConcat(Routers() + SecurityCameras(), GamingConsoles(), o);
    FindConcat(Routers(), SecurityCameras(), o);
  }

  /** Looking a key up in the whole table: the last category that
      defines it decides. */
  lemma FindEntries(o: Oui)
    ensures Find(Entries(), o)
         == Later(Find(NetworkAndMedia(), o), Later(Find(SmartHome(), o),
            Later(Find(ComputerMakers(), o), Later(Find(MobileDevices(), o), Find(AppleDevices(), o)))))
  {
    var c0, c1, c2, c3, c4 := AppleDevices(), MobileDevices(), ComputerMakers(), SmartHome(), NetworkAndMedia();
    FindConcat(c0 + c1 + c2 + c3, c4, o);
    FindConcat(c0 + c1 + c2, c3, o);
    FindConcat(c0 + c1, c2, o);
    FindConcat(c0, c1, o);
  }

  /** `obj[p]` over the first `n` definitions, comparing property names. */
  function DeclaredFrom(es: seq<Entry>, p: string, n: nat): Option<Vendor>
    requires n <= |es|
  {
    if n == 0 then None
    else if KeyText(es[n - 1].oui) == p then Some(es[n - 1].vendor)
    else DeclaredFrom(es, p, n - 1)
  }

  /** `macVendors[p]`. */
  function Declared(p: string): Option<Vendor> {
    DeclaredFrom(Entries(), p, |Entries()|)
  }

  lemma {:induction false} DeclaredFromByKey(es: seq<Entry>, p: string, n: nat)
    requires n <= |es|
    ensures DeclaredFrom(es, p, n) == if IsKeyShaped(p) then FindFrom(es, ParseKey(p), n) else None
  {
    if n > 0 {
      KeyTextMatch(es[n - 1].oui, p);
      DeclaredFromByKey(es, p, n - 1);
    }
  }

  /** Only `XX:XX:XX` names can be declared, and a declared name resolves
      to the last definition of its octets. */
  lemma DeclaredByKey(p: string)
    ensures Declared(p) == if IsKeyShaped(p) then Find(Entries(), ParseKey(p)) else None
  {
    DeclaredFromByKey(Entries(), p, |Entries()|);
  }

  /** `v` is the vendor of some definition in the table. */
  ghost predicate IsTableVendor(v: Vendor) {
    exists i :: 0 <= i < |Entries()| && Entries()[i].vendor == v
  }

  // ---------------------------------------------------------------------
  // Normalising a MAC address and formatting prefixes
  // ---------------------------------------------------------------------

  function Keep(c: char): string {
    if IsHexChar(UpperChar(c)) then [UpperChar(c)] else ""
  }

  /** Upper-case the address and drop every character that is not a
      hexadecimal digit. */
  function NormalizeMac(mac: string): (r: string)
    ensures forall i :: 0 <= i < |r| ==> IsHexChar(r[i])
    ensures |r| <= |mac|
  {
    if |mac| == 0 then "" else Keep(mac[0]) + NormalizeMac(mac[1..])
  }

  lemma {:induction false} NormalizeMacAppend(a: string, b: string)
    ensures NormalizeMac(a + b) == NormalizeMac(a) + NormalizeMac(b)
  {
    if |a| == 0 {
      assert a + b == b;
    } else {
      assert (a + b)[1..] == a[1..] + b;
      NormalizeMacAppend(a[1..], b);
    }
  }

  /** Normalising strips every character that is not a hex digit after
      upper-casing, so it is empty exactly when there is none. */
  lemma {:induction false} NormalizeMacEmpty(mac: string)
    ensures NormalizeMac(mac) == "" <==> forall i :: 0 <= i < |mac| ==> !IsHexChar(UpperChar(mac[i]))
  {
    if |mac| > 0 {
      NormalizeMacEmpty(mac[1..]);
      assert forall i :: 1 <= i < |mac| ==> mac[i] == mac[1..][i - 1];
    }
  }

  /** `prefix.match(/.{1,2}/g)`: consecutive pieces of two characters,
      the last one possibly single. */
  function Pairs(p: string): (r: seq<string>)
    requires p != ""
    ensures |r| == (|p| + 1) / 2
    ensures forall k :: 0 <= k < |r| ==> 1 <= |r[k]| <= 2
    decreases |p|
  {
    if |p| <= 2 then [p] else [p[..2]] + Pairs(p[2..])
  }

  /** Cut the prefix into pairs of characters (the last one may be
      single) and join them with colons. */
  function FormatPrefix(p: string): string
    requires p != ""
  {
    Join(Pairs(p), ":")
  }

  lemma {:induction false} FormatPrefixLength(p: string)
    requires p != ""
    ensures |FormatPrefix(p)| == |p| + (|p| + 1) / 2 - 1
    decreases |p|
  {
    if |p| > 2 {
      JoinCons(p[..2], Pairs(p[2..]), ":");
      FormatPrefixLength(p[2..]);
    }
  }

  lemma FormatSix(p: string)
    requires |p| == 6
    ensures FormatPrefix(p) == [p[0], p[1], ':', p[2], p[3], ':', p[4], p[5]]
  {
    var q := p[2..];
    var t := q[2..];
    assert Pairs(t) == [t];
    assert Pairs(q) == [q[..2]] + [t];
    JoinCons(q[..2], [t], ":");
    assert Pairs(p) == [p[..2]] + Pairs(q);
    JoinCons(p[..2], Pairs(q), ":");
  }

  /** The first `len` characters of the normalised address, or all of it
      when it is shorter. */
  function Prefix(n: string, len: nat): string {
    if |n| <= len then n else n[..len]
  }

  /** `keys[k]` is the first key the table declares. */
  predicate FirstDeclaredAt(keys: seq<string>, k: int) {
    0 <= k < |keys| && Declared(keys[k]).Some? && forall j :: 0 <= j < k ==> Declared(keys[j]).None?
  }

  /** The vendor of the first formatted prefix the table declares, or
      the unknown vendor when it declares none of them. */
  function FirstDeclared(keys: seq<string>): (v: Vendor)
    ensures v == UnknownVendor || exists k :: 0 <= k < |keys| && Declared(keys[k]) == Some(v)
    ensures (forall k :: 0 <= k < |keys| ==> Declared(keys[k]).None?) ==> v == UnknownVendor
    ensures forall k :: FirstDeclaredAt(keys, k) ==> v == Declared(keys[k]).value
  {
    if |keys| == 0 then UnknownVendor
    else if Declared(keys[0]).Some? then Declared(keys[0]).value
    else FirstDeclared(keys[1..])
  }

  /** `lookupVendor(macAddress)`. */
  function LookupVendor(mac: string): (r: Result<Vendor, LookupError>)
    ensures mac == "" ==> r == Ok(UnknownVendor)
    ensures r.Err? <==> mac != "" && NormalizeMac(mac) == ""
  {
    if mac == "" then Ok(UnknownVendor)
    else
      var n := NormalizeMac(mac);
      if n == "" then Err(MatchReturnedNull)
      else
        Ok(FirstDeclared([FormatPrefix(Prefix(n, 6)), FormatPrefix(Prefix(n, 7)), FormatPrefix(Prefix(n, 8))]))
  }

  /** A MAC the lookup can handle without throwing. */
  predicate LookupSafe(mac: string) {
    mac == "" || NormalizeMac(mac) != ""
  }

  /** The vendor `lookupVendor` returns (it throws only for unsafe MACs). */
  function VendorOf(mac: string): Vendor
    requires LookupSafe(mac)
  {
    LookupVendor(mac).value
  }

  // ---------------------------------------------------------------------
  // Properties of the lookup
  // ---------------------------------------------------------------------

  /** Only eight-character text can name a property of the table. */
  lemma DeclaredNeedsKeyLength(p: string)
    requires |p| != 8
    ensures Declared(p) == None
  {
    DeclaredByKey(p);
  }

  /** A vendor found under some key is the vendor of one of the
      definitions. */
  lemma FoundIsListed(es: seq<Entry>, o: Oui, v: Vendor)
    requires Find(es, o) == Some(v)
    ensures exists i :: 0 <= i < |es| && es[i].vendor == v
  {
    var i :| 0 <= i < |es| && es[i] == Entry(o, v) && forall j :: i < j < |es| ==> es[j].oui != o;
    assert es[i].vendor == v;
  }

  /** When the later keys repeat the first or name nothing, the first
      key decides. */
  lemma FirstDeclaredOfFirst(k1: string, k2: string, k3: string)
    requires k2 == k1 || Declared(k2) == None
    requires k3 == k1 || Declared(k3) == None
    ensures FirstDeclared([k1, k2, k3]) == Declared(k1).GetOr(UnknownVendor)
  {
    assert [k1, k2, k3][1..] == [k2, k3];
    assert [k2, k3][1..] == [k3];
    assert [k3][1..] == [];
  }

  /** The six-, seven- and eight-digit keys of a normalised MAC `n`: the
      seven- and eight-digit keys are either repeats of shorter ones or
      too long to name a property. */
  lemma LongerKeysNameNothing(n: string)
    requires n != ""
    ensures var k6, k7, k8 := FormatPrefix(Prefix(n, 6)), FormatPrefix(Prefix(n, 7)), FormatPrefix(Prefix(n, 8));
            (k7 == k6 || Declared(k7) == None) && (k8 == k6 || Declared(k8) == None)
            && (|n| < 6 ==> Declared(k6) == None)
  {
    var k6, k7, k8 := FormatPrefix(Prefix(n, 6)), FormatPrefix(Prefix(n, 7)), FormatPrefix(Prefix(n, 8));
    FormatPrefixLength(Prefix(n, 6));
    FormatPrefixLength(Prefix(n, 7));
    FormatPrefixLength(Prefix(n, 8));
    if |n| <= 6 {
      assert k7 == k6 && k8 == k6;
      if |n| < 6 {
        DeclaredNeedsKeyLength(k6);
      }
    } else {
      DeclaredNeedsKeyLength(k7);
      DeclaredNeedsKeyLength(k8);
    }
  }

  /** Only six-digit prefixes can hit the table: keys are eight
      characters long, while seven and eight digits format to ten and
      eleven. So the answer depends on the first six hex digits alone. */
  lemma LookupUsesFirstSixDigits(mac: string)
    requires mac != "" && NormalizeMac(mac) != ""
    ensures var n := NormalizeMac(mac);
            LookupVendor(mac) == Ok(if |n| >= 6 then Declared(FormatPrefix(n[..6])).GetOr(UnknownVendor) else UnknownVendor)
  {
    var n := NormalizeMac(mac);
    var k6, k7, k8 := FormatPrefix(Prefix(n, 6)), FormatPrefix(Prefix(n, 7)), FormatPrefix(Prefix(n, 8));
    LongerKeysNameNothing(n);
    FirstDeclaredOfFirst(k6, k7, k8);
    assert LookupVendor(mac) == Ok(FirstDeclared([k6, k7, k8]));
    if |n| >= 6 {
      assert Prefix(n, 6) == n[..6];
    }
  }

  /** Upper/lower case and separators do not matter: two MACs with the
      same hex digits get the same answer. */
  lemma LookupIgnoresCaseAndSeparators(m1: string, m2: string)
    requires m1 != "" && m2 != ""
    requires NormalizeMac(m1) == NormalizeMac(m2)
    ensures LookupVendor(m1) == LookupVendor(m2)
  {
  }

  /** Every answer is a definition of the table or the Unknown default. */
  lemma LookupAnswersFromTable(mac: string)
    requires LookupSafe(mac)
    ensures VendorOf(mac) == UnknownVendor || IsTableVendor(VendorOf(mac))
  {
    if mac != "" {
      var v := VendorOf(mac);
      var n := NormalizeMac(mac);
      var keys := [FormatPrefix(Prefix(n, 6)), FormatPrefix(Prefix(n, 7)), FormatPrefix(Prefix(n, 8))];
      if v != UnknownVendor {
        var k :| 0 <= k < |keys| && Declared(keys[k]) == Some(v);
        DeclaredByKey(keys[k]);
        FoundIsListed(Entries(), ParseKey(keys[k]), v);
      }
    }
  }

  /** Two hex digits (in either case) at `m[i]` and `m[i + 1]`. */
  predicate HexPairAt(m: string, i: nat)
    requires i + 1 < |m|
  {
    IsHexChar(UpperChar(m[i])) && IsHexChar(UpperChar(m[i + 1]))
  }

  /** A MAC written as six hex pairs with one separator between pairs. */
  predicate IsSeparatedMac(m: string) {
    && |m| == 17
    && HexPairAt(m, 0) && HexPairAt(m, 3) && HexPairAt(m, 6)
    && HexPairAt(m, 9) && HexPairAt(m, 12) && HexPairAt(m, 15)
    && !IsHexChar(UpperChar(m[2])) && !IsHexChar(UpperChar(m[5])) && !IsHexChar(UpperChar(m[8]))
    && !IsHexChar(UpperChar(m[11])) && !IsHexChar(UpperChar(m[14]))
  }

  lemma NormalizeTriple(x: char, y: char, z: char)
    requires IsHexChar(UpperChar(x)) && IsHexChar(UpperChar(y)) && !IsHexChar(UpperChar(z))
    ensures NormalizeMac([x, y, z]) == [UpperChar(x), UpperChar(y)]
  {
    assert [z][1..] == [];
    assert NormalizeMac([z]) == Keep(z) + NormalizeMac([]) == "";
    assert [y, z][1..] == [z];
    assert NormalizeMac([y, z]) == Keep(y) + NormalizeMac([z]) == [UpperChar(y)];
    assert [x, y, z][1..] == [y, z];
    assert NormalizeMac([x, y, z]) == Keep(x) + NormalizeMac([y, z]);
  }

  /** A hex pair followed by a separator, at `m[i..i + 3]`. */
  lemma NormalizePairAt(m: string, i: nat)
    requires i + 2 < |m| && HexPairAt(m, i) && !IsHexChar(UpperChar(m[i + 2]))
    ensures NormalizeMac(m[i..i + 3]) == [UpperChar(m[i]), UpperChar(m[i + 1])]
  {
    assert m[i..i + 3] == [m[i], m[i + 1], m[i + 2]];
    NormalizeTriple(m[i], m[i + 1], m[i + 2]);
  }

  /** Normalising from a hex pair followed by a separator keeps the pair
      and continues after the separator. */
  lemma NormalizeFromPairAt(m: string, i: nat)
    requires i + 2 < |m| && HexPairAt(m, i) && !IsHexChar(UpperChar(m[i + 2]))
    ensures NormalizeMac(m[i..]) == [UpperChar(m[i]), UpperChar(m[i + 1])] + NormalizeMac(m[i + 3..])
  {
    assert m[i..] == m[i..i + 3] + m[i + 3..];
    NormalizeMacAppend(m[i..i + 3], m[i + 3..]);
    NormalizePairAt(m, i);
  }

  lemma NormalizeSeparatedMac(m: string)
    requires IsSeparatedMac(m)
    ensures |NormalizeMac(m)| >= 6
    ensures NormalizeMac(m)[..6] == [UpperChar(m[0]), UpperChar(m[1]), UpperChar(m[3]), UpperChar(m[4]), UpperChar(m[6]), UpperChar(m[7])]
  {
    NormalizeFromPairAt(m, 0);
    NormalizeFromPairAt(m, 3);
    NormalizeFromPairAt(m, 6);
    assert m[0..] == m;
    SixOfPairs(UpperChar(m[0]), UpperChar(m[1]), UpperChar(m[3]), UpperChar(m[4]), UpperChar(m[6]), UpperChar(m[7]),
               NormalizeMac(m[9..]));
  }

  lemma SixOfPairs(c0: char, c1: char, c2: char, c3: char, c4: char, c5: char, t: string)
    ensures |[c0, c1] + ([c2, c3] + ([c4, c5] + t))| >= 6
    ensures ([c0, c1] + ([c2, c3] + ([c4, c5] + t)))[..6] == [c0, c1, c2, c3, c4, c5]
  {
  }

  // ---------------------------------------------------------------------
  // Groups that cannot declare a key: none of their entries has its
  // middle octet
  // ---------------------------------------------------------------------

  lemma SamsungMobilesLack(o: Oui)
    requires o.b != 0x26 && o.b != 0x35 && o.b != 0x3A && o.b != 0x71
    ensures Find(SamsungMobiles(), o) == None
  {
    var r := SamsungMobiles();
    assert forall i :: 0 <= i < |r| ==> r[i].oui.b != o.b;
  }

  lemma XiaomiAndPocoLack(o: Oui)
    requires o.b != 0x24 && o.b != 0x31 && o.b != 0x44 && o.b != 0xA4 && o.b != 0xCC
    ensures Find(XiaomiAndPoco(), o) == None
  {
    var r := XiaomiAndPoco();
    assert forall i :: 0 <= i < |r| ==> r[i].oui.b != o.b;
  }

  lemma OppoAndRealmeLack(o: Oui)
    requires o.b != 0x3D && o.b != 0xBB && o.b != 0xD2 && o.b != 0xD5
    ensures Find(OppoAndRealme(), o) == None
  {
    var r := OppoAndRealme();
    assert forall i :: 0 <= i < |r| ==> r[i].oui.b != o.b;
  }

  lemma OnePlusAndVivoLack(o: Oui)
    requires o.b != 0x1A && o.b != 0x47 && o.b != 0x5F && o.b != 0x65
    ensures Find(OnePlusAndVivo(), o) == None
  {
    var r := OnePlusAndVivo();
    assert forall i :: 0 <= i < |r| ==> r[i].oui.b != o.b;
  }

  lemma OtherMobilesLack(o: Oui)
    requires o.b != 0x23 && o.b != 0x37 && o.b != 0x72 && o.b != 0x82
    ensures Find(OtherMobiles(), o) == None
  {
    var r := OtherMobiles();
    assert forall i :: 0 <= i < |r| ==> r[i].oui.b != o.b;
  }

  lemma DellComputersLack(o: Oui)
    requires o.b != 0x14 && o.b != 0x26 && o.b != 0xA9 && o.b != 0xDB
    ensures Find(DellComputers(), o) == None
  {
    var r := DellComputers();
    assert forall i :: 0 <= i < |r| ==> r[i].oui.b != o.b;
  }

  lemma HpComputersLack(o: Oui)
    requires o.b != 0x21 && o.b != 0x23 && o.b != 0x57 && o.b != 0xC1
    ensures Find(HpComputers(), o) == None
  {
    var r := HpComputers();
    assert forall i :: 0 <= i < |r| ==> r[i].oui.b != o.b;
  }

  lemma LenovoComputersLack(o: Oui)
    requires o.b != 0x2A && o.b != 0x2D && o.b != 0x59
    ensures Find(LenovoComputers(), o) == None
  {
    var r := LenovoComputers();
    assert forall i :: 0 <= i < |r| ==> r[i].oui.b != o.b;
  }

  lemma AsusComputersLack(o: Oui)
    requires o.b != 0x1B && o.b != 0x85 && o.b != 0x92
    ensures Find(AsusComputers(), o) == None
  {
    var r := AsusComputers();
    assert forall i :: 0 <= i < |r| ==> r[i].oui.b != o.b;
  }

  lemma AcerComputersLack(o: Oui)
    requires o.b != 0x1C && o.b != 0x34 && o.b != 0x69
    ensures Find(AcerComputers(), o) == None
  {
    var r := AcerComputers();
    assert forall i :: 0 <= i < |r| ==> r[i].oui.b != o.b;
  }

  lemma MicrosoftComputersLack(o: Oui)
    requires o.b != 0x15 && o.b != 0x18 && o.b != 0xF7
    ensures Find(MicrosoftComputers(), o) == None
  {
    var r := MicrosoftComputers();
    assert forall i :: 0 <= i < |r| ==> r[i].oui.b != o.b;
  }

  lemma GoogleAndPiLack(o: Oui)
    requires o.b != 0x1A && o.b != 0x27 && o.b != 0xA6 && o.b != 0xB4 && o.b != 0xF5
    ensures Find(GoogleAndPi(), o) == None
  {
    var r := GoogleAndPi();
    assert forall i :: 0 <= i < |r| ==> r[i].oui.b != o.b;
  }

  lemma PhilipsSmartHomeLack(o: Oui)
    requires o.b != 0x17 && o.b != 0xC5
    ensures Find(PhilipsSmartHome(), o) == None
  {
    var r := PhilipsSmartHome();
    assert forall i :: 0 <= i < |r| ==> r[i].oui.b != o.b;
  }

  lemma AmazonSmartHomeLack(o: Oui)
    requires o.b != 0x47 && o.b != 0x54 && o.b != 0x65 && o.b != 0xC2
    ensures Find(AmazonSmartHome(), o) == None
  {
    var r := AmazonSmartHome();
    assert forall i :: 0 <= i < |r| ==> r[i].oui.b != o.b;
  }

  lemma SmartAppliancesLack(o: Oui)
    requires o.b != 0x0E && o.b != 0x12 && o.b != 0x24 && o.b != 0xA4
    ensures Find(SmartAppliances(), o) == None
  {
    var r := SmartAppliances();
    assert forall i :: 0 <= i < |r| ==> r[i].oui.b != o.b;
  }

  lemma RoutersLack(o: Oui)
    requires o.b != 0x10 && o.b != 0x14 && o.b != 0x18 && o.b != 0x1D && o.b != 0x25
    requires o.b != 0x3F && o.b != 0x48 && o.b != 0x50 && o.b != 0x9F
    ensures Find(Routers(), o) == None
  {
    var r := Routers();
    assert forall i :: 0 <= i < |r| ==> r[i].oui.b != o.b;
  }

  lemma SecurityCamerasLack(o: Oui)
    requires o.b != 0x0C && o.b != 0x18 && o.b != 0x56 && o.b != 0x57 && o.b != 0x80
    requires o.b != 0xC5
    ensures Find(SecurityCameras(), o) == None
  {
    var r := SecurityCameras();
    assert forall i :: 0 <= i < |r| ==> r[i].oui.b != o.b;
  }

  lemma GamingConsolesLack(o: Oui)
    requires o.b != 0x04 && o.b != 0x50 && o.b != 0xBB && o.b != 0xD9
    ensures Find(GamingConsoles(), o) == None
  {
    var r := GamingConsoles();
    assert forall i :: 0 <= i < |r| ==> r[i].oui.b != o.b;
  }

  lemma AcBc32InMobileDevices()
    ensures Find(MobileDevices(), Oui(0xAC, 0xBC, 0x32)) == None
  {
    var o := Oui(0xAC, 0xBC, 0x32);
    SamsungMobilesLack(o);
    XiaomiAndPocoLack(o);
    OppoAndRealmeLack(o);
    OnePlusAndVivoLack(o);
    OtherMobilesLack(o);
    FindMobileDevices(o);
  }

  lemma AcBc32InComputerMakers()
    ensures Find(ComputerMakers(), Oui(0xAC, 0xBC, 0x32)) == None
  {
    var o := Oui(0xAC, 0xBC, 0x32);
    DellComputersLack(o);
    HpComputersLack(o);
    LenovoComputersLack(o);
    AsusComputersLack(o);
    AcerComputersLack(o);
    MicrosoftComputersLack(o);
    FindComputerMakers(o);
  }

  lemma AcBc32InSmartHome()
    ensures Find(SmartHome(), Oui(0xAC, 0xBC, 0x32)) == None
  {
    var o := Oui(0xAC, 0xBC, 0x32);
    GoogleAndPiLack(o);
    PhilipsSmartHomeLack(o);
    AmazonSmartHomeLack(o);
    SmartAppliancesLack(o);
    FindSmartHome(o);
  }

  lemma AcBc32InNetworkAndMedia()
    ensures Find(NetworkAndMedia(), Oui(0xAC, 0xBC, 0x32)) == None
  {
    var o := Oui(0xAC, 0xBC, 0x32);
    RoutersLack(o);
    SecurityCamerasLack(o);
    GamingConsolesLack(o);
    FindNetworkAndMedia(o);
  }

  /** Finding octets that only the Apple group declares. */
  lemma FindAcBc32()
    ensures Find(Entries(), Oui(0xAC, 0xBC, 0x32)) == Some(Vendor("Apple", "iOS Device"))
  {
    assert Find(AppleDevices(), Oui(0xAC, 0xBC, 0x32)) == Some(Vendor("Apple", "iOS Device")) by {
      assert FindFrom(AppleDevices(), Oui(0xAC, 0xBC, 0x32), 6) == Some(Vendor("Apple", "iOS Device"));
    }
    AcBc32InMobileDevices();
    AcBc32InComputerMakers();
    AcBc32InSmartHome();
    AcBc32InNetworkAndMedia();
    FindEntries(Oui(0xAC, 0xBC, 0x32));
  }

  lemma B827EbInSmartHome()
    ensures Find(SmartHome(), Oui(0xB8, 0x27, 0xEB)) == Some(Vendor("Raspberry Pi", "IoT Device"))
  {
    var o := Oui(0xB8, 0x27, 0xEB);
    assert Find(GoogleAndPi(), o) == Some(Vendor("Raspberry Pi", "IoT Device")) by { assert FindFrom(GoogleAndPi(), o, 5) == Some(Vendor("Raspberry Pi", "IoT Device")); }
    PhilipsSmartHomeLack(o);
    AmazonSmartHomeLack(o);
    SmartAppliancesLack(o);
    FindSmartHome(o);
  }

  lemma B827EbInNetworkAndMedia()
    ensures Find(NetworkAndMedia(), Oui(0xB8, 0x27, 0xEB)) == None
  {
    var o := Oui(0xB8, 0x27, 0xEB);
    RoutersLack(o);
    SecurityCamerasLack(o);
    GamingConsolesLack(o);
    FindNetworkAndMedia(o);
  }

  /** Octets that the Google and Raspberry Pi group declares and no
      later group redefines. */
  lemma FindB827Eb()
    ensures Find(Entries(), Oui(0xB8, 0x27, 0xEB)) == Some(Vendor("Raspberry Pi", "IoT Device"))
  {
    B827EbInSmartHome();
    B827EbInNetworkAndMedia();
    FindEntries(Oui(0xB8, 0x27, 0xEB));
  }

  /** The first three pairs of a separated MAC, upper-cased and joined
      with colons. */
  function LeadingKey(m: string): string
    requires |m| >= 8
  {
    [UpperChar(m[0]), UpperChar(m[1]), ':', UpperChar(m[3]), UpperChar(m[4]), ':', UpperChar(m[6]), UpperChar(m[7])]
  }

  /** A MAC written as six hex pairs with separators is looked up by its
      first three pairs, upper-cased and joined with colons. */
  lemma LookupSeparatedMac(m: string)
    requires IsSeparatedMac(m)
    ensures LookupVendor(m) == Ok(Declared(LeadingKey(m)).GetOr(UnknownVendor))
  {
    NormalizeSeparatedMac(m);
    var n := NormalizeMac(m);
    FormatSix(n[..6]);
    LookupUsesFirstSixDigits(m);
  }

  /** A separated MAC whose first three pairs spell a key of the table
      gets the vendor of that key's last definition. */
  lemma LookupHit(m: string, o: Oui, v: Vendor)
    requires IsSeparatedMac(m) && LeadingKey(m) == KeyText(o)
    requires Find(Entries(), o) == Some(v)
    ensures LookupVendor(m) == Ok(v)
  {
    LookupSeparatedMac(m);
    DeclaredByKey(KeyText(o));
    KeyTextMatch(o, KeyText(o));
  }

  /** Every separated MAC starting with `AC:BC:32`, in either case, is an
      Apple iOS device. */
  lemma AppleOuiLookup(m: string, o: Oui)
    requires o == Oui(0xAC, 0xBC, 0x32)
    requires IsSeparatedMac(m) && LeadingKey(m) == KeyText(o)
    ensures LookupVendor(m) == Ok(Vendor("Apple", "iOS Device"))
  {
    FindAcBc32();
    LookupHit(m, o, Vendor("Apple", "iOS Device"));
  }

  lemma LgInSmartHome()
    ensures Find(SmartHome(), Oui(0x00, 0x24, 0xE4)) == Some(Vendor("LG Smart TV", "IoT Device"))
  {
    var o := Oui(0x00, 0x24, 0xE4);
    assert Find(SmartAppliances(), o) == Some(Vendor("LG Smart TV", "IoT Device")) by { assert FindFrom(SmartAppliances(), o, 4) == Some(Vendor("LG Smart TV", "IoT Device")); }
    FindSmartHome(o);
  }

  lemma LgInNetworkAndMedia()
    ensures Find(NetworkAndMedia(), Oui(0x00, 0x24, 0xE4)) == None
  {
    var o := Oui(0x00, 0x24, 0xE4);
    RoutersLack(o);
    SecurityCamerasLack(o);
    GamingConsolesLack(o);
    FindNetworkAndMedia(o);
  }

  /** `00:24:E4` is defined twice (Xiaomi, then LG Smart TV): the later
      definition wins. */
  lemma DuplicateKeyLg()
    ensures XiaomiAndPoco()[0] == Entry(Oui(0x00, 0x24, 0xE4), Vendor("Xiaomi", "Android Device"))
    ensures SmartAppliances()[3] == Entry(Oui(0x00, 0x24, 0xE4), Vendor("LG Smart TV", "IoT Device"))
    ensures Declared("00:24:E4") == Some(Vendor("LG Smart TV", "IoT Device"))
  {
    DeclaredByKey("00:24:E4");
    assert ParseKey("00:24:E4") == Oui(0x00, 0x24, 0xE4);
    LgInSmartHome();
    LgInNetworkAndMedia();
    FindEntries(Oui(0x00, 0x24, 0xE4));
  }

  lemma HikvisionInNetworkAndMedia()
    ensures Find(NetworkAndMedia(), Oui(0xB0, 0xC5, 0x54)) == Some(Vendor("Hikvision Camera", "Security Camera"))
  {
    var o := Oui(0xB0, 0xC5, 0x54);
    assert Find(SecurityCameras(), o) == Some(Vendor("Hikvision Camera", "Security Camera")) by { assert FindFrom(SecurityCameras(), o, 6) == Some(Vendor("Hikvision Camera", "Security Camera")); }
    GamingConsolesLack(o);
    FindNetworkAndMedia(o);
  }

  /** `B0:C5:54` is defined twice (Samsung SmartThings, then Hikvision
      Camera): the later definition wins. */
  lemma DuplicateKeyHikvision()
    ensures PhilipsSmartHome()[1] == Entry(Oui(0xB0, 0xC5, 0x54), Vendor("Samsung SmartThings", "IoT Device"))
    ensures SecurityCameras()[3] == Entry(Oui(0xB0, 0xC5, 0x54), Vendor("Hikvision Camera", "Security Camera"))
    ensures Declared("B0:C5:54") == Some(Vendor("Hikvision Camera", "Security Camera"))
  {
    DeclaredByKey("B0:C5:54");
    assert ParseKey("B0:C5:54") == Oui(0xB0, 0xC5, 0x54);
    HikvisionInNetworkAndMedia();
    FindEntries(Oui(0xB0, 0xC5, 0x54));
  }
}

=== FILE: network_range.dfy ===
/** `calculateNetworkRange` and `binaryToIp`: the CIDR range a scan
    covers, computed by writing the address and the netmask as strings
    of binary digits, AND-ing them digit by digit, reading the result
    back eight digits at a time and counting the ones of the mask. */
module NetworkRange {
  import opened Common

  type Octet = v: int | 0 <= v < 256

  /** A dotted IPv4 address as its four octets. */
  type Address = s: seq<Octet> | |s| == 4 witness [0, 0, 0, 0]

  // ---------------------------------------------------------------------
  // Binary digits
  // ---------------------------------------------------------------------

  /** Bit `k` of `v`, counting from the least significant bit. */
  function Bit(v: nat, k: nat): bool {
    if k == 0 then v % 2 == 1 else Bit(v / 2, k - 1)
  }

  function Pow2(n: nat): (r: nat)
    ensures r >= 1
  {
    if n == 0 then 1 else 2 * Pow2(n - 1)
  }

  predicate IsBits(s: string) {
    forall i :: 0 <= i < |s| ==> s[i] == '0' || s[i] == '1'
  }

  function BitChar(b: bool): char { if b then '1' else '0' }

  /** The binary text of `v` left-padded with zeros to `n` digits, for
      `v < 2^n`: the low `n` bits of `v`, most significant first. */
  function BitsOf(v: nat, n: nat): (r: string)
    ensures |r| == n && IsBits(r)
  {
    if n == 0 then "" else BitsOf(v / 2, n - 1) + [BitChar(v % 2 == 1)]
  }

  /** `parseInt(s, 2)` for a string of binary digits. */
  function ParseBits(s: string): (r: nat)
    requires IsBits(s)
    ensures r < Pow2(|s|)
  {
    if |s| == 0 then 0
    else 2 * ParseBits(s[..|s| - 1]) + (if s[|s| - 1] == '1' then 1 else 0)
  }

  /** The digit of weight `2^k` in `BitsOf(v, n)` is bit `k` of `v`. */
  lemma {:induction false} BitsOfBit(v: nat, n: nat, k: nat)
    requires k < n
    ensures BitsOf(v, n)[n - 1 - k] == BitChar(Bit(v, k))
  {
    if k > 0 {
      BitsOfBit(v / 2, n - 1, k - 1);
    }
  }

  /** Reading the digits back gives the number. */
  lemma {:induction false} ParseBitsOf(v: nat, n: nat)
    requires v < Pow2(n)
    ensures ParseBits(BitsOf(v, n)) == v
  {
    if n > 0 {
      var s := BitsOf(v, n);
      assert s[..n - 1] == BitsOf(v / 2, n - 1);
      ParseBitsOf(v / 2, n - 1);
    }
  }

  /** Writing a parsed digit string gives the string back. */
  lemma {:induction false} BitsOfParse(s: string)
    requires IsBits(s)
    ensures BitsOf(ParseBits(s), |s|) == s
  {
    if |s| > 0 {
      var init := s[..|s| - 1];
      var p := ParseBits(s);
      assert p / 2 == ParseBits(init);
      BitsOfParse(init);
      assert s == init + [s[|s| - 1]];
    }
  }

  // ---------------------------------------------------------------------
  // Addresses as binary strings
  // ---------------------------------------------------------------------

  /** The address as the concatenation of its octets' eight-digit
      binary forms. */
  function Binary(os: seq<Octet>): (r: string)
    ensures |r| == 8 * |os| && IsBits(r)
  {
    if |os| == 0 then "" else BitsOf(os[0], 8) + Binary(os[1..])
  }

  /** Cut a bit string whose length is a multiple of eight into groups of
      eight and read each group as a binary number. */
  function Octets(s: string): (r: seq<Octet>)
    requires IsBits(s) && |s| % 8 == 0
    ensures |r| == |s| / 8
  {
    if |s| == 0 then []
    else
      assert Pow2(8) == 256;
      [ParseBits(s[..8]) as Octet] + Octets(s[8..])
  }

  /** `binaryToIp` inverts the eight-digit encoding of octets. */
  lemma {:induction false} OctetsOfBinary(os: seq<Octet>)
    ensures Octets(Binary(os)) == os
  {
    if |os| > 0 {
      var s := Binary(os);
      assert s[..8] == BitsOf(os[0], 8);
      assert s[8..] == Binary(os[1..]);
      assert Pow2(8) == 256;
      ParseBitsOf(os[0], 8);
      OctetsOfBinary(os[1..]);
    }
  }

  /** And the encoding inverts `binaryToIp` on well-formed digit strings. */
  lemma {:induction false} BinaryOfOctets(s: string)
    requires IsBits(s) && |s| % 8 == 0
    ensures Binary(Octets(s)) == s
  {
    if |s| > 0 {
      BitsOfParse(s[..8]);
      BinaryOfOctets(s[8..]);
      assert s == s[..8] + s[8..];
    }
  }

  /** The bitwise AND of two bit strings of equal length, position by
      position. */
  function AndBits(a: string, b: string): (r: string)
    requires |a| == |b|
    ensures |r| == |a| && IsBits(r)
    ensures forall i :: 0 <= i < |a| ==> (r[i] == '1' <==> a[i] == '1' && b[i] == '1')
  {
    seq(|a|, i requires 0 <= i < |a| => BitChar(a[i] == '1' && b[i] == '1'))
  }

  /** The prefix length of a mask: the number of ones in its bit string. */
  function CountOnes(s: string): (r: nat)
    ensures r <= |s|
  {
    if |s| == 0 then 0 else (if s[0] == '1' then 1 else 0) + CountOnes(s[1..])
  }

  /** `a.b.c.d`. */
  function IpText(os: seq<Octet>): string {
    Join(seq(|os|, i requires 0 <= i < |os| => NatToString(os[i])), ".")
  }

  // ---------------------------------------------------------------------
  // calculateNetworkRange
  // ---------------------------------------------------------------------

  datatype Cidr = Cidr(network: seq<Octet>, prefix: nat)

  /** The network address and prefix length `calculateNetworkRange`
      computes. */
  function NetworkOf(ip: Address, mask: Address): (r: Cidr)
    ensures |r.network| == 4
    ensures r.prefix <= 32
  {
    var maskBinary := Binary(mask);
    Cidr(Octets(AndBits(Binary(ip), maskBinary)), CountOnes(maskBinary))
  }

  /** `calculateNetworkRange(ip, netmask)`: `network/prefix`. */
  function CalculateNetworkRange(ip: Address, mask: Address): string {
    var c := NetworkOf(ip, mask);
    IpText(c.network) + "/" + NatToString(c.prefix)
  }

  lemma {:induction false} BinaryIndex(os: seq<Octet>, j: nat, k: nat)
    requires j < |os| && k < 8
    ensures Binary(os)[8 * j + 7 - k] == BitChar(Bit(os[j], k))
  {
    if j == 0 {
      BitsOfBit(os[0], 8, k);
    } else {
      BinaryIndex(os[1..], j - 1, k);
    }
  }

  /** Each octet of the network address is the bitwise AND of the
      address octet and the mask octet. */
  lemma NetworkIsBitwiseAnd(ip: Address, mask: Address, j: nat, k: nat)
    requires j < 4 && k < 8
    ensures var net := NetworkOf(ip, mask).network;
            Bit(net[j], k) <==> Bit(ip[j], k) && Bit(mask[j], k)
  {
    var a := AndBits(Binary(ip), Binary(mask));
    var net := Octets(a);
    BinaryOfOctets(a);
    BinaryIndex(net, j, k);
    BinaryIndex(ip, j, k);
    BinaryIndex(mask, j, k);
  }

  /** A bit string that is `'1'` exactly at its first `n` positions has
      `n` ones. */
  lemma {:induction false} CountOnesLeading(s: string, n: nat)
    requires n <= |s|
    requires forall i :: 0 <= i < |s| ==> (s[i] == '1' <==> i < n)
    ensures CountOnes(s) == n
    decreases |s|
  {
    if |s| > 0 {
      var m := if n == 0 then 0 else n - 1;
      assert forall i :: 0 <= i < |s[1..]| ==> s[1..][i] == s[i + 1];
      CountOnesLeading(s[1..], m);
    }
  }

  /** A contiguous mask of `n` leading ones (a `/n` netmask) gives the
      prefix length `n`, whatever the address. */
  lemma ContiguousMaskPrefix(ip: Address, mask: Address, n: nat)
    requires n <= 32
    requires forall j, k :: 0 <= j < 4 && 0 <= k < 8 ==> (Bit(mask[j], k) <==> 8 * j + 7 - k < n)
    ensures NetworkOf(ip, mask).prefix == n
  {
    var b := Binary(mask);
    forall p | 0 <= p < 32
      ensures b[p] == '1' <==> p < n
    {
      BinaryIndex(mask, p / 8, 7 - p % 8);
      assert 8 * (p / 8) + 7 - (7 - p % 8) == p;
    }
    CountOnesLeading(b, n);
  }

  /** AND-ing with the mask a second time changes nothing, so the range
      of the network address is the range of the address. */
  lemma NetworkRangeIdempotent(ip: Address, mask: Address)
    ensures NetworkOf(NetworkOf(ip, mask).network, mask) == NetworkOf(ip, mask)
    ensures CalculateNetworkRange(NetworkOf(ip, mask).network, mask) == CalculateNetworkRange(ip, mask)
  {
    var m := Binary(mask);
    var a := AndBits(Binary(ip), m);
    var net := Octets(a);
    BinaryOfOctets(a);
    assert AndBits(Binary(net), m) == a;
  }

  // ---------------------------------------------------------------------
  // A worked /24 example: 192.168.1.37 with 255.255.255.0
  // ---------------------------------------------------------------------

  /** The binary form of four octets is the four eight-digit groups. */
  lemma Binary4(os: seq<Octet>)
    requires |os| == 4
    ensures Binary(os) == BitsOf(os[0], 8) + BitsOf(os[1], 8) + BitsOf(os[2], 8) + BitsOf(os[3], 8)
  {
    var t1 := os[1..];
    var t2 := t1[1..];
    var t3 := t2[1..];
    assert Binary(t3) == BitsOf(os[3], 8) + Binary(t3[1..]);
    assert Binary(t2) == BitsOf(os[2], 8) + Binary(t3);
    assert Binary(t1) == BitsOf(os[1], 8) + Binary(t2);
  }

  lemma CountOnesAppend(a: string, b: string)
    ensures CountOnes(a + b) == CountOnes(a) + CountOnes(b)
  {
    if |a| > 0 {
      assert (a + b)[0] == a[0];
      assert (a + b)[1..] == a[1..] + b;
      CountOnesAppend(a[1..], b);
    } else {
      assert a + b == b;
    }
  }

  lemma Bits255() ensures BitsOf(255, 8) == "11111111" {}
  lemma Bits192() ensures BitsOf(192, 8) == "11000000" {}
  lemma Bits168() ensures BitsOf(168, 8) == "10101000" {}
  lemma Bits37() ensures BitsOf(37, 8) == "00100101" {}
  lemma Bits1() ensures BitsOf(1, 8) == "00000001" {}
  lemma Bits0() ensures BitsOf(0, 8) == "00000000" {}

  /** A run of one repeated digit has as many ones as its length when
      the digit is `'1'`, and none otherwise. */
  lemma {:induction false} CountOnesUniform(s: string, c: char)
    requires forall i :: 0 <= i < |s| ==> s[i] == c
    ensures CountOnes(s) == if c == '1' then |s| else 0
  {
    if |s| > 0 {
      CountOnesUniform(s[1..], c);
    }
  }

  /** The mask 255.255.255.0 has twenty-four one digits. */
  lemma ExampleMaskOnes(mask: Address)
    requires mask[0] == 255 && mask[1] == 255 && mask[2] == 255 && mask[3] == 0
    ensures CountOnes(Binary(mask)) == 24
  {
    var o := BitsOf(255, 8);
    var z := BitsOf(0, 8);
    Bits255(); Bits0();
    Binary4(mask);
    CountOnesUniform(o, '1');
    CountOnesUniform(z, '0');
    CountOnesAppend(o, o);
    CountOnesAppend(o + o, o);
    CountOnesAppend(o + o + o, z);
  }

  lemma ExampleAnd()
    ensures AndBits("11000000101010000000000100100101", "11111111111111111111111100000000")
            == "11000000101010000000000100000000"
  {}

  /** The network address is whatever octets the AND-ed digits spell. */
  lemma NetworkFromBinaries(ip: Address, mask: Address, net: Address)
    requires AndBits(Binary(ip), Binary(mask)) == Binary(net)
    ensures NetworkOf(ip, mask).network == net
  {
    OctetsOfBinary(net);
  }

  lemma ExampleAddressBits(ip: Address)
    requires ip[0] == 192 && ip[1] == 168 && ip[2] == 1 && ip[3] == 37
    ensures Binary(ip) == "11000000101010000000000100100101"
  {
    Bits192(); Bits168(); Bits1(); Bits37();
    Binary4(ip);
  }

  lemma ExampleMaskBits(mask: Address)
    requires mask[0] == 255 && mask[1] == 255 && mask[2] == 255 && mask[3] == 0
    ensures Binary(mask) == "11111111111111111111111100000000"
  {
    Bits255(); Bits0();
    Binary4(mask);
  }

  lemma ExampleNetworkBits(net: Address)
    requires net[0] == 192 && net[1] == 168 && net[2] == 1 && net[3] == 0
    ensures Binary(net) == "11000000101010000000000100000000"
  {
    Bits192(); Bits168(); Bits1(); Bits0();
    Binary4(net);
  }

  lemma ExampleFromBits(ip: Address, mask: Address, net: Address)
    requires Binary(ip) == "11000000101010000000000100100101"
    requires Binary(mask) == "11111111111111111111111100000000"
    requires Binary(net) == "11000000101010000000000100000000"
    requires CountOnes(Binary(mask)) == 24
    ensures NetworkOf(ip, mask) == Cidr(net, 24)
  {
    ExampleAnd();
    NetworkFromBinaries(ip, mask, net);
  }

  /** `calculateNetworkRange('192.168.1.37', '255.255.255.0')` is
      `192.168.1.0/24`. The octets are parameters so that the solver works
      on the eight-digit groups one at a time. */
  lemma ClassCExample(ip: Address, mask: Address, net: Address)
    requires ip[0] == 192 && ip[1] == 168 && ip[2] == 1 && ip[3] == 37
    requires mask[0] == 255 && mask[1] == 255 && mask[2] == 255 && mask[3] == 0
    requires net[0] == 192 && net[1] == 168 && net[2] == 1 && net[3] == 0
    ensures NetworkOf(ip, mask) == Cidr(net, 24)
  {
    ExampleAddressBits(ip);
    ExampleMaskBits(mask);
    ExampleNetworkBits(net);
    ExampleMaskOnes(mask);
    ExampleFromBits(ip, mask, net);
  }
}

=== FILE: vendor_examples.dfy ===
/** Worked lookups of concrete MAC addresses. */
module VendorExamples {
  import opened Common
  import opened MacVendors

  lemma AppleMacShape()
    ensures IsSeparatedMac("AC:BC:32:11:22:33")
    ensures LeadingKey("AC:BC:32:11:22:33") == KeyText(Oui(0xAC, 0xBC, 0x32))
  {
  }

  lemma AppleMacLowerCaseShape()
    ensures IsSeparatedMac("ac-bc-32-11-22-33")
    ensures LeadingKey("ac-bc-32-11-22-33") == KeyText(Oui(0xAC, 0xBC, 0x32))
  {
  }

  /** The example of a six-digit prefix hit: `AC:BC:32:11:22:33` is an
      Apple iOS device. */
  lemma AppleExample()
    ensures LookupVendor("AC:BC:32:11:22:33") == Ok(Vendor("Apple", "iOS Device"))
  {
    AppleMacShape();
    AppleOuiLookup("AC:BC:32:11:22:33", Oui(0xAC, 0xBC, 0x32));
  }

  /** The same MAC in lower case with dashes gets the same answer. */
  lemma AppleExampleLowerCase()
    ensures LookupVendor("ac-bc-32-11-22-33") == Ok(Vendor("Apple", "iOS Device"))
  {
    AppleMacLowerCaseShape();
    AppleOuiLookup("ac-bc-32-11-22-33", Oui(0xAC, 0xBC, 0x32));
  }
}
